=== FILE: README.md ===
# Weekly review pulse: a Dafny model of the deterministic core

The pipeline turns app-store reviews into a weekly "product pulse" email. It has four layers:

- **Layer 1** validates the scraped reviews, flags PII in them and drops reviews it has already seen.
- **Layer 2** groups the reviews into at most five themes.
- **Layer 3** extracts quotes, summaries and action ideas, and assembles a pulse document capped at 250 words.
- **Layer 4** runs a two-stage PII gate, then delivers the email to every recipient. Delivery uses a bounded retry loop, a read-receipt tracker and an append-only send ledger.

Helper modules provide the rest:

- a chunked map-reduce summariser;
- a keyword classifier with guardrails for the language model's answers;
- a plain-text email formatter;
- the weekly scheduler's run bookkeeping.

This project models that bookkeeping in Dafny, using immutable datatypes and pure functions. It proves what each operation promises. The scraper, the ML clustering, the language models, SMTP, the regular expressions and the clocks stay outside the model. Each enters as a parameter:

- a language-model call is an `Option` (None when the call or its JSON parsing raised), plus an `available` flag;
- the SMTP transport is a function from attempt number to outcome;
- PII detectors, regex substitutions and the SHA-256 digest are functions;
- clock readings are strings.

The modules follow the source files:

| module | file |
|---|---|
| `Ingest` | layer1_import.py |
| `Themes` | layer2_themes.py |
| `Content` | layer3_content.py |
| `Distribution` | layer4_distribution.py |
| `SendPulse` | send_weekly_pulse.py |
| `Summarizer` | summarizer.py |
| `Classifier` | classifier.py and themes.py |
| `Scheduler` | scheduler.py |
| `Emailer` | emailer.py |

Four shared modules support them:

- `Wrappers` holds `Option`.
- `Seqs` holds filter, map, flatten, chunking and subsequences.
- `Text` models whitespace splitting as both a word automaton and a token list, plus ASCII case mapping, strip and search.
- `Sorting` is a stable descending sort by key, because Python's `sorted(..., reverse=True)` is stable.

Where the code differs from the documented design, the model follows the code:

- `Themes.EnforceLimit` appends the merged "Other" theme last and does not re-sort. With sizes 45, 38, 32, 28, 22, 15, 12 and 8 the result is 45, 38, 32, 28, 57 (`Themes.EightClustersExample`).
- The theme limit is the constant 5. The configured `max_themes` is never consulted.
- An authentication failure reports the attempt on which it happened. It does not report the maximum.
- The single compression pass in `_enforce_word_limit` does not guarantee 250 words. `Content.CompressedMayExceedLimit` exhibits an assembled document that stays over the limit, even though the repository's layer-3 test asserts otherwise.
- Some defaults differ between paths. A BLOCKED ledger row uses "Weekly Pulse" as its subject default, while a delivered row uses "Weekly Product Pulse". The ledger records 1 attempt when the delivery reports none.

## Model

| member | source | states |
|---|---|---|
| Ingest.Validate | layer1_import.py:50-73 | accepts exactly the well-formed records, with an empty message iff accepted; otherwise the first failing check in the order presence, reviewId, content, score, at decides the message, and missing fields are listed |
| Ingest.ValidateBatch | layer1_import.py:76-85 | the result is exactly the order-preserving subsequence of the valid inputs, all well formed |
| Ingest.ContainsPii | layer1_import.py:99-118 | empty text is clean; otherwise each kind appears iff its detector fires, at most once, in the order email, phone, long_digits, and has_pii iff the list is non-empty |
| Ingest.FlagPii | layer1_import.py:121-128 | same length and order; every review gets both PII flags computed from its content and keeps its other fields |
| Ingest.ReviewKey | layer1_import.py:158-169 | a non-empty string reviewId is the key verbatim; otherwise the key is the digest of "content\|timestamp" |
| Ingest.FallbackKeysCollide | layer1_import.py:165-169 | two id-less reviews with equal content and timestamp get the same key |
| Ingest.FilterDuplicates | layer1_import.py:171-186 | the output is a subsequence with pairwise distinct keys, none seen before, each the first input with its key; the seen set becomes the old set plus the output keys and covers every input key; the store is written iff something new was kept |
| Ingest.FilterDuplicatesIdempotent | layer1_import.py:176-181 | filtering the same batch a second time keeps nothing and leaves the store unchanged |
| Ingest.FilterDuplicatesGrows | layer1_import.py:176-181 | the seen set never shrinks |
| Ingest.MarkAsSeen | layer1_import.py:188-193 | every key of the batch is added and the store is always written |
| Ingest.ProcessBatch | layer1_import.py:206-231 | an empty fetch accepts nothing and leaves the store alone; otherwise the result is the gate: validate, flag PII, then drop duplicates by key. Every accepted review is well formed, flagged, new and unique by key; the seen set becomes the old set plus the accepted keys; every valid review's key ends up seen, and a valid review with a new key has an accepted review with that key |
| Ingest.GateCovers | layer1_import.py:219-228 | after validation, flagging and deduplication, the key of every valid fetched review is in the seen set, because flagging leaves the key alone |
| Themes.TallySpec | layer2_themes.py:273 | the word counter has distinct keys, each an input item with its exact number of occurrences, and covers every item |
| Themes.TallyKeys | layer2_themes.py:273 | the counter's keys are the distinct items in order of first appearance |
| Themes.GetClusterStats | layer2_themes.py:146-165 | no labels give no statistics; otherwise one size per non-noise label in first-appearance order, each its exact count, all labels covered, the noise count exact, and sizes plus noise equal the number of points |
| Sorting.SortDesc | layer2_themes.py:305-307 | the result is a permutation of the input, non-increasing by key, and stable: the items with any given key keep their input order |
| Themes.EnforceLimit | layer2_themes.py:289-333 | returns min(n, 5) themes; up to five are only stably ranked by size; beyond five the four largest are kept in order and the rest are merged into "Other" (cluster id -2, description "Mixed feedback on various topics") with their total size and their ids in rank order, placed last |
| Themes.EnforceLimitStable | layer2_themes.py:305-329 | beyond five, the kept four followed by the merged themes hold, for every size, the themes of that size in input order |
| Themes.EnforceLimitConservesSize | layer2_themes.py:305-329 | the sizes of the result add up to the sizes of the input in both branches |
| Themes.EightClustersExample | layer2_themes.py:312-329 | sizes 45, 38, 32, 28, 22, 15, 12, 8 give the four largest and an "Other" of 57 from clusters 4-7, so the result is not sorted |
| Themes.Enrich | layer2_themes.py:418-435 | one annotated review per input, in order, with its cluster label; noise gets "Noise", other labels get the name of their theme, else of the theme that merged them, else "Other" |
| Themes.EnrichAfterLimit | layer2_themes.py:418-435 | after the limit, a review of a kept cluster gets that theme's name and a review of a merged cluster gets "Other" |
| Themes.WordRunsCover | layer2_themes.py:267 | the word runs found, concatenated, are exactly the word characters of the text |
| Themes.TopWords | layer2_themes.py:273-275 | at most two words, none for no input; the first is at least as frequent as any word and the second at least as frequent as any other word; a single result means one distinct word; two results differ; ties go to the word seen first, so every word occurring before a chosen word's first occurrence (other than the first choice) is strictly less frequent |
| Themes.FallbackLabel | layer2_themes.py:259-280 | "General Feedback" when the first five reviews have no keyword; otherwise the name's words are the top one or two keywords, capitalised; the description names the label in lower case |
| Content.CutAtSpace | layer3_content.py:72 | a prefix of the first max characters, cut before the last space of that prefix, or the whole prefix when it has no space |
| Content.TruncateQuote | layer3_content.py:71-72 | texts within the limit are unchanged; longer ones become the first max characters cut at their last space (`CutAtSpace`) followed by "..." |
| Content.Candidates | layer3_content.py:58-65 | min(2k, n) reviews drawn from the input, in non-increasing confidence, each at least as confident as every review left out; for each confidence the chosen reviews are the first of that confidence in input order |
| Content.Extract | layer3_content.py:43-87 | no reviews give no quotes; at most k quotes, all tagged with the theme, which are the first k eligible ones among the top 2k reviews by confidence, truncated and anonymised |
| Content.Sentiment | layer3_content.py:188-190 | "positive" when the mean rating is at least 4, "negative" when below 3, else "mixed", with the empty list mixed |
| Content.MeanBound | layer3_content.py:188-190 | the real-valued mean comparison agrees with the integer comparison sum >= bound * count |
| Content.FallbackSummary | layer3_content.py:185-192 | the summary is the review count, "users share", the sentiment, "feedback about", the lower-cased theme name and the fixed tail ", indicating this is a notable concern." |
| Content.FallbackActions | layer3_content.py:301-307 | one templated action for each of the first min(3, n) themes, in order |
| Content.GenerateActions | layer3_content.py:207-238 | never more than three; without an answer the fallback actions; with one, the model's actions first, padded from the fallback when fewer than three |
| Content.CapWords | layer3_content.py:397-400 | at most 60 words; text within the cap is unchanged; longer text keeps its first 60 words with "..." on the last |
| Content.Overview | layer3_content.py:386-402 | the overview never has more than 60 words |
| Content.PickPerTheme | layer3_content.py:406-413 | at most one quote per top theme, at most three, each from the pool with a top theme; with at most three themes, the first pool quote of each theme that has one is picked |
| Content.PickPerThemeFirst | layer3_content.py:410-413 | the first pass is the first three of "the first pool quote of each named theme that has one", in theme order |
| Content.Fill | layer3_content.py:415-418 | extends the selection with pool quotes not yet chosen, without repeats, up to three; a short result holds the whole pool |
| Content.FillFresh | layer3_content.py:416-418 | the fill is the selection followed by the first distinct pool quotes not in it, in pool order, as many as the room under three allows |
| Content.SelectQuotes | layer3_content.py:404-420 | at most three quotes, all from the pool, starting with the per-theme picks; the fill adds no repeats; fewer than three only when the pool is exhausted |
| Content.SelectQuotesOrder | layer3_content.py:404-420 | the selection equals the reference order: the per-theme first quotes in theme order, cut at three, then the first pool quotes not among them in pool order, three in all |
| Content.CountWords | layer3_content.py:422-436 | the count is the total number of whitespace tokens over the title, overview, theme lines, quotes and actions |
| Content.FirstSentence | layer3_content.py:453 | a prefix containing no ". "; it is the whole summary exactly when the summary has none; otherwise it ends at the first ". ", keeping the full stop |
| Content.CompressFewerWords | layer3_content.py:449-457 | cutting summaries to their first sentence never adds words |
| Content.EnforceWordLimit | layer3_content.py:438-461 | the stored count always equals the returned document's count and never exceeds the original's; within 250 words only the count changes; above it only the theme summaries change, each cut to its first sentence |
| Content.CompressedMayExceedLimit | layer3_content.py:438-461 | an assembled document with three 84-word actions and no themes has more than 250 words after the word limit, since compression only shortens theme summaries |
| Content.AssembledCountsActions | layer3_content.py:328-384 | the final word count of an assembled document is at least the words of its first three actions |
| Content.Assemble | layer3_content.py:328-384 | title "Weekly Product Pulse – product"; the capped overview of all themes (at most 60 words); the first three themes with their names and sizes; the quotes are the texts of `SelectQuotes` over the pool and those three themes' names; the first three actions; every summary kept when the uncompressed draft has at most 250 words, every summary cut to its first sentence otherwise; metadata with the total size of all themes and the final word count |
| Distribution.Examples | layer4_distribution.py:289-306 | at most three examples of a kind, each tagged with its kind, in match order |
| Distribution.Check | layer4_distribution.py:276-308 | has_pii iff some example was found iff some detector matched; examples come kind by kind in the order email, phone, digits, name, at most 12 |
| Distribution.VerifyEmail | layer4_distribution.py:311-329 | the report carries both example lists; each body is clean iff it has no examples; overall clean is the conjunction, and the returned flag equals it |
| Distribution.Attempts | layer4_distribution.py:390-453 | the final attempt n is within bounds and every earlier attempt was retryable; SENT iff attempt n delivered; the error is attempt n's; a retryable last attempt means n is the maximum; sent_at is set only on success |
| Distribution.SendEmail | layer4_distribution.py:360-453 | a missing setting gives the configuration error with no attempt; fewer than one retry gives "Max retries exceeded" with 0 attempts; otherwise the result of the retry loop, with an authentication failure fatal on its own attempt and one delay between consecutive attempts |
| Distribution.AttemptsUseOnlyPrefix | layer4_distribution.py:390-453 | no transport outcome after the final attempt is ever consulted |
| Distribution.RecordSend | layer4_distribution.py:487-514 | appends exactly one "sent" record and keeps the earlier ones |
| Distribution.RecordOpen | layer4_distribution.py:516-524 | changes only the first record with the id, to "opened" with its time; an unknown id changes nothing |
| Distribution.RecordReadReceipt | layer4_distribution.py:526-534 | changes only the first record with the id, to "read" with its time; an unknown id changes nothing |
| Distribution.Stats | layer4_distribution.py:536-550 | the total is the number of records; opened is the number of records with an opened time and read the number with a read-receipt time, so neither exceeds the total |
| Distribution.RecordSendStats | layer4_distribution.py:501-511 | a send adds one to the total and nothing to opened or read |
| Distribution.RecordOpenStats | layer4_distribution.py:516-524 | an open keeps the total and the read count, and adds one open exactly when the first matching record was not yet opened |
| Distribution.RecordReadStats | layer4_distribution.py:526-534 | a read receipt keeps the total and the opened count, and adds one read exactly when the first matching record was not yet read |
| Distribution.TrackSent | layer4_distribution.py:655-663 | tracking appends one record per SENT result, in order, and none for failures |
| Distribution.SentPlusFailed | layer4_distribution.py:666-667 | when every result is SENT or ERROR, the sent and failed counts add up to the number of results |
| Distribution.Distribute | layer4_distribution.py:580-689 | a dirty report blocks: sent = failed = 0, no results, tracker untouched; otherwise one delivery per recipient in order, sent + failed = recipients, and only SENT results tracked |
| SendPulse.ScrubAndMask | send_weekly_pulse.py:25-48 | the five substitutions run in the order email, +91 mobile, phone, digit run, titled name, each with its fixed placeholder |
| SendPulse.OpenLedger | send_weekly_pulse.py:64-79 | a missing ledger starts with the nine-column header alone; an existing one is kept as is |
| SendPulse.RowCells | send_weekly_pulse.py:81-115 | every ledger row has the nine columns of the header |
| SendPulse.LogSend | send_weekly_pulse.py:81-115 | appends exactly one row and keeps every earlier line, so the ledger stays nine columns wide |
| SendPulse.SendClean | send_weekly_pulse.py:206-262 | after the gate the ledger only grows, keeps its prefix and stays well formed |
| SendPulse.SendCleanEffects | send_weekly_pulse.py:210-262 | a dry run neither delivers nor logs; otherwise exactly one delivery call (3 attempts, 5 s apart) and exactly one ledger row with the delivery's status, attempts and error and pii_clean True, and the reported status is the delivery's |
| SendPulse.SendPulseEmail | send_weekly_pulse.py:120-288 | clean bodies go on unscrubbed; dirty ones are scrubbed once each and re-checked once, then sent, or else BLOCKED with one ledger row; the ledger is append-only throughout |
| SendPulse.BlockedNeverDelivers | send_weekly_pulse.py:186-203 | a BLOCKED run makes no delivery call and appends exactly one row, the BLOCKED row with pii_clean False |
| Seqs.Chunks | summarizer.py:19-23 | the chunks concatenate back to the input; each is non-empty and at most size long; all but the last have exactly size items |
| Summarizer.ChunkList | summarizer.py:19-23 | a zero step raises (None), a negative step gives no chunks, a positive one gives the chunking |
| Summarizer.AddDistinct | summarizer.py:74-80 | extends the accumulator and never exceeds the cap; keeps distinctness; adds only new items; below the cap every item is present |
| Summarizer.AddDistinctFresh | summarizer.py:74-80 | a full accumulator is unchanged; otherwise the result is the accumulator followed by the first cap - n items new to it, distinct and in first-appearance order |
| Summarizer.AddDistinctConcat | summarizer.py:74-80 | merging one list after another is merging their concatenation |
| Summarizer.AggregateStream | summarizer.py:31-82 | aggregating chunk by chunk equals one capped distinct merge over all points and all quotes in order |
| Summarizer.SummarizeTheme | summarizer.py:26-82 | echoes the theme; at most 5 distinct points and 3 distinct quotes in first-appearance order over all chunks; empty input or a negative step gives empty lists; a zero step raises |
| Summarizer.FallbackSummary | summarizer.py:62-80 | without a model, non-empty input gives exactly the three template points and the two fixed quotes |
| Summarizer.WordCountOf | summarizer.py:96-97 | zero for empty text, otherwise the number of whitespace tokens, stripping included |
| Summarizer.NoteWords | summarizer.py:85-97 | the word count of the note text is the sum over its parts, since empty parts are dropped |
| Summarizer.SynthesizeWeeklyPulse | summarizer.py:100-148 | a model note with themes is kept; otherwise the template note has one theme per name, three quotes and three actions naming entries 0-2, which needs at least three names |
| Summarizer.CompressNoteIfNeeded | summarizer.py:151-169 | a note that fits, a missing model or a failed call keep the note; only an over-long note is replaced, by the model's answer, and an over-long note is replaced whenever the model answers |
| Classifier.ThemeTable | themes.py:7-28 | the five table themes in order; "Other" is not one of them and "Onboarding" is |
| Classifier.AnyKeyword | classifier.py:14-16 | true iff some keyword, lower-cased, occurs in the lower-cased text |
| Classifier.FirstMatch | classifier.py:13-17 | the index of the first theme with a matching keyword, or none when no theme matches |
| Classifier.AssignTheme | classifier.py:8-17 | "Other" iff no theme matches; otherwise the first matching theme in table order; always a table theme or "Other" |
| Classifier.RepromptSingle | classifier.py:60-76 | the keyword heuristic without a model or on an error; otherwise the stripped answer |
| Classifier.Guard | classifier.py:108-120 | keeps the id; a valid item is unchanged; an invalid theme becomes a valid re-prompt answer, else "Onboarding", with the adjusted reason when the reason is empty; the result's theme is always valid |
| Classifier.ClassifyReviews | classifier.py:79-121 | without a model one heuristic item per review in order; with one, every theme is valid; a failed call gives, per review in order, its keyword-heuristic item with the "(LLM error)" reason passed through the guardrail; an answer gives each answered item passed through the guardrail, so valid answers pass unchanged |
| Classifier.RecordItemsSpec | classifier.py:133-134 | the stored ids are the old ones plus the items' ids; each id holds its last item; untouched ids keep their entries |
| Classifier.WeekLoopChunks | classifier.py:127-139 | the accumulate-and-flush loop classifies exactly the consecutive batches of ten |
| Classifier.ClassifyWeek | classifier.py:124-139 | the week's map records the batches of at most ten in turn, so later duplicates overwrite earlier ones |
| Classifier.WeekThemesValid | classifier.py:109-139 | with the model every stored theme is a table theme |
| Scheduler.ToDict | scheduler.py:42-57 | seven keys, and reading the dictionary back reproduces the configuration |
| Scheduler.FromDict | scheduler.py:26-57 | accepted iff every key is a known field and each value has its field's type; the configuration takes each given value and the default for every missing key, so the empty dictionary gives the defaults |
| Scheduler.RecordRun | scheduler.py:105-125 | the total grows by one and exactly one of successes and failures grows by one; the new record heads a history capped at 50; last_run is its time; consistency is preserved |
| Scheduler.RecordRunsCounts | scheduler.py:88-125 | from a consistent state, any run sequence keeps the counters consistent, adds its length to the total and its SUCCESS count to the successes |
| Scheduler.SetNextRun | scheduler.py:127-130 | sets the next run and nothing else |
| Scheduler.GetStats | scheduler.py:132-144 | copies the counters and times; the success rate is successes / total * 100 after some run and 0 before any, within 0-100, and 100 when no run failed |
| Scheduler.RateBound | scheduler.py:140-143 | the percentage of a part of a positive total lies in 0-100, and is 100 for the whole |
| Scheduler.NewScheduler | scheduler.py:153-174 | stores the day lower-cased and starts not running |
| Scheduler.ExecuteWorkflow | scheduler.py:176-205 | records exactly one run, SUCCESS when the workflow returns and FAILED with its message when it raises; nothing else changes |
| Scheduler.Schedule | scheduler.py:207-231 | a day outside the seven weekday names is rejected with its message; otherwise exactly one job is registered and the next run stored |
| Scheduler.Start | scheduler.py:238-262 | a no-op while running; otherwise registers the job and marks the scheduler running, or fails on an invalid day |
| Scheduler.Stop | scheduler.py:264-268 | not running and no jobs afterwards; nothing else changes |
| Scheduler.StartIdempotent | scheduler.py:245-247 | starting twice registers the job once |
| Scheduler.CapitalisedDayAccepted | scheduler.py:172-221 | "Monday" is accepted because the day is lower-cased first |
| Emailer.Subject | emailer.py:19-20 | the subject "Weekly Product Pulse – product (start–end)" with en dashes |
| Emailer.Section | emailer.py:73-84 | nothing for an empty list; otherwise the header and the bullets of the first three items |
| Emailer.FallbackLines | emailer.py:61-87 | the line count is fixed by which parts are present, and is at most 18 |
| Emailer.FallbackLinesEnds | emailer.py:68-87 | the lines open with the product and window, a blank and the title (then the overview when present) and close with a blank and the closing line |
| Emailer.FallbackLinesSections | emailer.py:71-84 | each section header stands where its list begins, iff the list is non-empty, followed by the first three items |
| Emailer.FallbackBodyEnds | emailer.py:68-87 | the body starts with the product and window and ends with the closing line |
| Emailer.DraftWeeklyEmail | emailer.py:23-87 | the model's reply when it gave one, the formatter's body otherwise |
| Emailer.ScrubPii | emailer.py:90-100 | empty text is returned unchanged; other text goes through the email, phone and long-digit substitutions in that order |

## Left out

- Scraping and fetch loops, embeddings, HDBSCAN clustering and its confidence arithmetic are not part of this model. These are network I/O and ML libraries. Cluster labels and confidences are inputs, and confidence is an integer key.
- Language-model calls are outside the model: prompts, response parsing (`_parse_actions`, JSON decoding) and model names. Each call is an `Option` answer.
- A model payload that parses but lacks keys (a `.get` default) is not modelled. The oracles return complete records.
- Regular-expression semantics are parameters: the email, phone, titled-name and digit-run patterns, `re.findall` and `re.sub`. Only `\b\w+\b` word runs are modelled concretely. `\w`, `lower()` and whitespace are ASCII.
- File, JSON and CSV persistence is in memory. This covers the dedup state, tracking data, scheduler state, the send ledger and the preview files. Save failures and logging are not modelled.
- Floats are not modelled, except the scheduler's success rate, which is a `real`. The tracker's open and read rates are not computed.
- Clocks are string parameters. Week-window date arithmetic is not modelled.
- Environment defaults are inputs. The send script's sender, password and recipient are inputs and the model holds no default value for them. The scheduler's `from_env` is not modelled.
- HTML and plain-text template rendering is outside the model. Bodies are opaque strings.
- SMTP is reduced to an outcome per attempt. This leaves out MIME multipart/alternative assembly (section 5.1.4 of RFC 2046), submission (RFC 5321), STARTTLS, read-receipt headers and sleeping.
- The `schedule` library's timing loop, blocking mode, Ctrl+C handling and `run_once` are not modelled. A registered job is counted.
- Scheduler.Schedule: assumes the time string is well formed, because the `schedule` library's validation in `.at()` is not modelled; a malformed time such as "25:00" makes the source raise before any job is registered.
- Scheduler.Start: inherits that assumption; with a malformed time the source raises before the scheduler is marked running, while the model registers the job and marks it running.
- `send_email` and `log_email_send` in emailer.py are not part of this model. The pipeline delivers through layer 4 and the send script.
- The classifier table's theme descriptions and the classification prompt builder are left out. They only feed prompts.
- Scheduler.FromDict: rejects a value of the wrong type (a string where an integer is expected, or the reverse), which Python's `cls(**data)` would store as given, because the dataclass performs no type checks and the model's fields are typed.
- Ingest.ReviewKey: differs from the source on records validation rejects, because only validated records are deduplicated. A truthy non-string `reviewId` (a number) is returned as is by the source; the model digests such records. A non-string content is formatted by the source's f-string ("None", "5"); the model uses "". A present `at` that is not a datetime makes the source's `.isoformat()` raise; the model uses the current time.
- Ingest.FlagPii: requires the content to be text, absent or falsy, because a truthy non-string content makes the source's regular-expression search raise. A falsy content (None, 0, an empty list) is reported clean, as the source's `if not text` does.

=== FILE: classifier.dfy ===
/**
 * The keyword classifier and its language-model variant with guardrails.
 * Reviews are tagged with one of five fixed themes; a keyword match on the
 * lower-cased text picks the first theme in table order, and a model answer
 * naming anything outside the table is re-prompted or forced to
 * "Onboarding". A week of reviews is classified in batches of ten.
 *
 * The model is a parameter: `available` says whether it is configured, a
 * batch call's parsed answer is an `Option` (None when it raised), and so is
 * a single re-prompt's raw text.
 */
module Classifier {
  import opened Wrappers
  import opened Seqs
  import opened Text

  // ---------------------------------------------------------------------
  // Theme table
  // ---------------------------------------------------------------------

  datatype ThemeDef = ThemeDef(name: string, keywords: seq<string>)

  /** The fixed themes, in table order. */
  const Themes: seq<ThemeDef> := [
    ThemeDef("Onboarding", ["install", "setup", "first", "onboard", "experience", "getting started", "new user"]),
    ThemeDef("KYC", ["kyc", "verification", "identity", "document", "aadhar", "pan", "id verification"]),
    ThemeDef("Payments", ["payment", "bank account", "link", "card", "deposit", "funds", "transfer"]),
    ThemeDef("Statement", ["statement", "report", "summary", "history", "balance", "portfolio", "account statement"]),
    ThemeDef("Withdrawals", ["withdraw", "withdrawal", "cash out", "payout", "redeem", "transfer out"])
  ]

  const OtherTheme := "Other"
  const DefaultTheme := "Onboarding"

  /** The table's theme names, in order. */
  const ThemeNames: seq<string> := ["Onboarding", "KYC", "Payments", "Statement", "Withdrawals"]

  /** Membership in the theme table. */
  predicate ValidTheme(name: string) {
    name in ThemeNames
  }

  lemma ThemeTable()
    ensures |Themes| == |ThemeNames|
    ensures forall i :: 0 <= i < |Themes| ==> Themes[i].name == ThemeNames[i]
    ensures !ValidTheme(OtherTheme)
    ensures ValidTheme(DefaultTheme)
  {
    assert ThemeNames[0] == DefaultTheme;
    forall i | 0 <= i < |ThemeNames|
      ensures ThemeNames[i] != OtherTheme
    {
      assert ThemeNames[i][0] != 'O' || ThemeNames[i][1] != 't';
    }
  }

  // ---------------------------------------------------------------------
  // Keyword heuristic
  // ---------------------------------------------------------------------

  /** Some keyword of `t`, lower-cased, occurs in `lowered`. */
  predicate Matches(t: ThemeDef, lowered: string) {
    exists k :: 0 <= k < |t.keywords| && Contains(lowered, Lower(t.keywords[k]))
  }

  /** The inner keyword loop. */
  function AnyKeyword(kws: seq<string>, lowered: string): (b: bool)
    ensures b <==> exists k :: 0 <= k < |kws| && Contains(lowered, Lower(kws[k]))
  {
    if kws == [] then false
    else if Contains(lowered, Lower(kws[0])) then true
    else
      var b := AnyKeyword(kws[1..], lowered);
      assert forall k :: 1 <= k < |kws| ==> kws[k] == kws[1..][k - 1];
      b
  }

  /** The outer loop: the index of the first matching theme, if any. */
  function FirstMatch(ts: seq<ThemeDef>, lowered: string): (r: Option<nat>)
    ensures r.None? <==> forall i :: 0 <= i < |ts| ==> !Matches(ts[i], lowered)
    ensures r.Some? ==> r.value < |ts| && Matches(ts[r.value], lowered)
    ensures r.Some? ==> forall j :: 0 <= j < r.value ==> !Matches(ts[j], lowered)
  {
    if ts == [] then None
    else if AnyKeyword(ts[0].keywords, lowered) then Some(0)
    else
      match FirstMatch(ts[1..], lowered)
      case None => None
      case Some(i) => Some(i + 1)
  }

  /**
   * The theme of the first table entry having a keyword inside the
   * lower-cased text, or "Other" when none has.
   */
  function AssignTheme(text: string): (r: string)
    ensures r == OtherTheme <==> forall i :: 0 <= i < |Themes| ==> !Matches(Themes[i], Lower(text))
    ensures r != OtherTheme ==>
      exists i :: 0 <= i < |Themes| && Themes[i].name == r && Matches(Themes[i], Lower(text)) &&
        forall j :: 0 <= j < i ==> !Matches(Themes[j], Lower(text))
    ensures ValidTheme(r) || r == OtherTheme
  {
    ThemeTable();
    match FirstMatch(Themes, Lower(text))
    case None => OtherTheme
    case Some(i) => Themes[i].name
  }

  // ---------------------------------------------------------------------
  // Model classification with guardrails
  // ---------------------------------------------------------------------

  /** A review as handed to the classifier. */
  datatype ReviewIn = ReviewIn(reviewId: Option<string>, title: string, text: string)

  /** One classification result. */
  datatype Item = Item(reviewId: Option<string>, chosenTheme: string, shortReason: string)

  /** A batch call's parsed answer; None when the call or parsing raised. */
  type BatchOracle = seq<ReviewIn> -> Option<seq<Item>>

  /** A single re-prompt's raw answer; None when the call raised. */
  type RepromptOracle = ReviewIn -> Option<string>

  const HeuristicReason := "Assigned by keyword heuristic."
  const ErrorReason := "Assigned by keyword heuristic (LLM error)."
  const AdjustedReason := "Adjusted to allowed theme after validation."

  function HeuristicItem(r: ReviewIn, reason: string): Item {
    Item(r.reviewId, AssignTheme(r.text), reason)
  }

  /** Re-asks for one review; the heuristic answers when the model is absent or raises. */
  function RepromptSingle(review: ReviewIn, available: bool, reprompt: RepromptOracle): (r: string)
    ensures !available ==> r == AssignTheme(review.text)
    ensures available && reprompt(review).None? ==> r == AssignTheme(review.text)
    ensures available && reprompt(review).Some? ==> r == Strip(reprompt(review).value)
  {
    if !available then AssignTheme(review.text)
    else match reprompt(review)
      case None => AssignTheme(review.text)
      case Some(t) => Strip(t)
  }

  /** The index of the first review of the batch with the given id. */
  function FindIndex(batch: seq<ReviewIn>, id: Option<string>): (r: Option<nat>)
    ensures r.None? <==> forall i :: 0 <= i < |batch| ==> batch[i].reviewId != id
    ensures r.Some? ==> r.value < |batch| && batch[r.value].reviewId == id
    ensures r.Some? ==> forall j :: 0 <= j < r.value ==> batch[j].reviewId != id
  {
    if batch == [] then None
    else if batch[0].reviewId == id then Some(0)
    else
      match FindIndex(batch[1..], id)
      case None => None
      case Some(i) => Some(i + 1)
  }

  /** The first review of the batch with the given id, or an empty one. */
  function FindReview(batch: seq<ReviewIn>, id: Option<string>): ReviewIn {
    match FindIndex(batch, id)
    case None => ReviewIn(None, "", "")
    case Some(i) => batch[i]
  }

  /** The guardrail on one item: an out-of-table theme is re-prompted, then forced to the default. */
  function Guard(item: Item, batch: seq<ReviewIn>, reprompt: RepromptOracle): (r: Item)
    ensures r.reviewId == item.reviewId
    ensures ValidTheme(r.chosenTheme)
    ensures ValidTheme(item.chosenTheme) ==> r == item
    ensures !ValidTheme(item.chosenTheme) ==>
      var c := RepromptSingle(FindReview(batch, item.reviewId), true, reprompt);
      && r.chosenTheme == (if ValidTheme(c) then c else DefaultTheme)
      && r.shortReason == (if item.shortReason == "" then AdjustedReason else item.shortReason)
  {
    ThemeTable();
    if ValidTheme(item.chosenTheme) then item
    else
      var c := RepromptSingle(FindReview(batch, item.reviewId), true, reprompt);
      Item(item.reviewId, if ValidTheme(c) then c else DefaultTheme,
           if item.shortReason == "" then AdjustedReason else item.shortReason)
  }

  /**
   * Classifies one batch: the keyword heuristic without a model; with one,
   * its answer (or the heuristic when the call raised) passed through the
   * guardrail.
   */
  function ClassifyReviews(batch: seq<ReviewIn>, available: bool, llm: BatchOracle, reprompt: RepromptOracle)
    : (r: seq<Item>)
    ensures !available ==> |r| == |batch| && forall i :: 0 <= i < |batch| ==>
      r[i] == Item(batch[i].reviewId, AssignTheme(batch[i].text), HeuristicReason)
    ensures available ==> forall i :: 0 <= i < |r| ==> ValidTheme(r[i].chosenTheme)
    ensures available && llm(batch).None? ==> |r| == |batch| && forall i :: 0 <= i < |batch| ==>
      r[i].reviewId == batch[i].reviewId
    ensures available && llm(batch).Some? ==>
      var data := llm(batch).value;
      |r| == |data| && forall i :: 0 <= i < |data| ==>
        r[i].reviewId == data[i].reviewId && (ValidTheme(data[i].chosenTheme) ==> r[i] == data[i])
    ensures available && llm(batch).None? ==> forall i :: 0 <= i < |batch| ==>
      r[i] == Guard(Item(batch[i].reviewId, AssignTheme(batch[i].text), ErrorReason), batch, reprompt)
    ensures available && llm(batch).Some? ==> forall i :: 0 <= i < |llm(batch).value| ==>
      r[i] == Guard(llm(batch).value[i], batch, reprompt)
  {
    if !available then
      Map(batch, (x: ReviewIn) => HeuristicItem(x, HeuristicReason))
    else
      var data := llm(batch).GetOr(Map(batch, (x: ReviewIn) => HeuristicItem(x, ErrorReason)));
      Map(data, (it: Item) => Guard(it, batch, reprompt))
  }

  // ---------------------------------------------------------------------
  // A week in batches of ten
  // ---------------------------------------------------------------------

  const BatchSize := 10

  datatype Entry = Entry(theme: string, reason: string)

  type Results = map<Option<string>, Entry>

  /** Stores each item under its id, in order, so a later one overwrites an earlier one. */
  function RecordItems(results: Results, items: seq<Item>): Results
    decreases |items|
  {
    if items == [] then results
    else
      var it := items[0];
      RecordItems(results[it.reviewId := Entry(it.chosenTheme, it.shortReason)], items[1..])
  }

  /**
   * The stored ids are the earlier ones plus the items' ids; an item no later
   * item shares its id with is stored as is, and an untouched id keeps its entry.
   */
  lemma {:induction false} RecordItemsSpec(results: Results, items: seq<Item>)
    ensures var r := RecordItems(results, items);
      forall k :: k in r <==> k in results || exists i :: 0 <= i < |items| && items[i].reviewId == k
    ensures var r := RecordItems(results, items);
      forall i :: 0 <= i < |items| && (forall j :: i < j < |items| ==> items[j].reviewId != items[i].reviewId) ==>
        r[items[i].reviewId] == Entry(items[i].chosenTheme, items[i].shortReason)
    ensures var r := RecordItems(results, items);
      forall k :: k in results && (forall i :: 0 <= i < |items| ==> items[i].reviewId != k) ==> r[k] == results[k]
    decreases |items|
  {
    if items != [] {
      var it := items[0];
      RecordItemsSpec(results[it.reviewId := Entry(it.chosenTheme, it.shortReason)], items[1..]);
      assert forall i :: 1 <= i < |items| ==> items[i] == items[1..][i - 1];
    }
  }

  function Classify(available: bool, llm: BatchOracle, reprompt: RepromptOracle): seq<ReviewIn> -> seq<Item> {
    (b: seq<ReviewIn>) => ClassifyReviews(b, available, llm, reprompt)
  }

  /** Records the results of each batch in turn. */
  function RecordBatches(results: Results, batches: seq<seq<ReviewIn>>, classify: seq<ReviewIn> -> seq<Item>): Results
    decreases |batches|
  {
    if batches == [] then results
    else RecordBatches(RecordItems(results, classify(batches[0])), batches[1..], classify)
  }

  /** The batching loop: a batch is flushed once it holds ten reviews, and the remainder at the end. */
  function WeekLoop(rest: seq<ReviewIn>, current: seq<ReviewIn>, results: Results,
                    classify: seq<ReviewIn> -> seq<Item>): Results
    requires |current| < BatchSize
    decreases |rest|
  {
    if rest == [] then
      if current != [] then RecordItems(results, classify(current)) else results
    else
      var cur := current + [rest[0]];
      if |cur| >= BatchSize then WeekLoop(rest[1..], [], RecordItems(results, classify(cur)), classify)
      else WeekLoop(rest[1..], cur, results, classify)
  }

  /** The loop records the consecutive batches of ten of everything it has seen. */
  lemma {:induction false} WeekLoopChunks(rest: seq<ReviewIn>, current: seq<ReviewIn>, results: Results,
                                          classify: seq<ReviewIn> -> seq<Item>)
    requires |current| < BatchSize
    ensures WeekLoop(rest, current, results, classify)
      == RecordBatches(results, Chunks(current + rest, BatchSize), classify)
    decreases |rest|
  {
    if rest == [] {
      assert current + rest == current;
    } else {
      var cur := current + [rest[0]];
      assert current + rest == cur + rest[1..];
      if |cur| >= BatchSize {
        var all := cur + rest[1..];
        WeekLoopChunks(rest[1..], [], RecordItems(results, classify(cur)), classify);
        assert [] + rest[1..] == rest[1..];
        if rest[1..] == [] {
          assert all == cur;
        } else {
          assert all[..BatchSize] == cur;
          assert all[BatchSize..] == rest[1..];
        }
      } else {
        WeekLoopChunks(rest[1..], cur, results, classify);
      }
    }
  }

  /**
   * Classifies a week: each review id maps to the entry of its last
   * classification, over consecutive batches of at most ten reviews.
   */
  function ClassifyWeek(reviews: seq<ReviewIn>, available: bool, llm: BatchOracle, reprompt: RepromptOracle)
    : (r: Results)
    ensures r == RecordBatches(map[], Chunks(reviews, BatchSize), Classify(available, llm, reprompt))
  {
    WeekLoopChunks(reviews, [], map[], Classify(available, llm, reprompt));
    assert [] + reviews == reviews;
    WeekLoop(reviews, [], map[], Classify(available, llm, reprompt))
  }

  /** Recording items whose themes satisfy `p` keeps every stored theme satisfying `p`. */
  lemma {:induction false} RecordItemsKeeps(results: Results, items: seq<Item>, p: string -> bool)
    requires forall k :: k in results ==> p(results[k].theme)
    requires forall i :: 0 <= i < |items| ==> p(items[i].chosenTheme)
    ensures forall k :: k in RecordItems(results, items) ==> p(RecordItems(results, items)[k].theme)
    decreases |items|
  {
    if items != [] {
      var it := items[0];
      var next := results[it.reviewId := Entry(it.chosenTheme, it.shortReason)];
      assert forall k :: k in next ==> p(next[k].theme);
      assert forall i :: 0 <= i < |items| - 1 ==> items[1..][i] == items[i + 1];
      RecordItemsKeeps(next, items[1..], p);
      assert RecordItems(results, items) == RecordItems(next, items[1..]);
    }
  }

  /** Recording batches whose classifications all satisfy `p` keeps every stored theme satisfying `p`. */
  lemma {:induction false} RecordBatchesKeeps(results: Results, batches: seq<seq<ReviewIn>>,
                                              classify: seq<ReviewIn> -> seq<Item>, p: string -> bool)
    requires forall k :: k in results ==> p(results[k].theme)
    requires forall b: seq<ReviewIn>, i :: 0 <= i < |classify(b)| ==> p(classify(b)[i].chosenTheme)
    ensures forall k :: k in RecordBatches(results, batches, classify) ==>
      p(RecordBatches(results, batches, classify)[k].theme)
    decreases |batches|
  {
    if batches != [] {
      RecordItemsKeeps(results, classify(batches[0]), p);
      RecordBatchesKeeps(RecordItems(results, classify(batches[0])), batches[1..], classify, p);
    }
  }

  /** A week classified with the model only ever carries table themes. */
  lemma WeekThemesValid(reviews: seq<ReviewIn>, llm: BatchOracle, reprompt: RepromptOracle)
    ensures var r := ClassifyWeek(reviews, true, llm, reprompt);
      forall k :: k in r ==> ValidTheme(r[k].theme)
  {
    var classify := Classify(true, llm, reprompt);
    forall b: seq<ReviewIn>, i | 0 <= i < |classify(b)|
      ensures ValidTheme(classify(b)[i].chosenTheme)
    {
      assert classify(b) == ClassifyReviews(b, true, llm, reprompt);
    }
    RecordBatchesKeeps(map[], Chunks(reviews, BatchSize), classify, ValidTheme);
  }
}

=== FILE: content.dfy ===
/**
 * Pulse assembly: quote extraction, the rule-based theme summary, action
 * ideas with their templated fallback, and the one-page pulse document with
 * its 60-word overview and single-pass 250-word compression.
 */
module Content {
  import opened Wrappers
  import opened Seqs
  import opened Text
  import opened Sorting

  // ---------------------------------------------------------------------
  // Quote extraction
  // ---------------------------------------------------------------------

  /**
   * A review of one theme as the extractor sees it. `confidence` is the
   * theme-membership score (0 when absent), kept abstract as an integer key.
   */
  datatype ThemedReview = ThemedReview(text: string, confidence: int, reviewId: Option<string>, rating: Option<int>)

  datatype Quote = Quote(text: string, confidence: int, sourceId: string, theme: string)

  /** Stripped texts shorter than this are never quoted. */
  const MinQuoteLength: nat := 50
  const UnknownSource := "unknown"
  const Ellipsis := "..."

  function Confidence(r: ThemedReview): int {
    r.confidence
  }

  /**
   * `s[:max].rsplit(' ', 1)[0]`: the first `max` characters, cut back to
   * just before their last space when there is one.
   */
  function CutAtSpace(s: string, max: nat): (r: string)
    ensures r <= s && |r| <= max
    ensures var cut := s[..Min(max, |s|)];
      (r == cut && forall k :: 0 <= k < |cut| ==> cut[k] != ' ')
      || (|r| < |cut| && cut[|r|] == ' ' && forall k :: |r| < k < |cut| ==> cut[k] != ' ')
  {
    var cut := s[..Min(max, |s|)];
    match LastIndexOf(cut, ' ')
    case None => cut
    case Some(k) => cut[..k]
  }

  /** An over-long quote becomes a word-boundary prefix of at most `max` characters plus "...". */
  function TruncateQuote(text: string, max: nat): (r: string)
    ensures |text| <= max ==> r == text
    ensures |text| > max ==>
      |Ellipsis| <= |r| <= max + |Ellipsis| && r[|r| - |Ellipsis|..] == Ellipsis && r[..|r| - |Ellipsis|] <= text[..max]
    ensures |text| > max ==> r == CutAtSpace(text, max) + Ellipsis
  {
    if |text| > max then
      var c := CutAtSpace(text, max);
      assert (c + Ellipsis)[..|c|] == c;
      c + Ellipsis
    else text
  }

  /** A review whose stripped text is long enough to be quoted. */
  predicate Eligible(r: ThemedReview) {
    |Strip(r.text)| >= MinQuoteLength
  }

  /** The quote made from one review: strip, truncate, then mask PII with `anonymize`. */
  function QuoteOf(r: ThemedReview, theme: string, max: nat, anonymize: string -> string): Quote {
    Quote(anonymize(TruncateQuote(Strip(r.text), max)), r.confidence, r.reviewId.GetOr(UnknownSource), theme)
  }

  /**
   * The first `k` elements of a permutation of `s` sorted by confidence come
   * from `s` and are at least as confident as every element of `s` left out.
   */
  lemma TopOfSorted(s: seq<ThemedReview>, ranked: seq<ThemedReview>, k: nat)
    requires multiset(ranked) == multiset(s) && SortedDesc(ranked, Confidence) && k <= |ranked|
    ensures multiset(ranked[..k]) <= multiset(s)
    ensures forall x, i :: x in s && x !in ranked[..k] && 0 <= i < k ==> ranked[i].confidence >= x.confidence
  {
    assert ranked == ranked[..k] + ranked[k..];
    assert multiset(ranked) == multiset(ranked[..k]) + multiset(ranked[k..]);
    forall x, i | x in s && x !in ranked[..k] && 0 <= i < k
      ensures ranked[i].confidence >= x.confidence
    {
      assert x in multiset(s);
      assert x in multiset(ranked);
      var j :| 0 <= j < |ranked| && ranked[j] == x;
    }
  }

  /** The reviews the extractor looks at: the `2 * perTheme` most confident, ties in input order. */
  function Candidates(reviews: seq<ThemedReview>, perTheme: nat): (c: seq<ThemedReview>)
    ensures |c| == Min(2 * perTheme, |reviews|)
    ensures multiset(c) <= multiset(reviews)
    ensures forall x, i :: x in reviews && x !in c && 0 <= i < |c| ==> c[i].confidence >= x.confidence
    ensures SortedDesc(c, Confidence)
    ensures forall v :: Filter(c, KeyIs(Confidence, v)) <= Filter(reviews, KeyIs(Confidence, v))
  {
    CandidatesAreTop(reviews, perTheme);
    CandidatesStable(reviews, perTheme);
    SortDesc(reviews, Confidence)[..Min(2 * perTheme, |reviews|)]
  }

  lemma CandidatesAreTop(reviews: seq<ThemedReview>, perTheme: nat)
    ensures var c := SortDesc(reviews, Confidence)[..Min(2 * perTheme, |reviews|)];
      multiset(c) <= multiset(reviews)
      && forall x, i :: x in reviews && x !in c && 0 <= i < |c| ==> c[i].confidence >= x.confidence
  {
    var ranked := SortDesc(reviews, Confidence);
    TopOfSorted(reviews, ranked, Min(2 * perTheme, |reviews|));
  }

  /** Of each confidence value, the candidates are the first reviews in input order. */
  lemma CandidatesStable(reviews: seq<ThemedReview>, perTheme: nat)
    ensures var c := SortDesc(reviews, Confidence)[..Min(2 * perTheme, |reviews|)];
      SortedDesc(c, Confidence)
      && forall v :: Filter(c, KeyIs(Confidence, v)) <= Filter(reviews, KeyIs(Confidence, v))
  {
    SortedPrefix(reviews, SortDesc(reviews, Confidence), Confidence, Min(2 * perTheme, |reviews|));
  }

  /** The quote maker for one theme and length limit. */
  function Quoter(theme: string, max: nat, anonymize: string -> string): ThemedReview -> Quote {
    (r: ThemedReview) => QuoteOf(r, theme, max, anonymize)
  }

  lemma QuotesTagged(rs: seq<ThemedReview>, theme: string, max: nat, anonymize: string -> string)
    ensures forall i :: 0 <= i < |rs| ==> Map(rs, Quoter(theme, max, anonymize))[i].theme == theme
  {
  }

  /**
   * Quotes for one theme: the first `perTheme` eligible reviews among the
   * `2 * perTheme` most confident, each truncated, masked and tagged.
   */
  function Extract(theme: string, reviews: seq<ThemedReview>, perTheme: nat, max: nat, anonymize: string -> string): (r: seq<Quote>)
    ensures reviews == [] ==> r == []
    ensures |r| <= perTheme
    ensures forall i :: 0 <= i < |r| ==> r[i].theme == theme
    ensures var all := Map(Filter(Candidates(reviews, perTheme), Eligible), Quoter(theme, max, anonymize));
      r == all[..Min(perTheme, |all|)]
  {
    if reviews == [] then []
    else
      var c := Candidates(reviews, perTheme);
      TakeMappedPrefix(c, perTheme, Eligible, Quoter(theme, max, anonymize));
      QuotesTagged(Filter(c, Eligible), theme, max, anonymize);
      TakeMapped(c, perTheme, Eligible, Quoter(theme, max, anonymize))
  }

  // ---------------------------------------------------------------------
  // Rule-based theme summary
  // ---------------------------------------------------------------------

  /** A missing rating counts as 3. */
  const DefaultRating := 3

  function Ratings(reviews: seq<ThemedReview>): (rs: seq<int>)
    ensures |rs| == |reviews|
    ensures forall i :: 0 <= i < |rs| ==> rs[i] == reviews[i].rating.GetOr(DefaultRating)
  {
    seq(|reviews|, i requires 0 <= i < |reviews| => reviews[i].rating.GetOr(DefaultRating))
  }

  function Id(x: int): int {
    x
  }

  /** The average rating as a real number; 3 for no ratings. */
  function MeanRating(ratings: seq<int>): real {
    if ratings == [] then DefaultRating as real
    else (SumBy(ratings, Id) as real) / (|ratings| as real)
  }

  /** For a positive count, comparing a mean with a bound is comparing the sum with bound times count. */
  lemma MeanBound(sum: int, count: int, bound: int)
    requires count > 0
    ensures (sum as real) / (count as real) >= bound as real <==> sum >= bound * count
  {
    var m := (sum as real) / (count as real);
    assert m * (count as real) == sum as real;
    if sum >= bound * count {
      assert (bound as real) * (count as real) <= sum as real;
    }
  }

  /**
   * Overall sentiment of the ratings, decided on integers: positive iff the
   * average is at least 4, negative iff it is below 3, mixed otherwise.
   */
  function Sentiment(ratings: seq<int>): (s: string)
    ensures s == (if MeanRating(ratings) >= 4.0 then "positive"
                  else if MeanRating(ratings) < 3.0 then "negative"
                  else "mixed")
  {
    var n := |ratings|;
    var sum := SumBy(ratings, Id);
    if n == 0 then "mixed"
    else
      MeanBound(sum, n, 4);
      MeanBound(sum, n, 3);
      if sum >= 4 * n then "positive"
      else if sum < 3 * n then "negative"
      else "mixed"
  }

  /** The summary written when no model is available. */
  function FallbackSummary(theme: string, reviews: seq<ThemedReview>): (r: string)
    ensures NatToString(|reviews|) + " users share " + Sentiment(Ratings(reviews)) + " feedback about " <= r
    ensures Lower(theme) <= r[|NatToString(|reviews|) + " users share " + Sentiment(Ratings(reviews)) + " feedback about "|..]
    ensures r == NatToString(|reviews|) + " users share " + Sentiment(Ratings(reviews)) + " feedback about "
      + Lower(theme) + ", indicating this is a notable concern."
  {
    var head := NatToString(|reviews|) + " users share " + Sentiment(Ratings(reviews)) + " feedback about ";
    var r := head + Lower(theme) + ", indicating this is a notable concern.";
    assert r[..|head|] == head;
    assert r[|head|..] == Lower(theme) + ", indicating this is a notable concern.";
    r
  }

  // ---------------------------------------------------------------------
  // Action ideas
  // ---------------------------------------------------------------------

  /** A theme as layer 3 passes it on: name, summary (empty when absent) and size. */
  datatype ThemeSummary = ThemeSummary(name: string, summary: string, size: nat)

  const MaxActions: nat := 3

  function ActionFor(name: string): string {
    "Investigate and address issues in " + name + " based on user feedback patterns."
  }

  /** One templated action for each of the first three themes. */
  function FallbackActions(themes: seq<ThemeSummary>): (r: seq<string>)
    ensures |r| == Min(MaxActions, |themes|)
    ensures forall i :: 0 <= i < |r| ==> r[i] == ActionFor(themes[i].name)
  {
    var n := Min(MaxActions, |themes|);
    seq(n, i requires 0 <= i < n => ActionFor(themes[i].name))
  }

  /**
   * Action ideas. `llm` is the parsed model answer, None when no model is
   * configured or the call fails. A short answer is padded from the
   * templated actions, and at most three are kept.
   */
  function GenerateActions(themes: seq<ThemeSummary>, llm: Option<seq<string>>): (r: seq<string>)
    ensures |r| <= MaxActions
    ensures llm.None? ==> r == FallbackActions(themes)
    ensures llm.Some? ==>
      var a := llm.value;
      var k := Min(MaxActions, |a|);
      |r| == Min(MaxActions, |a| + Min(MaxActions, |themes|))
      && r[..k] == a[..k]
      && (|a| < MaxActions ==> r[|a|..] == FallbackActions(themes)[..|r| - |a|])
    ensures |themes| >= MaxActions ==> |r| == MaxActions
  {
    match llm
    case None => FallbackActions(themes)
    case Some(a) =>
      var fallback := FallbackActions(themes);
      var padded := if |a| < MaxActions then a + fallback[..Min(MaxActions - |a|, |fallback|)] else a;
      assert |a| < MaxActions ==> padded[..|a|] == a && padded[|a|..] == fallback[..Min(MaxActions - |a|, |fallback|)];
      padded[..Min(MaxActions, |padded|)]
  }

  // ---------------------------------------------------------------------
  // Title and overview
  // ---------------------------------------------------------------------

  const TitlePrefix := "Weekly Product Pulse \U{2013} "

  function Title(product: string): string {
    TitlePrefix + product
  }

  const MaxOverviewWords: nat := 60

  /** Sum of the sizes of all themes. */
  function TotalSize(themes: seq<ThemeSummary>): nat {
    if themes == [] then 0 else themes[0].size + TotalSize(themes[1..])
  }

  /** The overview paragraph before the word cap. */
  function OverviewText(themes: seq<ThemeSummary>): string {
    var top := if themes == [] then "user feedback" else themes[0].name;
    "This week's " + NatToString(TotalSize(themes)) + " user reviews highlight key areas for improvement. "
      + "Top concern: " + top + ". "
      + "Analysis covers " + NatToString(|themes|) + " themes with actionable recommendations."
  }

  /**
   * `text` capped at 60 words: an over-long text keeps its first 60 words,
   * single-spaced, with "..." attached to the last one.
   */
  function CapWords(text: string): (r: string)
    ensures WordCount(r) <= MaxOverviewWords
    ensures WordCount(text) <= MaxOverviewWords ==> r == text
    ensures WordCount(text) > MaxOverviewWords ==>
      var ws := Words(text);
      |ws| > MaxOverviewWords &&
      Words(r) == ws[..MaxOverviewWords - 1] + [ws[MaxOverviewWords - 1] + Ellipsis]
  {
    var words := Words(text);
    WordsCount(text);
    if |words| > MaxOverviewWords then
      var kept := words[..MaxOverviewWords];
      CappedWords(kept);
      Join(kept, " ") + Ellipsis
    else text
  }

  lemma CappedWords(kept: seq<string>)
    requires |kept| == MaxOverviewWords
    requires forall i :: 0 <= i < |kept| ==> kept[i] != [] && NoSpace(kept[i])
    ensures var capped := kept[..MaxOverviewWords - 1] + [kept[MaxOverviewWords - 1] + Ellipsis];
      Words(Join(kept, " ") + Ellipsis) == capped && WordCount(Join(kept, " ") + Ellipsis) == MaxOverviewWords
  {
    JoinAppendLast(kept, " ", Ellipsis);
    var capped := kept[..MaxOverviewWords - 1] + [kept[MaxOverviewWords - 1] + Ellipsis];
    assert forall i :: 0 <= i < |capped| ==> capped[i] != [] && NoSpace(capped[i]);
    WordsJoin(capped, " ");
    WordsCount(Join(capped, " "));
  }

  /** The overview paragraph, capped at 60 words. */
  function Overview(themes: seq<ThemeSummary>): (r: string)
    ensures WordCount(r) <= MaxOverviewWords
  {
    CapWords(OverviewText(themes))
  }

  // ---------------------------------------------------------------------
  // Quote selection
  // ---------------------------------------------------------------------

  const MaxQuotes: nat := 3

  function OfTheme(name: string): Quote -> bool {
    (q: Quote) => q.theme == name
  }

  /**
   * `[first quote of n for n in names if n has a quote]`: the first pool
   * quote of each named theme that has one, in theme order, uncapped.
   */
  function FirstQuotes(pool: seq<Quote>, names: seq<string>): (fq: seq<Quote>)
    ensures |fq| <= |names|
    ensures forall i :: 0 <= i < |fq| ==> fq[i] in pool && fq[i].theme in names
  {
    if names == [] then []
    else
      var tq := Filter(pool, OfTheme(names[0]));
      assert forall n :: n in names[1..] ==> n in names;
      (if tq != [] then [tq[0]] else []) + FirstQuotes(pool, names[1..])
  }

  /** One more name adds its theme's first quote, when it has one, at the end. */
  lemma {:induction false} FirstQuotesSnoc(pool: seq<Quote>, names: seq<string>, n: string)
    ensures var tq := Filter(pool, OfTheme(n));
      FirstQuotes(pool, names + [n]) == FirstQuotes(pool, names) + (if tq != [] then [tq[0]] else [])
  {
    var tq := Filter(pool, OfTheme(n));
    var last := if tq != [] then [tq[0]] else [];
    if names == [] {
      assert names + [n] == [n];
      assert [n][1..] == [];
    } else {
      assert (names + [n])[1..] == names[1..] + [n];
      FirstQuotesSnoc(pool, names[1..], n);
      var t0 := Filter(pool, OfTheme(names[0]));
      ConcatAssoc(if t0 != [] then [t0[0]] else [], FirstQuotes(pool, names[1..]), last);
    }
  }

  /**
   * First pass: the first pool quote of each named theme, in theme order,
   * while fewer than three are chosen — the first three of `FirstQuotes`.
   */
  function PickPerTheme(pool: seq<Quote>, names: seq<string>): (sel: seq<Quote>)
    ensures |sel| <= Min(MaxQuotes, |names|)
    ensures forall i :: 0 <= i < |sel| ==> sel[i] in pool && sel[i].theme in names
    ensures |names| <= MaxQuotes ==>
      forall k :: 0 <= k < |names| && Filter(pool, OfTheme(names[k])) != [] ==> Filter(pool, OfTheme(names[k]))[0] in sel
    decreases |names|
  {
    if names == [] then []
    else
      var init := names[..|names| - 1];
      var prev := PickPerTheme(pool, init);
      var tq := Filter(pool, OfTheme(names[|names| - 1]));
      assert forall k :: 0 <= k < |init| ==> init[k] == names[k];
      assert forall n :: n in init ==> n in names;
      if tq != [] && |prev| < MaxQuotes then prev + [tq[0]] else prev
  }

  /** The first pass keeps the first three of `FirstQuotes`, in theme order. */
  lemma {:induction false} PickPerThemeFirst(pool: seq<Quote>, names: seq<string>)
    ensures var fq := FirstQuotes(pool, names); PickPerTheme(pool, names) == fq[..Min(MaxQuotes, |fq|)]
    decreases |names|
  {
    if names != [] {
      var init := names[..|names| - 1];
      assert init + [names[|names| - 1]] == names;
      PickPerThemeFirst(pool, init);
      FirstQuotesSnoc(pool, init, names[|names| - 1]);
    }
  }

  /** How many quotes the fill may still add after `sel`. */
  function Room(sel: seq<Quote>): nat {
    if |sel| < MaxQuotes then MaxQuotes - |sel| else 0
  }

  /**
   * Second pass: top up from the pool in order, skipping quotes already
   * chosen, up to three — `sel` followed by the first unchosen pool quotes.
   */
  function Fill(pool: seq<Quote>, sel: seq<Quote>): (r: seq<Quote>)
    ensures sel <= r
    ensures forall i :: |sel| <= i < |r| ==> r[i] in pool
    ensures |r| == |sel| || |r| <= MaxQuotes
    ensures |r| < MaxQuotes ==> forall i :: 0 <= i < |pool| ==> pool[i] in r
    ensures forall i, j :: |sel| <= i < |r| && 0 <= j < i ==> r[i] != r[j]
    decreases |pool|
  {
    if pool == [] then sel
    else
      var prev := Fill(pool[..|pool| - 1], sel);
      var q := pool[|pool| - 1];
      assert forall i :: 0 <= i < |pool| - 1 ==> pool[..|pool| - 1][i] == pool[i];
      if q !in prev && |prev| < MaxQuotes then prev + [q] else prev
  }

  /** The fill appends the first unchosen pool quotes, in pool order, as room allows. */
  lemma {:induction false} FillFresh(pool: seq<Quote>, sel: seq<Quote>)
    ensures var unseen := Fresh(pool, sel); Fill(pool, sel) == sel + unseen[..Min(Room(sel), |unseen|)]
    decreases |pool|
  {
    if pool != [] {
      var init := pool[..|pool| - 1];
      var q := pool[|pool| - 1];
      assert init + [q] == pool;
      FillFresh(init, sel);
      FreshSnoc(init, q, sel);
      var u := Fresh(init, sel);
      var prev := Fill(init, sel);
      FillUnfold(pool, sel);
      FreshSeen(init, sel, q);
      FillCombine(sel, u, q, prev, Fill(pool, sel), Fresh(pool, sel), q in sel || q in init);
    }
  }

  lemma FillCombine(sel: seq<Quote>, u: seq<Quote>, q: Quote, prev: seq<Quote>, next: seq<Quote>, whole: seq<Quote>, known: bool)
    requires prev == sel + u[..Min(Room(sel), |u|)]
    requires next == if q !in prev && |prev| < MaxQuotes then prev + [q] else prev
    requires whole == u + (if known then [] else [q])
    requires known <==> (q in sel || q in u)
    ensures next == sel + whole[..Min(Room(sel), |whole|)]
  {
    FillStep(sel, u, q, prev);
  }

  lemma FillUnfold(pool: seq<Quote>, sel: seq<Quote>)
    requires pool != []
    ensures var prev := Fill(pool[..|pool| - 1], sel); var q := pool[|pool| - 1];
      Fill(pool, sel) == if q !in prev && |prev| < MaxQuotes then prev + [q] else prev
  {
  }

  /** An item is new to `Fresh(xs, seen)` exactly when it is in neither list. */
  lemma FreshSeen(xs: seq<Quote>, seen: seq<Quote>, q: Quote)
    ensures (q in seen || q in xs) <==> (q in seen || q in Fresh(xs, seen))
  {
    if q in xs && q !in seen {
      var i :| 0 <= i < |xs| && xs[i] == q;
    }
  }

  /** One step of the fill, stated on plain sequences. */
  lemma FillStep(sel: seq<Quote>, u: seq<Quote>, q: Quote, prev: seq<Quote>)
    requires prev == sel + u[..Min(Room(sel), |u|)]
    ensures q in sel || q in u ==>
      (if q !in prev && |prev| < MaxQuotes then prev + [q] else prev) == sel + u[..Min(Room(sel), |u|)]
    ensures !(q in sel || q in u) ==>
      (if q !in prev && |prev| < MaxQuotes then prev + [q] else prev) == sel + (u + [q])[..Min(Room(sel), |u| + 1)]
  {
    var m := Min(Room(sel), |u|);
    if q in u && q !in sel {
      var i :| 0 <= i < |u| && u[i] == q;
      if i < m {
        assert prev[|sel| + i] == q;
      }
    }
    if !(q in sel || q in u) {
      assert (u + [q])[..m] == u[..m];
      if m == |u| && m < Room(sel) {
        assert (u + [q])[..m + 1] == u + [q];
      }
    }
  }

  /**
   * Up to three quotes for the document: one per top theme first, then the
   * rest of the pool in order without repeats.
   */
  function SelectQuotes(pool: seq<Quote>, names: seq<string>): (r: seq<Quote>)
    ensures |r| <= MaxQuotes
    ensures forall i :: 0 <= i < |r| ==> r[i] in pool
    ensures PickPerTheme(pool, names) <= r
    ensures |names| <= MaxQuotes ==>
      forall k :: 0 <= k < |names| && Filter(pool, OfTheme(names[k])) != [] ==> Filter(pool, OfTheme(names[k]))[0] in r
    ensures |r| < MaxQuotes ==> forall i :: 0 <= i < |pool| ==> pool[i] in r
    ensures forall i, j :: |PickPerTheme(pool, names)| <= i < |r| && 0 <= j < i ==> r[i] != r[j]
  {
    var picked := PickPerTheme(pool, names);
    var filled := Fill(pool, picked);
    filled[..Min(MaxQuotes, |filled|)]
  }

  /**
   * Reference order for the selection: the first three of `FirstQuotes`
   * followed by the first pool quotes not among them, in pool order, three
   * in all at most.
   */
  function QuoteOrder(pool: seq<Quote>, names: seq<string>): seq<Quote> {
    var fq := FirstQuotes(pool, names);
    var first := fq[..Min(MaxQuotes, |fq|)];
    var unseen := Fresh(pool, first);
    first + unseen[..Min(MaxQuotes - |first|, |unseen|)]
  }

  /** The two-pass selection picks exactly the reference order. */
  lemma SelectQuotesOrder(pool: seq<Quote>, names: seq<string>)
    ensures SelectQuotes(pool, names) == QuoteOrder(pool, names)
  {
    var fq := FirstQuotes(pool, names);
    var first := fq[..Min(MaxQuotes, |fq|)];
    PickPerThemeFirst(pool, names);
    SelectIsFill(pool, names);
    FillFresh(pool, first);
    RoomLeft(first);
  }

  /** The fill never exceeds three, so the final cut keeps all of it. */
  lemma SelectIsFill(pool: seq<Quote>, names: seq<string>)
    ensures SelectQuotes(pool, names) == Fill(pool, PickPerTheme(pool, names))
  {
    var filled := Fill(pool, PickPerTheme(pool, names));
    assert |filled| <= MaxQuotes;
    assert filled[..|filled|] == filled;
  }

  lemma RoomLeft(sel: seq<Quote>)
    requires |sel| <= MaxQuotes
    ensures Room(sel) == MaxQuotes - |sel|
  {
  }

  // ---------------------------------------------------------------------
  // The pulse document and its word limit
  // ---------------------------------------------------------------------

  datatype Metadata = Metadata(product: string, weekStart: string, weekEnd: string, totalReviews: nat, wordCount: nat)

  datatype PulseDocument = PulseDocument(
    title: string,
    overview: string,
    themes: seq<ThemeSummary>,
    quotes: seq<string>,
    actions: seq<string>,
    metadata: Metadata)

  const MaxWords: nat := 250

  function ThemeLine(t: ThemeSummary): string {
    t.name + ": " + t.summary
  }

  /** The texts whose words are counted, in document order. */
  function DocParts(d: PulseDocument): seq<string> {
    [d.title, d.overview] + Map(d.themes, ThemeLine) + d.quotes + d.actions
  }

  /** Whitespace tokens of the parts joined by single spaces. */
  function CountWords(d: PulseDocument): (n: nat)
    ensures n == TotalWords(DocParts(d))
  {
    WordCountJoin(DocParts(d), " ");
    WordsCount(Join(DocParts(d), " "));
    |Words(Join(DocParts(d), " "))|
  }

  /**
   * `s.split('. ')[0] + '.'` when `s` contains ". ", else `s`: the longest
   * prefix ending just before the first ". ", with its full stop.
   */
  function FirstSentence(s: string): (r: string)
    ensures r <= s
    ensures forall k: nat :: !OccursAt(r, ". ", k)
    ensures r == s <==> forall k: nat :: !OccursAt(s, ". ", k)
    ensures IndexOf(s, ". ").Some? ==> r == s[..IndexOf(s, ". ").value + 1]
  {
    match IndexOf(s, ". ")
    case None => s
    case Some(k) =>
      assert s[k] == '.' by {
        assert s[k..k + 2] == ". ";
      }
      var r := s[..k] + ".";
      assert r == s[..k + 1];
      assert forall j: nat :: !OccursAt(r, ". ", j) by {
        forall j: nat | OccursAt(r, ". ", j)
          ensures false
        {
          assert r[j..j + 2] == s[j..j + 2];
          assert OccursAt(s, ". ", j);
        }
      }
      assert !OccursAt(r, ". ", k) ==> r != s;
      assert OccursAt(s, ". ", k);
      r
  }

  function Shorten(t: ThemeSummary): ThemeSummary {
    t.(summary := FirstSentence(t.summary))
  }

  /** Every theme summary cut to its first sentence; nothing else changes. */
  function Compress(d: PulseDocument): PulseDocument {
    d.(themes := Map(d.themes, Shorten))
  }

  lemma {:induction false} ShortenedLinesFewerWords(ts: seq<ThemeSummary>)
    ensures TotalWords(Map(Map(ts, Shorten), ThemeLine)) <= TotalWords(Map(ts, ThemeLine))
  {
    if ts != [] {
      ShortenedLinesFewerWords(ts[1..]);
      var t := ts[0];
      assert ThemeLine(Shorten(t)) <= ThemeLine(t) by {
        assert ThemeLine(Shorten(t)) == (t.name + ": ") + FirstSentence(t.summary);
        assert ThemeLine(t) == (t.name + ": ") + t.summary;
      }
      WordCountPrefix(ThemeLine(Shorten(t)), ThemeLine(t));
      assert Map(ts, Shorten)[1..] == Map(ts[1..], Shorten);
      assert Map(Map(ts, Shorten), ThemeLine)[1..] == Map(Map(ts[1..], Shorten), ThemeLine);
      assert Map(ts, ThemeLine)[1..] == Map(ts[1..], ThemeLine);
    }
  }

  /** Compression never adds words. */
  lemma CompressFewerWords(d: PulseDocument)
    ensures CountWords(Compress(d)) <= CountWords(d)
  {
    var c := Compress(d);
    var head := [d.title, d.overview];
    TotalWordsConcat(head + Map(d.themes, ThemeLine) + d.quotes, d.actions);
    TotalWordsConcat(head + Map(d.themes, ThemeLine), d.quotes);
    TotalWordsConcat(head, Map(d.themes, ThemeLine));
    TotalWordsConcat(head + Map(c.themes, ThemeLine) + d.quotes, d.actions);
    TotalWordsConcat(head + Map(c.themes, ThemeLine), d.quotes);
    TotalWordsConcat(head, Map(c.themes, ThemeLine));
    ShortenedLinesFewerWords(d.themes);
  }

  function WithWordCount(d: PulseDocument, n: nat): PulseDocument {
    d.(metadata := d.metadata.(wordCount := n))
  }

  /**
   * The 250-word limit: the count is always recorded; an over-long
   * document has its theme summaries cut to their first sentence once and
   * is counted again, whatever the new count is.
   */
  function EnforceWordLimit(d: PulseDocument): (r: PulseDocument)
    ensures r.metadata.wordCount == CountWords(r)
    ensures r.metadata.wordCount <= CountWords(d)
    ensures CountWords(d) <= MaxWords ==> r == WithWordCount(d, CountWords(d))
    ensures CountWords(d) > MaxWords ==>
      r.title == d.title && r.overview == d.overview && r.quotes == d.quotes && r.actions == d.actions
      && WithWordCount(r, 0).metadata == WithWordCount(d, 0).metadata
      && |r.themes| == |d.themes|
      && forall i :: 0 <= i < |d.themes| ==>
           r.themes[i].name == d.themes[i].name && r.themes[i].size == d.themes[i].size
           && r.themes[i].summary == FirstSentence(d.themes[i].summary)
  {
    var n := CountWords(d);
    if n <= MaxWords then WithWordCount(d, n)
    else
      var c := Compress(d);
      CompressFewerWords(d);
      assert DocParts(WithWordCount(c, CountWords(c))) == DocParts(c);
      WithWordCount(c, CountWords(c))
  }

  // ---------------------------------------------------------------------
  // Assembly
  // ---------------------------------------------------------------------

  const MaxDocThemes: nat := 3

  function QuoteText(q: Quote): string {
    q.text
  }

  function ThemeNames(ts: seq<ThemeSummary>): (r: seq<string>)
    ensures |r| == |ts|
    ensures forall i :: 0 <= i < |ts| ==> r[i] == ts[i].name
  {
    Map(ts, (t: ThemeSummary) => t.name)
  }

  lemma TextsFromPool(pool: seq<Quote>, selected: seq<Quote>)
    requires forall i :: 0 <= i < |selected| ==> selected[i] in pool
    ensures forall i :: 0 <= i < |selected| ==> Map(selected, QuoteText)[i] in Map(pool, QuoteText)
  {
    forall i | 0 <= i < |selected|
      ensures Map(selected, QuoteText)[i] in Map(pool, QuoteText)
    {
      var j :| 0 <= j < |pool| && pool[j] == selected[i];
      assert Map(pool, QuoteText)[j] == QuoteText(selected[i]);
    }
  }

  /** The themes the document shows: the first three. */
  function TopThemes(themes: seq<ThemeSummary>): seq<ThemeSummary> {
    themes[..Min(MaxDocThemes, |themes|)]
  }

  /**
   * The document before the word limit: title, capped overview, the first
   * three themes, the selected quotes, the first three actions and the
   * metadata with a zero count.
   */
  function Draft(product: string, weekStart: string, weekEnd: string,
                 themes: seq<ThemeSummary>, quotes: seq<Quote>, actions: seq<string>): PulseDocument {
    PulseDocument(Title(product), Overview(themes), TopThemes(themes),
                  Map(SelectQuotes(quotes, ThemeNames(TopThemes(themes))), QuoteText),
                  actions[..Min(MaxActions, |actions|)],
                  Metadata(product, weekStart, weekEnd, TotalSize(themes), 0))
  }

  /**
   * The pulse document: the draft, then the word limit, which cuts every
   * theme summary to its first sentence or none of them.
   */
  function Assemble(product: string, weekStart: string, weekEnd: string,
                    themes: seq<ThemeSummary>, quotes: seq<Quote>, actions: seq<string>): (r: PulseDocument)
    ensures r.title == TitlePrefix + product
    ensures r.overview == Overview(themes)
    ensures WordCount(r.overview) <= MaxOverviewWords
    ensures |r.themes| == Min(MaxDocThemes, |themes|)
    ensures forall i :: 0 <= i < |r.themes| ==> r.themes[i].name == themes[i].name && r.themes[i].size == themes[i].size
    ensures CountWords(Draft(product, weekStart, weekEnd, themes, quotes, actions)) <= MaxWords ==>
      forall i :: 0 <= i < |r.themes| ==> r.themes[i].summary == themes[i].summary
    ensures CountWords(Draft(product, weekStart, weekEnd, themes, quotes, actions)) > MaxWords ==>
      forall i :: 0 <= i < |r.themes| ==> r.themes[i].summary == FirstSentence(themes[i].summary)
    ensures r.quotes == Map(SelectQuotes(quotes, ThemeNames(TopThemes(themes))), QuoteText)
    ensures |r.quotes| <= MaxQuotes
    ensures forall i :: 0 <= i < |r.quotes| ==> r.quotes[i] in Map(quotes, QuoteText)
    ensures r.actions == actions[..Min(MaxActions, |actions|)]
    ensures r.metadata == Metadata(product, weekStart, weekEnd, TotalSize(themes), CountWords(r))
  {
    var d := Draft(product, weekStart, weekEnd, themes, quotes, actions);
    TextsFromPool(quotes, SelectQuotes(quotes, ThemeNames(TopThemes(themes))));
    var r := EnforceWordLimit(d);
    LimitKeepsOrCuts(d, r);
    DraftThemes(themes, d.themes);
    r
  }

  lemma DraftThemes(themes: seq<ThemeSummary>, top: seq<ThemeSummary>)
    requires top == TopThemes(themes)
    ensures |top| == Min(MaxDocThemes, |themes|) && forall i :: 0 <= i < |top| ==> top[i] == themes[i]
  {
  }

  /** The word limit changes nothing but the count, or cuts every summary. */
  lemma LimitKeepsOrCuts(d: PulseDocument, r: PulseDocument)
    requires r == EnforceWordLimit(d)
    ensures r.title == d.title && r.overview == d.overview && r.quotes == d.quotes && r.actions == d.actions
    ensures r.metadata == d.metadata.(wordCount := CountWords(r))
    ensures |r.themes| == |d.themes|
    ensures forall i :: 0 <= i < |d.themes| ==> r.themes[i].name == d.themes[i].name && r.themes[i].size == d.themes[i].size
    ensures CountWords(d) <= MaxWords ==> r.themes == d.themes
    ensures CountWords(d) > MaxWords ==> forall i :: 0 <= i < |d.themes| ==> r.themes[i].summary == FirstSentence(d.themes[i].summary)
  {
    if CountWords(d) > MaxWords {
      assert WithWordCount(r, 0).metadata == WithWordCount(d, 0).metadata;
    }
  }

  /** An action idea of 84 words. */
  function LongAction(): string {
    Join(seq(84, i => "w"), " ")
  }

  lemma LongActionWords()
    ensures WordCount(LongAction()) == 84
  {
    var ws := seq(84, i => "w");
    WordCountJoin(ws, " ");
    SumOfWordCounts(ws);
  }

  /**
   * The limit is not guaranteed: a pulse assembled from three 84-word
   * action ideas is still over 250 words after its single compression pass.
   */
  lemma CompressedMayExceedLimit()
    ensures Assemble("", "", "", [], [], [LongAction(), LongAction(), LongAction()]).metadata.wordCount > MaxWords
  {
    var a := LongAction();
    LongActionWords();
    var acts := [a, a, a];
    assert TotalWords(acts) == 3 * 84 by {
      assert acts[1..] == [a, a] && [a, a][1..] == [a] && [a][1..] == [];
      assert TotalWords([a]) == 84;
      assert TotalWords([a, a]) == 84 + TotalWords([a]);
      assert TotalWords(acts) == 84 + TotalWords([a, a]);
    }
    assert acts[..Min(MaxActions, |acts|)] == acts;
    AssembledCountsActions("", "", "", [], [], acts);
  }

  /** An assembled pulse has at least the words of the actions it keeps. */
  lemma AssembledCountsActions(product: string, weekStart: string, weekEnd: string,
                               themes: seq<ThemeSummary>, quotes: seq<Quote>, actions: seq<string>)
    ensures var r := Assemble(product, weekStart, weekEnd, themes, quotes, actions);
      r.metadata.wordCount >= TotalWords(actions[..Min(MaxActions, |actions|)])
  {
    var r := Assemble(product, weekStart, weekEnd, themes, quotes, actions);
    var head := [r.title, r.overview] + Map(r.themes, ThemeLine) + r.quotes;
    assert DocParts(r) == head + r.actions;
    TotalWordsConcat(head, r.actions);
  }
}

=== FILE: distribution.dfy ===
/**
 * Distribution (layer 4): the final PII check over both email bodies, the
 * bounded SMTP retry state machine, the read-receipt tracker and the
 * per-recipient delivery loop. The regex detectors, the SMTP transport and
 * the clock are parameters.
 */
module Distribution {
  import opened Wrappers
  import opened Seqs
  import opened Sorting

  // ---------------------------------------------------------------------
  // Final PII check
  // ---------------------------------------------------------------------

  datatype PiiKind = EmailAddress | PhoneNumber | LongDigits | PersonName

  /** The detectors' matches of one kind in a text, in text order (`pattern.findall`). */
  type Finder = (PiiKind, string) -> seq<string>

  const MaxExamplesPerKind: nat := 3

  /** The kinds in the order they are checked. */
  const KindOrder: seq<PiiKind> := [EmailAddress, PhoneNumber, LongDigits, PersonName]

  function KindTag(k: PiiKind): string {
    match k
    case EmailAddress => "EMAIL"
    case PhoneNumber => "PHONE"
    case LongDigits => "DIGITS"
    case PersonName => "NAME"
  }

  /** The reported examples of one kind: the first three matches, tagged. */
  function Examples(k: PiiKind, text: string, find: Finder): (r: seq<string>)
    ensures |r| == Min(MaxExamplesPerKind, |find(k, text)|)
    ensures forall i :: 0 <= i < |r| ==> r[i] == KindTag(k) + ": " + find(k, text)[i]
  {
    var ms := find(k, text);
    var n := Min(MaxExamplesPerKind, |ms|);
    seq(n, i requires 0 <= i < n => KindTag(k) + ": " + ms[i])
  }

  /** The examples of each kind in `kinds`, kind after kind. */
  function ExamplesOf(kinds: seq<PiiKind>, text: string, find: Finder): (r: seq<string>)
    ensures |r| <= MaxExamplesPerKind * |kinds|
    ensures r == [] <==> forall i :: 0 <= i < |kinds| ==> find(kinds[i], text) == []
  {
    if kinds == [] then []
    else Examples(kinds[0], text, find) + ExamplesOf(kinds[1..], text, find)
  }

  datatype PiiCheck = PiiCheck(hasPii: bool, found: seq<string>)

  /**
   * The final check of one text: up to three examples of each kind, emails
   * first, then phones, digit runs and titled names.
   */
  function Check(text: string, find: Finder): (r: PiiCheck)
    ensures r.hasPii <==> r.found != []
    ensures r.hasPii <==> exists k :: find(k, text) != []
    ensures |r.found| <= 4 * MaxExamplesPerKind
    ensures r.found == Examples(EmailAddress, text, find) + Examples(PhoneNumber, text, find)
                       + Examples(LongDigits, text, find) + Examples(PersonName, text, find)
  {
    var found := ExamplesOf(KindOrder, text, find);
    var e := Examples(EmailAddress, text, find);
    var ph := Examples(PhoneNumber, text, find);
    var dg := Examples(LongDigits, text, find);
    var nm := Examples(PersonName, text, find);
    assert KindOrder[1..] == [PhoneNumber, LongDigits, PersonName];
    assert [PhoneNumber, LongDigits, PersonName][1..] == [LongDigits, PersonName];
    assert [LongDigits, PersonName][1..] == [PersonName];
    assert [PersonName][1..] == [];
    assert ExamplesOf([PersonName], text, find) == nm + [];
    assert ExamplesOf([LongDigits, PersonName], text, find) == dg + (nm + []);
    assert ExamplesOf([PhoneNumber, LongDigits, PersonName], text, find) == ph + (dg + (nm + []));
    assert found == Examples(EmailAddress, text, find) + (Examples(PhoneNumber, text, find)
                    + (Examples(LongDigits, text, find) + (Examples(PersonName, text, find) + [])));
    assert (exists k :: find(k, text) != []) ==> found != [] by {
      if k :| find(k, text) != [] {
        assert k == KindOrder[0] || k == KindOrder[1] || k == KindOrder[2] || k == KindOrder[3];
      }
    }
    PiiCheck(found != [], found)
  }

  datatype PiiReport = PiiReport(
    htmlClean: bool,
    plainClean: bool,
    htmlPiiFound: seq<string>,
    plainPiiFound: seq<string>,
    overallClean: bool)

  /** Both bodies checked; the email is clean iff both are. */
  function VerifyEmail(html: string, plain: string, find: Finder): (r: (bool, PiiReport))
    ensures r.0 == r.1.overallClean
    ensures r.1.overallClean == (r.1.htmlClean && r.1.plainClean)
    ensures r.1.htmlPiiFound == Check(html, find).found && r.1.plainPiiFound == Check(plain, find).found
    ensures r.1.htmlClean <==> r.1.htmlPiiFound == []
    ensures r.1.plainClean <==> r.1.plainPiiFound == []
  {
    var h := Check(html, find);
    var p := Check(plain, find);
    var report := PiiReport(!h.hasPii, !p.hasPii, h.found, p.found, !(h.hasPii || p.hasPii));
    (report.overallClean, report)
  }

  // ---------------------------------------------------------------------
  // Delivery with retries
  // ---------------------------------------------------------------------

  /** What one SMTP attempt does: delivers, fails authentication, or fails otherwise. */
  datatype Outcome = Delivered | AuthError(msg: string) | SmtpError(msg: string) | OtherError(msg: string)

  /** The transport's outcome for each attempt number (1, 2, ...). */
  type Transport = nat -> Outcome

  predicate Retryable(o: Outcome) {
    o.SmtpError? || o.OtherError?
  }

  const Sent := "SENT"
  const Error := "ERROR"
  const MissingConfig := "Missing SMTP configuration"
  const RetriesExceeded := "Max retries exceeded"

  /** The error text reported for a failed attempt. */
  function ErrorText(o: Outcome): string {
    match o
    case Delivered => ""
    case AuthError(m) => "SMTP authentication failed: " + m
    case SmtpError(m) => "SMTP error: " + m
    case OtherError(m) => "Unexpected error: " + m
  }

  /** The SMTP settings; each must be present and non-empty (non-zero for the port). */
  datatype SmtpConfig = SmtpConfig(host: Option<string>, port: int, user: Option<string>, password: Option<string>)

  predicate Given(s: Option<string>) {
    s.Some? && s.value != ""
  }

  predicate Configured(c: SmtpConfig) {
    Given(c.host) && c.port != 0 && Given(c.user) && Given(c.password)
  }

  datatype SendMeta = SendMeta(attempts: nat, sentAt: Option<string>, trackingEnabled: bool)

  /**
   * The result of `send_email`: status, error text and metadata (None for
   * the empty metadata of a missing configuration), plus the number of
   * retry delays slept.
   */
  datatype Delivery = Delivery(status: string, error: string, metadata: Option<SendMeta>, delays: nat)

  function Finish(o: Outcome, k: nat, now: string, tracking: bool): Delivery {
    if o.Delivered? then Delivery(Sent, "", Some(SendMeta(k, Some(now), tracking)), 0)
    else Delivery(Error, ErrorText(o), Some(SendMeta(k, None, tracking)), 0)
  }

  /**
   * Attempts `k` to `max`: stop on delivery or an authentication failure;
   * after any other failure sleep and retry, unless it was the last attempt.
   */
  function Attempts(k: nat, max: nat, transport: Transport, now: string, tracking: bool): (d: Delivery)
    requires 1 <= k <= max
    ensures d.metadata.Some? && k <= d.metadata.value.attempts <= max
    ensures var n := d.metadata.value.attempts;
      d.delays == n - k
      && (forall j :: k <= j < n ==> Retryable(transport(j)))
      && (d.status == Sent <==> transport(n).Delivered?)
      && (d.status == Sent || d.status == Error)
      && d.error == ErrorText(transport(n))
      && (Retryable(transport(n)) ==> n == max)
      && (d.metadata.value.sentAt == if transport(n).Delivered? then Some(now) else None)
      && d.metadata.value.trackingEnabled == tracking
    decreases max - k
  {
    var o := transport(k);
    if Retryable(o) && k < max then
      var d := Attempts(k + 1, max, transport, now, tracking);
      d.(delays := d.delays + 1)
    else Finish(o, k, now, tracking)
  }

  /** `send_email`: the configuration guard, then up to `maxRetries` attempts. */
  function SendEmail(config: SmtpConfig, maxRetries: int, tracking: bool, transport: Transport, now: string): (d: Delivery)
    ensures !Configured(config) ==> d == Delivery(Error, MissingConfig, None, 0)
    ensures Configured(config) && maxRetries < 1 ==> d == Delivery(Error, RetriesExceeded, Some(SendMeta(0, None, tracking)), 0)
    ensures d.status == Sent || d.status == Error
    ensures Configured(config) && maxRetries >= 1 ==>
      d.metadata.Some? &&
      var n := d.metadata.value.attempts;
      1 <= n <= maxRetries
      && d.delays == n - 1
      && (forall j :: 1 <= j < n ==> Retryable(transport(j)))
      && (d.status == Sent <==> transport(n).Delivered?)
      && d.error == ErrorText(transport(n))
      && (transport(n).AuthError? ==> d.status == Error)
      && (Retryable(transport(n)) ==> n == maxRetries)
      && (d.metadata.value.sentAt.Some? <==> d.status == Sent)
  {
    if !Configured(config) then Delivery(Error, MissingConfig, None, 0)
    else if maxRetries < 1 then Delivery(Error, RetriesExceeded, Some(SendMeta(0, None, tracking)), 0)
    else Attempts(1, maxRetries, transport, now, tracking)
  }

  /** No attempt is made after the deciding one: transports that agree up to it give the same delivery. */
  lemma {:induction false} AttemptsUseOnlyPrefix(k: nat, max: nat, t1: Transport, t2: Transport, now: string, tracking: bool)
    requires 1 <= k <= max
    requires forall j :: k <= j <= Attempts(k, max, t1, now, tracking).metadata.value.attempts ==> t1(j) == t2(j)
    ensures Attempts(k, max, t1, now, tracking) == Attempts(k, max, t2, now, tracking)
    decreases max - k
  {
    var o := t1(k);
    assert t2(k) == o;
    if Retryable(o) && k < max {
      AttemptsUseOnlyPrefix(k + 1, max, t1, t2, now, tracking);
    }
  }

  lemma SendEmailUsesOnlyPrefix(config: SmtpConfig, maxRetries: int, tracking: bool, t1: Transport, t2: Transport, now: string)
    requires Configured(config) && maxRetries >= 1
    requires forall j :: 1 <= j <= SendEmail(config, maxRetries, tracking, t1, now).metadata.value.attempts ==> t1(j) == t2(j)
    ensures SendEmail(config, maxRetries, tracking, t1, now) == SendEmail(config, maxRetries, tracking, t2, now)
  {
    AttemptsUseOnlyPrefix(1, maxRetries, t1, t2, now, tracking);
  }

  // ---------------------------------------------------------------------
  // Read-receipt tracker
  // ---------------------------------------------------------------------

  datatype TrackedEmail = TrackedEmail(
    emailId: string,
    recipient: string,
    subject: string,
    sentAt: string,
    openedAt: Option<string>,
    readReceiptAt: Option<string>,
    status: string)

  datatype Tracker = Tracker(emails: seq<TrackedEmail>)

  function SentRecord(emailId: string, recipient: string, subject: string, sentAt: string): TrackedEmail {
    TrackedEmail(emailId, recipient, subject, sentAt, None, None, "sent")
  }

  /** `record_send`: one new record, appended. */
  function RecordSend(t: Tracker, emailId: string, recipient: string, subject: string, sentAt: string): (r: Tracker)
    ensures |r.emails| == |t.emails| + 1
    ensures r.emails[..|t.emails|] == t.emails
    ensures r.emails[|t.emails|] == SentRecord(emailId, recipient, subject, sentAt)
  {
    Tracker(t.emails + [SentRecord(emailId, recipient, subject, sentAt)])
  }

  /** Position of the first record with this id. */
  function FindEmail(es: seq<TrackedEmail>, emailId: string): (r: Option<nat>)
    ensures r.Some? ==> r.value < |es| && es[r.value].emailId == emailId
                        && forall j :: 0 <= j < r.value ==> es[j].emailId != emailId
    ensures r.None? ==> forall j :: 0 <= j < |es| ==> es[j].emailId != emailId
  {
    if es == [] then None
    else if es[0].emailId == emailId then Some(0)
    else match FindEmail(es[1..], emailId)
      case None => None
      case Some(i) => Some(i + 1)
  }

  /** `record_open`: the first matching record becomes "opened" at `now`; no match, no change. */
  function RecordOpen(t: Tracker, emailId: string, now: string): (r: Tracker)
    ensures |r.emails| == |t.emails|
    ensures FindEmail(t.emails, emailId).None? ==> r == t
    ensures FindEmail(t.emails, emailId).Some? ==>
      var i := FindEmail(t.emails, emailId).value;
      r.emails[i] == t.emails[i].(openedAt := Some(now), status := "opened")
      && forall j :: 0 <= j < |t.emails| && j != i ==> r.emails[j] == t.emails[j]
  {
    match FindEmail(t.emails, emailId)
    case None => t
    case Some(i) => Tracker(t.emails[i := t.emails[i].(openedAt := Some(now), status := "opened")])
  }

  /** `record_read_receipt`: the first matching record becomes "read" at `now`; no match, no change. */
  function RecordReadReceipt(t: Tracker, emailId: string, now: string): (r: Tracker)
    ensures |r.emails| == |t.emails|
    ensures FindEmail(t.emails, emailId).None? ==> r == t
    ensures FindEmail(t.emails, emailId).Some? ==>
      var i := FindEmail(t.emails, emailId).value;
      r.emails[i] == t.emails[i].(readReceiptAt := Some(now), status := "read")
      && forall j :: 0 <= j < |t.emails| && j != i ==> r.emails[j] == t.emails[j]
  {
    match FindEmail(t.emails, emailId)
    case None => t
    case Some(i) => Tracker(t.emails[i := t.emails[i].(readReceiptAt := Some(now), status := "read")])
  }

  function IsOpened(e: TrackedEmail): bool {
    Given(e.openedAt)
  }

  function IsRead(e: TrackedEmail): bool {
    Given(e.readReceiptAt)
  }

  datatype TrackingStats = TrackingStats(totalSent: nat, totalOpened: nat, totalRead: nat)

  /** `get_stats` without the two percentages. */
  function Stats(t: Tracker): (s: TrackingStats)
    ensures s.totalSent == |t.emails|
    ensures s.totalOpened <= s.totalSent && s.totalRead <= s.totalSent
    ensures s.totalOpened == |Filter(t.emails, IsOpened)|
    ensures s.totalRead == |Filter(t.emails, IsRead)|
  {
    TrackingStats(|t.emails|, CountIf(t.emails, IsOpened), CountIf(t.emails, IsRead))
  }

  lemma {:induction false} CountIfUpdate<T>(s: seq<T>, i: nat, x: T, p: T -> bool)
    requires i < |s|
    ensures CountIf(s[i := x], p) == CountIf(s, p) - (if p(s[i]) then 1 else 0) + (if p(x) then 1 else 0)
  {
    if i > 0 {
      assert s[i := x][1..] == s[1..][i - 1 := x];
      CountIfUpdate(s[1..], i - 1, x, p);
    } else {
      assert s[i := x][1..] == s[1..];
    }
  }

  lemma {:induction false} CountIfAppend<T>(s: seq<T>, x: T, p: T -> bool)
    ensures CountIf(s + [x], p) == CountIf(s, p) + (if p(x) then 1 else 0)
  {
    if s == [] {
      assert s + [x] == [x];
    } else {
      assert (s + [x])[1..] == s[1..] + [x];
      CountIfAppend(s[1..], x, p);
    }
  }

  /** A send adds one unopened, unread record. */
  lemma RecordSendStats(t: Tracker, emailId: string, recipient: string, subject: string, sentAt: string)
    ensures var s := Stats(RecordSend(t, emailId, recipient, subject, sentAt));
      s == TrackingStats(Stats(t).totalSent + 1, Stats(t).totalOpened, Stats(t).totalRead)
  {
    var x := SentRecord(emailId, recipient, subject, sentAt);
    CountIfAppend(t.emails, x, IsOpened);
    CountIfAppend(t.emails, x, IsRead);
  }

  /** Opening the first unopened match counts one more open; read receipts are untouched. */
  lemma RecordOpenStats(t: Tracker, emailId: string, now: string)
    requires now != ""
    ensures var before := Stats(t);
      var after := Stats(RecordOpen(t, emailId, now));
      after.totalSent == before.totalSent && after.totalRead == before.totalRead
      && after.totalOpened == before.totalOpened
         + (match FindEmail(t.emails, emailId)
            case None => 0
            case Some(i) => if IsOpened(t.emails[i]) then 0 else 1)
  {
    match FindEmail(t.emails, emailId)
    case None =>
    case Some(i) =>
      var x := t.emails[i].(openedAt := Some(now), status := "opened");
      CountIfUpdate(t.emails, i, x, IsOpened);
      CountIfUpdate(t.emails, i, x, IsRead);
  }

  /** A read receipt on the first unread match counts one more read; opens are untouched. */
  lemma RecordReadStats(t: Tracker, emailId: string, now: string)
    requires now != ""
    ensures var before := Stats(t);
      var after := Stats(RecordReadReceipt(t, emailId, now));
      after.totalSent == before.totalSent && after.totalOpened == before.totalOpened
      && after.totalRead == before.totalRead
         + (match FindEmail(t.emails, emailId)
            case None => 0
            case Some(i) => if IsRead(t.emails[i]) then 0 else 1)
  {
    match FindEmail(t.emails, emailId)
    case None =>
    case Some(i) =>
      var x := t.emails[i].(readReceiptAt := Some(now), status := "read");
      CountIfUpdate(t.emails, i, x, IsOpened);
      CountIfUpdate(t.emails, i, x, IsRead);
  }

  // ---------------------------------------------------------------------
  // Distribution to all recipients
  // ---------------------------------------------------------------------

  /** The pipeline's delivery system uses the default retry budget. */
  const PipelineRetries: nat := 3

  datatype RecipientResult = RecipientResult(recipient: string, delivery: Delivery)

  function IsSent(r: RecipientResult): bool {
    r.delivery.status == Sent
  }

  function IsFailed(r: RecipientResult): bool {
    r.delivery.status == Error
  }

  /** The sent time a delivery reports, "" when it has none. */
  function SentAt(d: Delivery): string {
    if d.metadata.Some? && d.metadata.value.sentAt.Some? then d.metadata.value.sentAt.value else ""
  }

  /** The tracker record for a sent result. */
  function TrackRecordFor(r: RecipientResult, subject: string): TrackedEmail {
    SentRecord(r.recipient + "_" + SentAt(r.delivery), r.recipient, subject, SentAt(r.delivery))
  }

  function TrackRecords(rs: seq<RecipientResult>, subject: string): (r: seq<TrackedEmail>)
    ensures |r| == |rs|
  {
    if rs == [] then [] else [TrackRecordFor(rs[0], subject)] + TrackRecords(rs[1..], subject)
  }

  /** The tracked records of the sent results: the head's, if it was sent, then the rest's. */
  lemma TrackFirst(results: seq<RecipientResult>, subject: string)
    requires results != []
    ensures TrackRecords(Filter(results, IsSent), subject)
      == (if IsSent(results[0]) then [TrackRecordFor(results[0], subject)] else []) + TrackRecords(Filter(results[1..], IsSent), subject)
  {
    if IsSent(results[0]) {
      var f := Filter(results, IsSent);
      assert f == [results[0]] + Filter(results[1..], IsSent);
      assert f[1..] == Filter(results[1..], IsSent);
    }
  }

  /** Everything one delivery needs besides the recipient. */
  datatype Channel = Channel(config: SmtpConfig, tracking: bool, subject: string, transports: nat -> Transport, clock: nat -> string)

  function DeliverTo(ch: Channel, i: nat, recipient: string): RecipientResult {
    RecipientResult(recipient, SendEmail(ch.config, PipelineRetries, ch.tracking, ch.transports(i), ch.clock(i)))
  }

  /** One delivery per recipient, in order; recipient `i` uses transport and clock `i`. */
  function Deliveries(ch: Channel, recipients: seq<string>): (rs: seq<RecipientResult>)
    ensures |rs| == |recipients|
    ensures forall i :: 0 <= i < |recipients| ==> rs[i] == DeliverTo(ch, i, recipients[i])
  {
    seq(|recipients|, i requires 0 <= i < |recipients| => DeliverTo(ch, i, recipients[i]))
  }

  /**
   * The tracking step of the delivery loop: each sent result is recorded
   * as it comes. It depends on nothing but the results, so running it after
   * the deliveries gives the same tracker.
   */
  function TrackSent(t: Tracker, results: seq<RecipientResult>, subject: string): (r: Tracker)
    ensures r.emails == t.emails + TrackRecords(Filter(results, IsSent), subject)
    decreases |results|
  {
    if results == [] then t
    else
      var head := if IsSent(results[0]) then [TrackRecordFor(results[0], subject)] else [];
      var t1 := TrackOne(t, results[0], subject);
      var r := TrackSent(t1, results[1..], subject);
      TrackFirst(results, subject);
      ConcatAssoc(t.emails, head, TrackRecords(Filter(results[1..], IsSent), subject));
      r
  }

  /** One result of the loop: a sent result is recorded, any other is skipped. */
  function TrackOne(t: Tracker, first: RecipientResult, subject: string): (r: Tracker)
    ensures r.emails == t.emails + (if IsSent(first) then [TrackRecordFor(first, subject)] else [])
  {
    if IsSent(first) then RecordSend(t, first.recipient + "_" + SentAt(first.delivery), first.recipient, subject, SentAt(first.delivery))
    else t
  }

  datatype DistributionReport = DistributionReport(
    status: string,
    sent: nat,
    failed: nat,
    results: seq<RecipientResult>,
    piiReport: PiiReport,
    tracker: Tracker)

  const DefaultSubject := "Weekly Product Pulse"

  /** The subject: the caller's, else the document title, else the default. */
  function ChooseSubject(subject: string, title: Option<string>): string {
    if subject != "" then subject else title.GetOr(DefaultSubject)
  }

  lemma {:induction false} SentPlusFailed(rs: seq<RecipientResult>)
    requires forall i :: 0 <= i < |rs| ==> rs[i].delivery.status == Sent || rs[i].delivery.status == Error
    ensures CountIf(rs, IsSent) + CountIf(rs, IsFailed) == |rs|
  {
    if rs != [] {
      SentPlusFailed(rs[1..]);
    }
  }

  /**
   * `distribute` over already rendered bodies: a dirty PII report blocks
   * every delivery; otherwise each recipient gets one delivery, in order,
   * and only sent results are tracked.
   */
  function Distribute(html: string, plain: string, find: Finder, recipients: seq<string>,
                      config: SmtpConfig, tracking: bool, subject: string, title: Option<string>,
                      transports: nat -> Transport, clock: nat -> string, tracker: Tracker): (r: DistributionReport)
    ensures r.piiReport == VerifyEmail(html, plain, find).1
    ensures !r.piiReport.overallClean ==>
      r.status == "BLOCKED" && r.sent == 0 && r.failed == 0 && r.results == [] && r.tracker == tracker
    ensures r.piiReport.overallClean ==>
      var ch := Channel(config, tracking, ChooseSubject(subject, title), transports, clock);
      r.status == "COMPLETE"
      && |r.results| == |recipients|
      && (forall i :: 0 <= i < |recipients| ==> r.results[i] == DeliverTo(ch, i, recipients[i]))
      && r.sent + r.failed == |recipients|
      && r.sent == |Filter(r.results, IsSent)|
      && r.tracker.emails == tracker.emails + (if tracking then TrackRecords(Filter(r.results, IsSent), ch.subject) else [])
  {
    var (clean, report) := VerifyEmail(html, plain, find);
    if !clean then DistributionReport("BLOCKED", 0, 0, [], report, tracker)
    else
      var ch := Channel(config, tracking, ChooseSubject(subject, title), transports, clock);
      var results := Deliveries(ch, recipients);
      var t := if tracking then TrackSent(tracker, results, ch.subject) else tracker;
      SentPlusFailed(results);
      DistributionReport("COMPLETE", CountIf(results, IsSent), CountIf(results, IsFailed), results, report, t)
  }
}

=== FILE: emailer.dfy ===
/**
 * The plain-text email for the weekly note: its subject line, the body
 * written by the language model or, failing that, by a fixed formatter, and
 * the PII scrub with its empty-text guard.
 *
 * The model's reply is a parameter (None when it is absent or raised), and
 * the regular-expression substitutions of the scrub are a parameter too.
 */
module Emailer {
  import opened Wrappers
  import opened Seqs
  import opened Text
  import opened Summarizer

  /** `Weekly Product Pulse – {product} ({start}–{end})`, with en dashes. */
  function Subject(product: string, weekStart: string, weekEnd: string): (r: string)
    ensures r == "Weekly Product Pulse \U{2013} " + product + " (" + weekStart + "\U{2013}" + weekEnd + ")"
    ensures "Weekly Product Pulse " <= r
  {
    "Weekly Product Pulse \U{2013} " + product + " (" + weekStart + "\U{2013}" + weekEnd + ")"
  }

  // ---------------------------------------------------------------------
  // Fallback formatter
  // ---------------------------------------------------------------------

  const MaxListed := 3
  const ThemesHeader := "Top 3 themes:"
  const QuotesHeader := "Quotes:"
  const ActionsHeader := "Actions:"
  const ClosingLine := "Thanks for reading\U{2014}happy to discuss or take inputs."

  function ProductLine(product: string, weekStart: string, weekEnd: string): string {
    "Product: " + product + "\nWindow: " + weekStart + "\U{2013}" + weekEnd
  }

  function Bullet(s: string): string {
    "- " + s
  }

  function ThemeBullet(t: NoteTheme): string {
    "- " + t.name + ": " + t.summary
  }

  /** A header followed by the bullets of the first three items, or nothing for an empty list. */
  function Section<T>(header: string, items: seq<T>, bullet: T -> string): (r: seq<string>)
    ensures |r| == SectionSize(|items|)
    ensures items == [] ==> r == []
    ensures items != [] ==> r[0] == header
    ensures items != [] ==> forall i :: 0 <= i < Min(MaxListed, |items|) ==> r[1 + i] == bullet(items[i])
  {
    if items == [] then [] else [header] + Map(items[..Min(MaxListed, |items|)], bullet)
  }

  function SectionSize(n: nat): nat {
    if n == 0 then 0 else 1 + Min(MaxListed, n)
  }

  /**
   * The formatter's lines: product and window, a blank, the title, the
   * overview when non-empty, the three sections, a blank and the closing.
   */
  function FallbackLines(note: PulseNote, weekStart: string, weekEnd: string, product: string): (lines: seq<string>)
    ensures |lines| == 5 + (if note.overview != "" then 1 else 0)
      + SectionSize(|note.themes|) + SectionSize(|note.quotes|) + SectionSize(|note.actions|)
    ensures |lines| <= 18
  {
    Layout(FallbackHead(note, weekStart, weekEnd, product),
           Section(ThemesHeader, note.themes, ThemeBullet),
           Section(QuotesHeader, note.quotes, Bullet),
           Section(ActionsHeader, note.actions, Bullet))
  }

  /** Product and window, a blank, the title and the overview when non-empty. */
  function FallbackHead(note: PulseNote, weekStart: string, weekEnd: string, product: string): (h: seq<string>)
    ensures |h| == 3 + (if note.overview != "" then 1 else 0)
    ensures h[0] == ProductLine(product, weekStart, weekEnd) && h[1] == "" && h[2] == note.title
    ensures note.overview != "" ==> h[3] == note.overview
  {
    [ProductLine(product, weekStart, weekEnd), "", note.title] + (if note.overview != "" then [note.overview] else [])
  }

  function Layout(head: seq<string>, ts: seq<string>, qs: seq<string>, as_: seq<string>): seq<string> {
    head + ts + qs + as_ + ["", ClosingLine]
  }

  /** The formatter's lines open with the product, a blank and the title, and close with a blank and the closing. */
  lemma FallbackLinesEnds(note: PulseNote, weekStart: string, weekEnd: string, product: string)
    ensures var lines := FallbackLines(note, weekStart, weekEnd, product);
      && lines[0] == ProductLine(product, weekStart, weekEnd) && lines[1] == "" && lines[2] == note.title
      && (note.overview != "" ==> lines[3] == note.overview)
      && lines[|lines| - 2] == "" && lines[|lines| - 1] == ClosingLine
  {
  }

  /**
   * Each section header sits exactly where its list starts, and is there if
   * and only if the list is non-empty; the first three items follow it.
   */
  lemma FallbackLinesSections(note: PulseNote, weekStart: string, weekEnd: string, product: string)
    ensures var lines := FallbackLines(note, weekStart, weekEnd, product);
      var k := 3 + (if note.overview != "" then 1 else 0);
      && (lines[k] == ThemesHeader <==> note.themes != [])
      && (note.themes != [] ==> forall i :: 0 <= i < Min(MaxListed, |note.themes|) ==>
            lines[k + 1 + i] == ThemeBullet(note.themes[i]))
    ensures var lines := FallbackLines(note, weekStart, weekEnd, product);
      var k := 3 + (if note.overview != "" then 1 else 0) + SectionSize(|note.themes|);
      && (lines[k] == QuotesHeader <==> note.quotes != [])
      && (note.quotes != [] ==> forall i :: 0 <= i < Min(MaxListed, |note.quotes|) ==>
            lines[k + 1 + i] == Bullet(note.quotes[i]))
    ensures var lines := FallbackLines(note, weekStart, weekEnd, product);
      var k := 3 + (if note.overview != "" then 1 else 0) + SectionSize(|note.themes|) + SectionSize(|note.quotes|);
      && (lines[k] == ActionsHeader <==> note.actions != [])
      && (note.actions != [] ==> forall i :: 0 <= i < Min(MaxListed, |note.actions|) ==>
            lines[k + 1 + i] == Bullet(note.actions[i]))
  {
    ThemesPlaced(note, weekStart, weekEnd, product);
    QuotesPlaced(note, weekStart, weekEnd, product);
    ActionsPlaced(note, weekStart, weekEnd, product);
  }

  lemma ThemesPlaced(note: PulseNote, weekStart: string, weekEnd: string, product: string)
    ensures var lines := FallbackLines(note, weekStart, weekEnd, product);
      var k := 3 + (if note.overview != "" then 1 else 0);
      && (lines[k] == ThemesHeader <==> note.themes != [])
      && (note.themes != [] ==> forall i :: 0 <= i < Min(MaxListed, |note.themes|) ==>
            lines[k + 1 + i] == ThemeBullet(note.themes[i]))
  {
    var a := FallbackHead(note, weekStart, weekEnd, product);
    var ts := Section(ThemesHeader, note.themes, ThemeBullet);
    var qs := Section(QuotesHeader, note.quotes, Bullet);
    var as_ := Section(ActionsHeader, note.actions, Bullet);
    var tail := ["", ClosingLine];
    SplitAt(a, ts, qs, as_, tail);
    SectionPlaced(a, ThemesHeader, note.themes, ThemeBullet, qs + as_ + tail);
  }

  lemma QuotesPlaced(note: PulseNote, weekStart: string, weekEnd: string, product: string)
    ensures var lines := FallbackLines(note, weekStart, weekEnd, product);
      var k := 3 + (if note.overview != "" then 1 else 0) + SectionSize(|note.themes|);
      && (lines[k] == QuotesHeader <==> note.quotes != [])
      && (note.quotes != [] ==> forall i :: 0 <= i < Min(MaxListed, |note.quotes|) ==>
            lines[k + 1 + i] == Bullet(note.quotes[i]))
  {
    var a := FallbackHead(note, weekStart, weekEnd, product);
    var ts := Section(ThemesHeader, note.themes, ThemeBullet);
    var qs := Section(QuotesHeader, note.quotes, Bullet);
    var as_ := Section(ActionsHeader, note.actions, Bullet);
    var tail := ["", ClosingLine];
    SplitAt(a, ts, qs, as_, tail);
    SectionPlaced(a + ts, QuotesHeader, note.quotes, Bullet, as_ + tail);
  }

  lemma ActionsPlaced(note: PulseNote, weekStart: string, weekEnd: string, product: string)
    ensures var lines := FallbackLines(note, weekStart, weekEnd, product);
      var k := 3 + (if note.overview != "" then 1 else 0) + SectionSize(|note.themes|) + SectionSize(|note.quotes|);
      && (lines[k] == ActionsHeader <==> note.actions != [])
      && (note.actions != [] ==> forall i :: 0 <= i < Min(MaxListed, |note.actions|) ==>
            lines[k + 1 + i] == Bullet(note.actions[i]))
  {
    var a := FallbackHead(note, weekStart, weekEnd, product);
    var ts := Section(ThemesHeader, note.themes, ThemeBullet);
    var qs := Section(QuotesHeader, note.quotes, Bullet);
    var as_ := Section(ActionsHeader, note.actions, Bullet);
    var tail := ["", ClosingLine];
    SectionPlaced(a + ts + qs, ActionsHeader, note.actions, Bullet, tail);
  }

  /** The layout read three ways: around the themes, the quotes and the actions. */
  lemma SplitAt(a: seq<string>, ts: seq<string>, qs: seq<string>, as_: seq<string>, tail: seq<string>)
    ensures a + ts + qs + as_ + tail == a + ts + (qs + as_ + tail)
    ensures a + ts + qs + as_ + tail == (a + ts) + qs + (as_ + tail)
  {
    ConcatAssoc(a + ts, qs, as_);
    ConcatAssoc(a + ts, qs + as_, tail);
    ConcatAssoc(qs, as_, tail);
    ConcatAssoc(a + ts + qs, as_, tail);
    ConcatAssoc(a + ts, qs, as_ + tail);
  }

  /** A section between `pre` and a line other than its header starts right after `pre`. */
  lemma SectionPlaced<T>(pre: seq<string>, header: string, items: seq<T>, bullet: T -> string, post: seq<string>)
    requires post != [] && post[0] != header
    ensures var l := pre + Section(header, items, bullet) + post;
      && |l| == |pre| + SectionSize(|items|) + |post|
      && (l[|pre|] == header <==> items != [])
      && (items != [] ==> forall i :: 0 <= i < Min(MaxListed, |items|) ==> l[|pre| + 1 + i] == bullet(items[i]))
  {
    var sec := Section(header, items, bullet);
    var l := pre + sec + post;
    if items == [] {
      assert l[|pre|] == post[0];
    } else {
      assert l[|pre|] == sec[0];
      forall i | 0 <= i < Min(MaxListed, |items|)
        ensures l[|pre| + 1 + i] == bullet(items[i])
      {
        assert l[|pre| + 1 + i] == sec[1 + i];
      }
    }
  }

  /** The formatter's body: the lines joined with newlines. */
  function FallbackBody(note: PulseNote, weekStart: string, weekEnd: string, product: string): string {
    Join(FallbackLines(note, weekStart, weekEnd, product), "\n")
  }

  /** A joined text ends with its last part. */
  lemma {:induction false} JoinEndsWith(ws: seq<string>, sep: string)
    requires ws != []
    ensures var j := Join(ws, sep); var w := ws[|ws| - 1];
      |w| <= |j| && j[|j| - |w|..] == w
  {
    if |ws| > 1 {
      JoinEndsWith(ws[1..], sep);
      var rest := Join(ws[1..], sep);
      var w := ws[|ws| - 1];
      assert ws[1..][|ws[1..]| - 1] == w;
      var j := ws[0] + sep + rest;
      assert j[|j| - |w|..] == rest[|rest| - |w|..];
    }
  }

  /** The fallback body opens with the product and window and closes with the fixed closing line. */
  lemma FallbackBodyEnds(note: PulseNote, weekStart: string, weekEnd: string, product: string)
    ensures ProductLine(product, weekStart, weekEnd) <= FallbackBody(note, weekStart, weekEnd, product)
    ensures var b := FallbackBody(note, weekStart, weekEnd, product);
      |ClosingLine| <= |b| && b[|b| - |ClosingLine|..] == ClosingLine
  {
    var lines := FallbackLines(note, weekStart, weekEnd, product);
    FallbackLinesEnds(note, weekStart, weekEnd, product);
    if |lines| > 1 {
      assert Join(lines, "\n") == lines[0] + "\n" + Join(lines[1..], "\n");
    }
    JoinEndsWith(lines, "\n");
  }

  /** The body: the model's reply when it gave one, the formatter's otherwise. */
  function DraftWeeklyEmail(note: PulseNote, weekStart: string, weekEnd: string, product: string,
                            available: bool, llm: Option<string>): (r: string)
    ensures available && llm.Some? ==> r == llm.value
    ensures !available || llm.None? ==> r == FallbackBody(note, weekStart, weekEnd, product)
  {
    if available && llm.Some? then llm.value else FallbackBody(note, weekStart, weekEnd, product)
  }

  // ---------------------------------------------------------------------
  // Scrub
  // ---------------------------------------------------------------------

  /** The three substitutions, in order: e-mail addresses, phone numbers, runs of ten or more digits. */
  datatype ScrubPattern = EmailAddress | PhoneNumber | LongDigits

  const Redacted := "[REDACTED]"

  /** `re.sub(pattern, replacement, text)`. */
  type Substitute = (ScrubPattern, string, string) -> string

  /** Empty text is returned as is; anything else goes through the three substitutions in order. */
  function ScrubPii(text: string, sub: Substitute): (r: string)
    ensures text == "" ==> r == ""
    ensures text != "" ==> r == sub(LongDigits, Redacted, sub(PhoneNumber, Redacted, sub(EmailAddress, Redacted, text)))
  {
    if text == "" then text
    else
      var t1 := sub(EmailAddress, Redacted, text);
      var t2 := sub(PhoneNumber, Redacted, t1);
      sub(LongDigits, Redacted, t2)
  }
}

=== FILE: ingest.dfy ===
/**
 * Ingest gate (layer1_import.py): schema validation with a fixed check order,
 * advisory PII flagging, and deduplication against a store of seen keys that
 * only grows.
 */
module Ingest {
  import opened Wrappers
  import opened Seqs
  import opened Text

  // ---------------------------------------------------------------------
  // Raw records
  // ---------------------------------------------------------------------

  /** A field value of a raw review record, by its Python type. */
  datatype Value =
    | Str(s: string)
    | Int(i: int)
    | Float(r: real)
    | Bool(b: bool)
    | DateTime(iso: string)
    | StrList(items: seq<string>)
    | Null

  /** A scraped review: a dictionary from field names to values. */
  type RawReview = map<string, Value>

  const RequiredFields: seq<string> := ["reviewId", "content", "score", "at"]

  const PiiDetectedField := "_pii_detected"
  const PiiTypesField := "_pii_types"

  /** Python's `isinstance(v, (int, float))` (a bool is an int in Python). */
  predicate IsNumber(v: Value) {
    v.Int? || v.Float? || v.Bool?
  }

  /** `1 <= v <= 5` for a numeric value. */
  predicate InScoreRange(v: Value)
    requires IsNumber(v)
  {
    match v
    case Int(i) => 1 <= i <= 5
    case Float(x) => 1.0 <= x <= 5.0
    case Bool(b) => b
  }

  /** Whether field `f` of a record carries a value of the type the schema demands. */
  predicate FieldOk(f: string, v: Value) {
    if f == "reviewId" then v.Str? && v.s != ""
    else if f == "content" then v.Str?
    else if f == "score" then IsNumber(v) && InScoreRange(v)
    else if f == "at" then v.DateTime?
    else true
  }

  /** The schema, stated field by field: every required field present and well typed. */
  predicate WellFormed(r: RawReview) {
    forall i :: 0 <= i < |RequiredFields| ==> RequiredFields[i] in r && FieldOk(RequiredFields[i], r[RequiredFields[i]])
  }

  function MissingFields(r: RawReview): (m: seq<string>)
    ensures IsSubsequence(m, RequiredFields)
    ensures forall i :: 0 <= i < |RequiredFields| ==> (RequiredFields[i] in m <==> RequiredFields[i] !in r)
  {
    var m := Filter(RequiredFields, f => f !in r);
    assert m == Filter(RequiredFields, f => f !in r);
    FilterIsSubsequence(RequiredFields, f => f !in r);
    m
  }

  lemma {:induction false} FilterIsSubsequence<T>(s: seq<T>, p: T -> bool)
    ensures IsSubsequence(Filter(s, p), s)
  {
    if s != [] {
      FilterIsSubsequence(s[1..], p);
      if !p(s[0]) {
        SubsequenceOfTail(Filter(s[1..], p), s[1..], s[0]);
        assert [s[0]] + s[1..] == s;
      }
    }
  }

  const MsgBadId := "reviewId must be a non-empty string"
  const MsgBadContent := "content must be a string"
  const MsgBadScore := "score must be between 1 and 5"
  const MsgBadAt := "at must be a datetime object"

  /**
   * `SchemaValidator.validate`: `(true, "")` exactly for well-formed records;
   * otherwise the first failing check, in the order presence, reviewId,
   * content, score, at, decides the message.
   */
  function Validate(r: RawReview): (res: (bool, string))
    ensures res.0 <==> WellFormed(r)
    ensures res.0 <==> res.1 == ""
    ensures MissingFields(r) != [] ==> res.1 == "Missing required fields: " + Join(MissingFields(r), ", ")
    ensures MissingFields(r) == [] && !FieldOk("reviewId", r["reviewId"]) ==> res.1 == MsgBadId
    ensures MissingFields(r) == [] && FieldOk("reviewId", r["reviewId"]) && !FieldOk("content", r["content"]) ==> res.1 == MsgBadContent
    ensures (MissingFields(r) == [] && FieldOk("reviewId", r["reviewId"]) && FieldOk("content", r["content"])
      && !FieldOk("score", r["score"])) ==> res.1 == MsgBadScore
    ensures (MissingFields(r) == [] && FieldOk("reviewId", r["reviewId"]) && FieldOk("content", r["content"])
      && FieldOk("score", r["score"]) && !FieldOk("at", r["at"])) ==> res.1 == MsgBadAt
  {
    var missing := MissingFields(r);
    if missing != [] then
      assert exists i :: 0 <= i < |RequiredFields| && RequiredFields[i] !in r by {
        assert missing[0] in RequiredFields;
      }
      (false, "Missing required fields: " + Join(missing, ", "))
    else if !(r["reviewId"].Str? && r["reviewId"].s != "") then
      assert !FieldOk(RequiredFields[0], r[RequiredFields[0]]);
      (false, MsgBadId)
    else if !r["content"].Str? then
      assert !FieldOk(RequiredFields[1], r[RequiredFields[1]]);
      (false, MsgBadContent)
    else if !(IsNumber(r["score"]) && InScoreRange(r["score"])) then
      assert !FieldOk(RequiredFields[2], r[RequiredFields[2]]);
      (false, MsgBadScore)
    else if !r["at"].DateTime? then
      assert !FieldOk(RequiredFields[3], r[RequiredFields[3]]);
      (false, MsgBadAt)
    else
      (true, "")
  }

  /** The records `validate` accepts. */
  predicate IsValid(r: RawReview) {
    WellFormed(r)
  }

  /** `SchemaValidator.validate_batch`: keeps exactly the valid records, in input order. */
  method ValidateBatch(reviews: seq<RawReview>) returns (valid: seq<RawReview>)
    ensures valid == Filter(reviews, IsValid)
    ensures forall i :: 0 <= i < |valid| ==> WellFormed(valid[i])
    ensures IsSubsequence(valid, reviews)
  {
    valid := [];
    var i := 0;
    while i < |reviews|
      invariant 0 <= i <= |reviews|
      invariant valid == Filter(reviews[..i], IsValid)
    {
      FilterSnoc(reviews[..i], reviews[i], IsValid);
      assert reviews[..i + 1] == reviews[..i] + [reviews[i]];
      var (ok, _) := Validate(reviews[i]);
      if ok {
        valid := valid + [reviews[i]];
      }
      i := i + 1;
    }
    assert reviews[..i] == reviews;
    FilterIsSubsequence(reviews, IsValid);
  }

  lemma FilterSnoc<T>(s: seq<T>, x: T, p: T -> bool)
    ensures Filter(s + [x], p) == Filter(s, p) + (if p(x) then [x] else [])
  {
    FilterConcat(s, [x], p);
    assert Filter([x], p) == (if p(x) then [x] else []) by {
      assert [x][1..] == [];
    }
  }

  // ---------------------------------------------------------------------
  // PII flagging (advisory)
  // ---------------------------------------------------------------------

  /** The three lexical detectors of the ingest gate; their regular expressions are parameters. */
  datatype PiiDetectors = PiiDetectors(email: string -> bool, phone: string -> bool, longDigits: string -> bool)

  const PiiKinds: seq<string> := ["email", "phone", "long_digits"]

  /**
   * `PIIDetector.contains_pii`: empty text is clean; otherwise the kinds found,
   * each at most once and in the order email, phone, long_digits.
   */
  function ContainsPii(text: string, d: PiiDetectors): (r: (bool, seq<string>))
    ensures text == "" ==> r == (false, [])
    ensures r.0 <==> |r.1| > 0
    ensures IsSubsequence(r.1, PiiKinds)
    ensures text != "" ==> ("email" in r.1 <==> d.email(text))
    ensures text != "" ==> ("phone" in r.1 <==> d.phone(text))
    ensures text != "" ==> ("long_digits" in r.1 <==> d.longDigits(text))
  {
    if text == "" then (false, [])
    else
      var kinds := (if d.email(text) then ["email"] else [])
        + (if d.phone(text) then ["phone"] else [])
        + (if d.longDigits(text) then ["long_digits"] else []);
      (|kinds| > 0, kinds)
  }

  /** Python truthiness is false: empty text or list, zero, False or None. */
  predicate Falsy(v: Value) {
    match v
    case Str(s) => s == ""
    case Int(i) => i == 0
    case Float(x) => x == 0.0
    case Bool(b) => !b
    case DateTime(_) => false
    case StrList(items) => items == []
    case Null => true
  }

  /**
   * The detectors can scan the content: it is absent, a string, or falsy
   * (which `contains_pii` reports clean before any search). A truthy
   * non-string content makes the regular-expression search raise.
   */
  predicate ContentScannable(r: RawReview) {
    "content" in r ==> r["content"].Str? || Falsy(r["content"])
  }

  /** `review.get('content', '')`. */
  function ContentOf(r: RawReview): string {
    if "content" in r && r["content"].Str? then r["content"].s else ""
  }

  /** One review with `_pii_detected` and `_pii_types` set from its content. */
  function FlagOne(r: RawReview, d: PiiDetectors): RawReview {
    var (has, kinds) := ContainsPii(ContentOf(r), d);
    r[PiiDetectedField := Bool(has)][PiiTypesField := StrList(kinds)]
  }

  /**
   * `PIIDetector.flag_pii_reviews`: same length and order, both flags set on
   * every review from its content, every other field untouched.
   */
  function FlagPii(reviews: seq<RawReview>, d: PiiDetectors): (out: seq<RawReview>)
    requires forall i :: 0 <= i < |reviews| ==> ContentScannable(reviews[i])
    ensures |out| == |reviews|
    ensures forall i :: 0 <= i < |out| ==>
      && out[i].Keys == reviews[i].Keys + {PiiDetectedField, PiiTypesField}
      && out[i][PiiDetectedField] == Bool(ContainsPii(ContentOf(reviews[i]), d).0)
      && out[i][PiiTypesField] == StrList(ContainsPii(ContentOf(reviews[i]), d).1)
      && (forall k :: k in reviews[i] && k != PiiDetectedField && k != PiiTypesField ==> out[i][k] == reviews[i][k])
  {
    seq(|reviews|, i requires 0 <= i < |reviews| => FlagOne(reviews[i], d))
  }

  // ---------------------------------------------------------------------
  // Identity keys
  // ---------------------------------------------------------------------

  /** `review.get('at', now).isoformat()`; the clock reading is a parameter. */
  function TimestampOf(r: RawReview, now: string): string {
    if "at" in r && r["at"].DateTime? then r["at"].iso else now
  }

  /**
   * `Deduplicator.compute_hash`: the review id verbatim when it is a non-empty
   * string, otherwise the digest of "content|timestamp" (SHA-256 is a parameter).
   */
  function ReviewKey(r: RawReview, digest: string -> string, now: string): (k: string)
    ensures ("reviewId" in r && r["reviewId"].Str? && r["reviewId"].s != "") ==> k == r["reviewId"].s
    ensures !("reviewId" in r && r["reviewId"].Str? && r["reviewId"].s != "") ==> k == digest(ContentOf(r) + "|" + TimestampOf(r, now))
  {
    if "reviewId" in r && r["reviewId"].Str? && r["reviewId"].s != "" then r["reviewId"].s
    else digest(ContentOf(r) + "|" + TimestampOf(r, now))
  }

  /** Two id-less reviews with the same content and timestamp share a key, whatever else differs. */
  lemma FallbackKeysCollide(a: RawReview, b: RawReview, digest: string -> string, now: string)
    requires "reviewId" !in a && "reviewId" !in b
    requires ContentOf(a) == ContentOf(b) && TimestampOf(a, now) == TimestampOf(b, now)
    ensures ReviewKey(a, digest, now) == ReviewKey(b, digest, now)
  {
  }

  // ---------------------------------------------------------------------
  // Deduplication
  // ---------------------------------------------------------------------

  /** The dedup store: the keys seen so far, and the last set written to disk. */
  datatype DedupStore = DedupStore(seen: set<string>, persisted: set<string>)

  function Keys<T>(s: seq<T>, key: T -> string): (ks: seq<string>)
    ensures |ks| == |s| && forall i :: 0 <= i < |s| ==> ks[i] == key(s[i])
  {
    seq(|s|, i requires 0 <= i < |s| => key(s[i]))
  }

  /** The first element of `s` whose key is `k`. */
  function FirstWithKey<T>(s: seq<T>, k: string, key: T -> string): Option<T> {
    if s == [] then None
    else if key(s[0]) == k then Some(s[0])
    else FirstWithKey(s[1..], k, key)
  }

  /**
   * The loop of `filter_duplicates`, from a given seen set: keeps each record
   * whose key is neither already seen nor taken earlier in the batch.
   */
  function FilterFrom<T(==)>(seen: set<string>, rs: seq<T>, key: T -> string): (res: (seq<T>, set<string>))
    ensures IsSubsequence(res.0, rs)
    ensures forall i, j :: 0 <= i < j < |res.0| ==> key(res.0[i]) != key(res.0[j])
    ensures forall i :: 0 <= i < |res.0| ==> key(res.0[i]) !in seen
    ensures forall i :: 0 <= i < |res.0| ==> FirstWithKey(rs, key(res.0[i]), key) == Some(res.0[i])
    ensures res.1 == seen + SetOf(Keys(res.0, key))
    ensures forall i :: 0 <= i < |rs| ==> key(rs[i]) in res.1
    decreases |rs|
  {
    if rs == [] then ([], seen)
    else
      var k := key(rs[0]);
      assert [rs[0]] + rs[1..] == rs;
      if k in seen then
        var (u, s') := FilterFrom(seen, rs[1..], key);
        SubsequenceOfTail(u, rs[1..], rs[0]);
        assert forall i :: 0 <= i < |u| ==> key(u[i]) != k;
        (u, s')
      else
        var (u, s') := FilterFrom(seen + {k}, rs[1..], key);
        KeptHead(seen, rs, key, u, s');
        ([rs[0]] + u, s')
  }

  /** The induction step of `FilterFrom` when the head record is new. */
  lemma KeptHead<T>(seen: set<string>, rs: seq<T>, key: T -> string, u: seq<T>, s': set<string>)
    requires rs != [] && key(rs[0]) !in seen
    requires IsSubsequence(u, rs[1..])
    requires forall i :: 0 <= i < |u| ==> key(u[i]) !in seen + {key(rs[0])}
    requires forall i, j :: 0 <= i < j < |u| ==> key(u[i]) != key(u[j])
    requires forall i :: 0 <= i < |u| ==> FirstWithKey(rs[1..], key(u[i]), key) == Some(u[i])
    requires s' == seen + {key(rs[0])} + SetOf(Keys(u, key))
    ensures var out := [rs[0]] + u;
      && IsSubsequence(out, rs)
      && (forall i, j :: 0 <= i < j < |out| ==> key(out[i]) != key(out[j]))
      && (forall i :: 0 <= i < |out| ==> key(out[i]) !in seen)
      && (forall i :: 0 <= i < |out| ==> FirstWithKey(rs, key(out[i]), key) == Some(out[i]))
      && s' == seen + SetOf(Keys(out, key))
  {
    KeptHeadOrder(rs, key, u);
    KeptHeadKeys(seen, rs[0], key, u);
  }

  /** The new head record keeps `[head] + u` a subsequence of first occurrences. */
  lemma KeptHeadOrder<T>(rs: seq<T>, key: T -> string, u: seq<T>)
    requires rs != []
    requires IsSubsequence(u, rs[1..])
    requires forall i :: 0 <= i < |u| ==> key(u[i]) != key(rs[0])
    requires forall i :: 0 <= i < |u| ==> FirstWithKey(rs[1..], key(u[i]), key) == Some(u[i])
    ensures var out := [rs[0]] + u;
      && IsSubsequence(out, rs)
      && (forall i :: 0 <= i < |out| ==> FirstWithKey(rs, key(out[i]), key) == Some(out[i]))
  {
    var out := [rs[0]] + u;
    assert out[0] == rs[0] && out[1..] == u;
    forall i | 0 <= i < |out| ensures FirstWithKey(rs, key(out[i]), key) == Some(out[i]) {
      if i > 0 {
        assert out[i] == u[i - 1];
      }
    }
  }

  /** The new head record's key is fresh, and the seen set grows by exactly the kept keys. */
  lemma KeptHeadKeys<T>(seen: set<string>, head: T, key: T -> string, u: seq<T>)
    requires key(head) !in seen
    requires forall i :: 0 <= i < |u| ==> key(u[i]) !in seen + {key(head)}
    requires forall i, j :: 0 <= i < j < |u| ==> key(u[i]) != key(u[j])
    ensures var out := [head] + u;
      && (forall i, j :: 0 <= i < j < |out| ==> key(out[i]) != key(out[j]))
      && (forall i :: 0 <= i < |out| ==> key(out[i]) !in seen)
      && seen + {key(head)} + SetOf(Keys(u, key)) == seen + SetOf(Keys(out, key))
  {
    var out := [head] + u;
    assert forall i :: 0 < i < |out| ==> out[i] == u[i - 1];
    assert Keys(out, key) == [key(head)] + Keys(u, key);
    assert SetOf(Keys(out, key)) == {key(head)} + SetOf(Keys(u, key));
  }

  /**
   * `Deduplicator.filter_duplicates`: the new records, and the store grown by
   * their keys; the store is written iff at least one key was new.
   */
  function FilterDuplicates<T(==)>(store: DedupStore, rs: seq<T>, key: T -> string): (res: (seq<T>, DedupStore))
    ensures IsSubsequence(res.0, rs)
    ensures forall i, j :: 0 <= i < j < |res.0| ==> key(res.0[i]) != key(res.0[j])
    ensures forall i :: 0 <= i < |res.0| ==> key(res.0[i]) !in store.seen
    ensures forall i :: 0 <= i < |res.0| ==> FirstWithKey(rs, key(res.0[i]), key) == Some(res.0[i])
    ensures res.1.seen == store.seen + SetOf(Keys(res.0, key))
    ensures forall i :: 0 <= i < |rs| ==> key(rs[i]) in res.1.seen
    ensures res.1.persisted == if |res.0| > 0 then res.1.seen else store.persisted
  {
    var (u, seen') := FilterFrom(store.seen, rs, key);
    (u, DedupStore(seen', if |u| > 0 then seen' else store.persisted))
  }

  /** Running the same batch twice: the second pass accepts nothing and changes nothing. */
  lemma FilterDuplicatesIdempotent<T>(store: DedupStore, rs: seq<T>, key: T -> string)
    ensures var (_, store1) := FilterDuplicates(store, rs, key);
            var (u2, store2) := FilterDuplicates(store1, rs, key);
            u2 == [] && store2 == store1
  {
    var (_, store1) := FilterDuplicates(store, rs, key);
    var (u2, store2) := FilterDuplicates(store1, rs, key);
    assert forall x :: x in rs ==> key(x) in store1.seen;
    SubsequenceMembers(u2, rs);
    assert |u2| == 0;
    assert SetOf(Keys(u2, key)) == {};
  }

  /** The seen set never shrinks. */
  lemma FilterDuplicatesGrows<T>(store: DedupStore, rs: seq<T>, key: T -> string)
    ensures store.seen <= FilterDuplicates(store, rs, key).1.seen
  {
  }

  /** `Deduplicator.mark_as_seen`: adds every key and always writes the store. */
  function MarkAsSeen<T>(store: DedupStore, rs: seq<T>, key: T -> string): (st: DedupStore)
    ensures st.seen == store.seen + SetOf(Keys(rs, key))
    ensures forall i :: 0 <= i < |rs| ==> key(rs[i]) in st.seen
    ensures st.persisted == st.seen
  {
    var seen' := store.seen + SetOf(Keys(rs, key));
    DedupStore(seen', seen')
  }

  // ---------------------------------------------------------------------
  // The gate
  // ---------------------------------------------------------------------

  /**
   * `Layer1Pipeline.process_batch` after the fetch: validate, flag, then
   * deduplicate by review key. Every accepted record is well formed, flagged,
   * and new to the store.
   */
  method ProcessBatch(store: DedupStore, raw: seq<RawReview>, d: PiiDetectors, digest: string -> string, now: string)
    returns (accepted: seq<RawReview>, store': DedupStore)
    ensures forall i :: 0 <= i < |accepted| ==> WellFormed(accepted[i])
    ensures forall i :: 0 <= i < |accepted| ==> PiiDetectedField in accepted[i] && PiiTypesField in accepted[i]
    ensures forall i :: 0 <= i < |accepted| ==> ReviewKey(accepted[i], digest, now) !in store.seen
    ensures forall i, j :: 0 <= i < j < |accepted| ==> ReviewKey(accepted[i], digest, now) != ReviewKey(accepted[j], digest, now)
    ensures store.seen <= store'.seen
    ensures |accepted| <= |Filter(raw, IsValid)|
    ensures raw == [] ==> accepted == [] && store' == store
    ensures raw != [] ==> (accepted, store') == Gate(store, raw, d, digest, now)
    ensures store'.seen == store.seen + set i | 0 <= i < |accepted| :: ReviewKey(accepted[i], digest, now)
    ensures forall i :: 0 <= i < |raw| && IsValid(raw[i]) ==> ReviewKey(raw[i], digest, now) in store'.seen
    ensures forall i :: 0 <= i < |raw| && IsValid(raw[i]) && ReviewKey(raw[i], digest, now) !in store.seen ==>
      exists j :: 0 <= j < |accepted| && ReviewKey(accepted[j], digest, now) == ReviewKey(raw[i], digest, now)
  {
    if raw == [] {
      return [], store;
    }
    var valid := ValidateBatch(raw);
    forall i | 0 <= i < |valid| ensures ContentScannable(valid[i]) {
      WellFormedHasText(valid[i]);
    }
    var flagged := FlagPii(valid, d);
    FlaggedWellFormed(valid, d);
    var key := (r: RawReview) => ReviewKey(r, digest, now);
    var res := FilterDuplicates(store, flagged, key);
    accepted, store' := res.0, res.1;
    KeptFrom(flagged, accepted, WellFormed);
    KeptFrom(flagged, accepted, (r: RawReview) => PiiDetectedField in r && PiiTypesField in r);
    SubsequenceLength(accepted, flagged);
    GateCovers(store, raw, d, digest, now);
    assert SetOf(Keys(accepted, key)) == set i | 0 <= i < |accepted| :: ReviewKey(accepted[i], digest, now) by {
      KeysSet(accepted, key);
    }
  }

  /** The three stages after the fetch as one value: validate, flag, deduplicate by review key. */
  function Gate(store: DedupStore, raw: seq<RawReview>, d: PiiDetectors, digest: string -> string, now: string): (seq<RawReview>, DedupStore) {
    var valid := Filter(raw, IsValid);
    ValidScannable(valid);
    FilterDuplicates(store, FlagPii(valid, d), (r: RawReview) => ReviewKey(r, digest, now))
  }

  lemma ValidScannable(valid: seq<RawReview>)
    requires forall i :: 0 <= i < |valid| ==> IsValid(valid[i])
    ensures forall i :: 0 <= i < |valid| ==> ContentScannable(valid[i])
  {
    forall i | 0 <= i < |valid| ensures ContentScannable(valid[i]) {
      WellFormedHasText(valid[i]);
    }
  }

  /** Flagging leaves the review key alone: it reads only reviewId, content and at. */
  lemma FlagKeepsKey(r: RawReview, d: PiiDetectors, digest: string -> string, now: string)
    ensures ReviewKey(FlagOne(r, d), digest, now) == ReviewKey(r, digest, now)
  {
  }

  /** After the gate, the key of every valid review is in the seen set. */
  lemma GateCovers(store: DedupStore, raw: seq<RawReview>, d: PiiDetectors, digest: string -> string, now: string)
    ensures forall i :: 0 <= i < |raw| && IsValid(raw[i]) ==> ReviewKey(raw[i], digest, now) in Gate(store, raw, d, digest, now).1.seen
  {
    var valid := Filter(raw, IsValid);
    ValidScannable(valid);
    var flagged := FlagPii(valid, d);
    forall i | 0 <= i < |raw| && IsValid(raw[i])
      ensures ReviewKey(raw[i], digest, now) in Gate(store, raw, d, digest, now).1.seen
    {
      var j :| 0 <= j < |valid| && valid[j] == raw[i];
      assert flagged[j] == FlagOne(valid[j], d);
      FlagKeepsKey(valid[j], d, digest, now);
    }
  }

  lemma KeysSet<T>(s: seq<T>, key: T -> string)
    ensures SetOf(Keys(s, key)) == set i | 0 <= i < |s| :: key(s[i])
  {
    var ks := Keys(s, key);
    forall x | x in SetOf(ks) ensures x in set i | 0 <= i < |s| :: key(s[i]) {
      var i :| 0 <= i < |ks| && ks[i] == x;
    }
  }

  /** Flagging keeps every record well formed and adds both flag fields. */
  lemma FlaggedWellFormed(valid: seq<RawReview>, d: PiiDetectors)
    requires forall i :: 0 <= i < |valid| ==> WellFormed(valid[i])
    requires forall i :: 0 <= i < |valid| ==> ContentScannable(valid[i])
    ensures var flagged := FlagPii(valid, d);
      forall i :: 0 <= i < |flagged| ==> WellFormed(flagged[i]) && PiiDetectedField in flagged[i] && PiiTypesField in flagged[i]
  {
    var flagged := FlagPii(valid, d);
    forall i | 0 <= i < |flagged|
      ensures WellFormed(flagged[i])
    {
      assert forall j :: 0 <= j < |RequiredFields| ==> RequiredFields[j] != PiiDetectedField && RequiredFields[j] != PiiTypesField;
    }
  }

  /** A property of every element carries over to a subsequence. */
  lemma KeptFrom<T>(all: seq<T>, kept: seq<T>, p: T -> bool)
    requires IsSubsequence(kept, all)
    requires forall i :: 0 <= i < |all| ==> p(all[i])
    ensures forall i :: 0 <= i < |kept| ==> p(kept[i])
  {
    SubsequenceMembers(kept, all);
    assert forall i :: 0 <= i < |kept| ==> kept[i] in all;
  }

  lemma WellFormedHasText(r: RawReview)
    requires WellFormed(r)
    ensures ContentScannable(r)
  {
    assert RequiredFields[1] == "content";
  }

  lemma {:induction false} SubsequenceLength<T>(a: seq<T>, b: seq<T>)
    requires IsSubsequence(a, b)
    ensures |a| <= |b|
    decreases |b|
  {
    if a != [] && b != [] {
      if a[0] == b[0] {
        SubsequenceLength(a[1..], b[1..]);
      } else {
        SubsequenceLength(a, b[1..]);
      }
    }
  }
}

=== FILE: scheduler.dfy ===
/**
 * The weekly scheduler's bookkeeping: the workflow parameters and their
 * dictionary form, the persisted run state (counters, a newest-first history
 * of at most fifty runs, the last and next run times), one workflow
 * execution, day validation when a job is registered, and start/stop.
 *
 * Clocks are parameters (`now`, `nextRun`), the workflow's outcome is an
 * `Option` (None when it returned, Some(message) when it raised), and the
 * scheduling library is reduced to a count of registered jobs.
 */
module Scheduler {
  import opened Wrappers
  import opened Seqs
  import opened Text

  // ---------------------------------------------------------------------
  // Workflow parameters
  // ---------------------------------------------------------------------

  datatype WorkflowConfig = WorkflowConfig(
    productId: string,
    productName: string,
    timeWindowWeeks: int,
    targetReviewCount: int,
    lang: string,
    country: string,
    timezone: string)

  /** The constructor's defaults. */
  const DefaultConfig := WorkflowConfig("com.nextbillion.groww", "Groww", 12, 100, "en", "in", "Asia/Kolkata")

  /** A dictionary value: the parameters are strings or integers. */
  datatype Value = Str(s: string) | Int(n: int)

  type Dict = map<string, Value>

  const ConfigKeys: set<string> :=
    {"product_id", "product_name", "time_window_weeks", "target_review_count", "lang", "country", "timezone"}

  /** The dictionary form, one entry per parameter; reading it back gives all seven parameters. */
  function ToDict(c: WorkflowConfig): (d: Dict)
    ensures d.Keys == ConfigKeys
    ensures FromDict(d) == Some(c)
  {
    map["product_id" := Str(c.productId), "product_name" := Str(c.productName),
        "time_window_weeks" := Int(c.timeWindowWeeks), "target_review_count" := Int(c.targetReviewCount),
        "lang" := Str(c.lang), "country" := Str(c.country), "timezone" := Str(c.timezone)]
  }

  /** A string argument, or the default when the key is absent; None for an integer. */
  function StrArg(d: Dict, key: string, default: string): Option<string> {
    if key !in d then Some(default)
    else match d[key]
      case Str(s) => Some(s)
      case Int(_) => None
  }

  /** An integer argument, or the default when the key is absent; None for a string. */
  function IntArg(d: Dict, key: string, default: int): Option<int> {
    if key !in d then Some(default)
    else match d[key]
      case Int(n) => Some(n)
      case Str(_) => None
  }

  /** The integer-valued parameters; the others are strings. */
  const IntKeys: set<string> := {"time_window_weeks", "target_review_count"}

  /** Every present value has its parameter's type. */
  predicate WellTyped(d: Dict) {
    forall k :: k in d ==> (d[k].Int? <==> k in IntKeys)
  }

  /**
   * Keyword construction from a dictionary: present keys give their values,
   * absent keys take the defaults, an unknown key is rejected (None), and so
   * is a value of the wrong type.
   */
  function FromDict(d: Dict): (r: Option<WorkflowConfig>)
    ensures !(d.Keys <= ConfigKeys) ==> r.None?
    ensures d == map[] ==> r == Some(DefaultConfig)
    ensures r.Some? <==> d.Keys <= ConfigKeys && WellTyped(d)
    ensures r.Some? ==> r.value == WorkflowConfig(
      if "product_id" in d then d["product_id"].s else DefaultConfig.productId,
      if "product_name" in d then d["product_name"].s else DefaultConfig.productName,
      if "time_window_weeks" in d then d["time_window_weeks"].n else DefaultConfig.timeWindowWeeks,
      if "target_review_count" in d then d["target_review_count"].n else DefaultConfig.targetReviewCount,
      if "lang" in d then d["lang"].s else DefaultConfig.lang,
      if "country" in d then d["country"].s else DefaultConfig.country,
      if "timezone" in d then d["timezone"].s else DefaultConfig.timezone)
  {
    if !(d.Keys <= ConfigKeys) then None
    else
      match (StrArg(d, "product_id", DefaultConfig.productId), StrArg(d, "product_name", DefaultConfig.productName),
             IntArg(d, "time_window_weeks", DefaultConfig.timeWindowWeeks),
             IntArg(d, "target_review_count", DefaultConfig.targetReviewCount),
             StrArg(d, "lang", DefaultConfig.lang), StrArg(d, "country", DefaultConfig.country),
             StrArg(d, "timezone", DefaultConfig.timezone))
      case (Some(productId), Some(productName), Some(weeks), Some(target), Some(lang), Some(country), Some(timezone)) =>
        Some(WorkflowConfig(productId, productName, weeks, target, lang, country, timezone))
      case _ => None
  }

  // ---------------------------------------------------------------------
  // Run state
  // ---------------------------------------------------------------------

  datatype RunRecord = RunRecord(timestamp: string, status: string, errorMessage: string)

  datatype SchedulerState = SchedulerState(
    lastRun: Option<string>,
    nextScheduledRun: Option<string>,
    totalRuns: int,
    successfulRuns: int,
    failedRuns: int,
    runHistory: seq<RunRecord>)

  const MaxHistory := 50
  const Success := "SUCCESS"
  const Failed := "FAILED"

  /** The state used when no state file can be read. */
  const InitialState := SchedulerState(None, None, 0, 0, 0, [])

  /**
   * The bookkeeping promise: successes and failures add up to the runs, the
   * history is bounded and non-negative counters, and the last run is the
   * newest history record.
   */
  predicate Consistent(s: SchedulerState) {
    && 0 <= s.successfulRuns && 0 <= s.failedRuns
    && s.successfulRuns + s.failedRuns == s.totalRuns
    && |s.runHistory| <= MaxHistory
    && (s.runHistory != [] ==> s.lastRun == Some(s.runHistory[0].timestamp))
  }

  /** Records one run at time `now`: counters, the newest-first history capped at fifty, the last run. */
  function RecordRun(s: SchedulerState, status: string, errorMsg: string, now: string): (r: SchedulerState)
    ensures r.totalRuns == s.totalRuns + 1
    ensures r.successfulRuns == s.successfulRuns + (if status == Success then 1 else 0)
    ensures r.failedRuns == s.failedRuns + (if status == Success then 0 else 1)
    ensures |r.runHistory| == Min(MaxHistory, |s.runHistory| + 1)
    ensures r.runHistory != [] && r.runHistory[0] == RunRecord(now, status, errorMsg)
    ensures r.runHistory[1..] == s.runHistory[..|r.runHistory| - 1]
    ensures r.lastRun == Some(now) && r.nextScheduledRun == s.nextScheduledRun
    ensures Consistent(s) ==> Consistent(r)
  {
    var record := RunRecord(now, status, errorMsg);
    var history := [record] + s.runHistory;
    SchedulerState(
      Some(record.timestamp),
      s.nextScheduledRun,
      s.totalRuns + 1,
      if status == Success then s.successfulRuns + 1 else s.successfulRuns,
      if status == Success then s.failedRuns else s.failedRuns + 1,
      history[..Min(MaxHistory, |history|)])
  }

  /** Replays a sequence of (status, error, time) runs. */
  function RecordRuns(s: SchedulerState, runs: seq<RunRecord>): SchedulerState
    decreases |runs|
  {
    if runs == [] then s
    else RecordRuns(RecordRun(s, runs[0].status, runs[0].errorMessage, runs[0].timestamp), runs[1..])
  }

  predicate IsSuccess(r: RunRecord) {
    r.status == Success
  }

  /**
   * After any sequence of runs the counters count them: the total grows by
   * their number and the successes by the number with status SUCCESS.
   */
  lemma {:induction false} RecordRunsCounts(s: SchedulerState, runs: seq<RunRecord>)
    requires Consistent(s)
    ensures var r := RecordRuns(s, runs);
      && Consistent(r)
      && r.totalRuns == s.totalRuns + |runs|
      && r.successfulRuns == s.successfulRuns + CountIf(runs, IsSuccess)
      && r.failedRuns == s.failedRuns + (|runs| - CountIf(runs, IsSuccess))
    decreases |runs|
  {
    if runs != [] {
      var next := RecordRun(s, runs[0].status, runs[0].errorMessage, runs[0].timestamp);
      RecordRunsCounts(next, runs[1..]);
      assert Filter(runs, IsSuccess) == (if IsSuccess(runs[0]) then [runs[0]] else []) + Filter(runs[1..], IsSuccess);
    }
  }

  /** Stores the next scheduled run time and nothing else. */
  function SetNextRun(s: SchedulerState, next: Option<string>): (r: SchedulerState)
    ensures r.nextScheduledRun == next
    ensures r.(nextScheduledRun := s.nextScheduledRun) == s
  {
    s.(nextScheduledRun := next)
  }

  datatype Stats = Stats(lastRun: Option<string>, nextScheduledRun: Option<string>, totalRuns: int,
                         successfulRuns: int, failedRuns: int, successRate: real)

  /** The statistics view; the success rate is a percentage, zero before any run. */
  function GetStats(s: SchedulerState): (r: Stats)
    ensures s.totalRuns <= 0 ==> r.successRate == 0.0
    ensures Consistent(s) ==> 0.0 <= r.successRate <= 100.0
    ensures Consistent(s) && s.totalRuns > 0 && s.failedRuns == 0 ==> r.successRate == 100.0
    ensures s.totalRuns > 0 ==> r.successRate == (s.successfulRuns as real) / (s.totalRuns as real) * 100.0
    ensures r.lastRun == s.lastRun && r.nextScheduledRun == s.nextScheduledRun
    ensures r.totalRuns == s.totalRuns && r.successfulRuns == s.successfulRuns && r.failedRuns == s.failedRuns
  {
    Stats(s.lastRun, s.nextScheduledRun, s.totalRuns, s.successfulRuns, s.failedRuns,
          Percent(s.successfulRuns, s.totalRuns))
  }

  /** `part / total * 100`, or zero without runs. */
  function Percent(part: int, total: int): (r: real)
    ensures total <= 0 ==> r == 0.0
    ensures 0 <= part <= total ==> 0.0 <= r <= 100.0
    ensures 0 < part == total ==> r == 100.0
  {
    if total <= 0 then 0.0
    else if 0 <= part <= total then
      RateBound(part, total);
      (part as real) / (total as real) * 100.0
    else (part as real) / (total as real) * 100.0
  }

  lemma RateBound(part: int, total: int)
    requires 0 <= part <= total && total > 0
    ensures 0.0 <= (part as real) / (total as real) * 100.0 <= 100.0
    ensures part == total ==> (part as real) / (total as real) * 100.0 == 100.0
  {
    assert (part as real) / (total as real) <= 1.0;
  }

  // ---------------------------------------------------------------------
  // The scheduler
  // ---------------------------------------------------------------------

  datatype WeeklyScheduler = WeeklyScheduler(
    config: WorkflowConfig,
    scheduleTime: string,
    scheduleDay: string,
    state: SchedulerState,
    isRunning: bool,
    jobs: nat)

  const Weekdays: seq<string> := ["monday", "tuesday", "wednesday", "thursday", "friday", "saturday", "sunday"]

  predicate ValidDay(day: string) {
    day in Weekdays
  }

  /** A new scheduler: the day is stored lower-cased, nothing is running yet. */
  function NewScheduler(config: WorkflowConfig, time: string, day: string, state: SchedulerState): (r: WeeklyScheduler)
    ensures r.scheduleDay == Lower(day)
    ensures !r.isRunning && r.state == state && r.config == config && r.scheduleTime == time
  {
    WeeklyScheduler(config, time, Lower(day), state, false, 0)
  }

  /** Runs the workflow once and records exactly one run: SUCCESS, or FAILED with the raised message. */
  function ExecuteWorkflow(s: WeeklyScheduler, outcome: Option<string>, now: string): (r: WeeklyScheduler)
    ensures r.state.totalRuns == s.state.totalRuns + 1
    ensures r.state.runHistory != []
    ensures outcome.None? ==>
      && r.state.runHistory[0] == RunRecord(now, Success, "")
      && r.state.successfulRuns == s.state.successfulRuns + 1 && r.state.failedRuns == s.state.failedRuns
    ensures outcome.Some? ==>
      && r.state.runHistory[0] == RunRecord(now, Failed, outcome.value)
      && r.state.failedRuns == s.state.failedRuns + 1 && r.state.successfulRuns == s.state.successfulRuns
    ensures r.(state := s.state) == s
  {
    match outcome
    case None => s.(state := RecordRun(s.state, Success, "", now))
    case Some(msg) => s.(state := RecordRun(s.state, Failed, msg, now))
  }

  datatype ScheduleResult = Scheduled(scheduler: WeeklyScheduler) | InvalidDay(message: string)

  /**
   * Registers the weekly job: a day outside the seven weekday names is
   * rejected with its message, otherwise one job is added and the next run
   * time stored.
   */
  function Schedule(s: WeeklyScheduler, nextRun: Option<string>): (r: ScheduleResult)
    ensures r.InvalidDay? <==> !ValidDay(s.scheduleDay)
    ensures r.InvalidDay? ==> r.message == "Invalid schedule day: " + s.scheduleDay
    ensures r.Scheduled? ==> r.scheduler == s.(jobs := s.jobs + 1, state := SetNextRun(s.state, nextRun))
  {
    if !ValidDay(s.scheduleDay) then InvalidDay("Invalid schedule day: " + s.scheduleDay)
    else Scheduled(s.(jobs := s.jobs + 1, state := SetNextRun(s.state, nextRun)))
  }

  /** Starts in non-blocking mode: a no-op while running, otherwise schedules and marks running. */
  function Start(s: WeeklyScheduler, nextRun: Option<string>): (r: ScheduleResult)
    ensures s.isRunning ==> r == Scheduled(s)
    ensures !s.isRunning && ValidDay(s.scheduleDay) ==>
      r.Scheduled? && r.scheduler.isRunning && r.scheduler.jobs == s.jobs + 1
    ensures !s.isRunning && !ValidDay(s.scheduleDay) ==> r.InvalidDay?
  {
    if s.isRunning then Scheduled(s)
    else match Schedule(s, nextRun)
      case InvalidDay(m) => InvalidDay(m)
      case Scheduled(t) => Scheduled(t.(isRunning := true))
  }

  /** Stops: not running, and every registered job is cleared. */
  function Stop(s: WeeklyScheduler): (r: WeeklyScheduler)
    ensures !r.isRunning && r.jobs == 0
    ensures r.(isRunning := s.isRunning, jobs := s.jobs) == s
  {
    s.(isRunning := false, jobs := 0)
  }

  /** Starting twice registers the job once. */
  lemma StartIdempotent(s: WeeklyScheduler, n1: Option<string>, n2: Option<string>)
    requires Start(s, n1).Scheduled?
    ensures Start(Start(s, n1).scheduler, n2) == Start(s, n1)
  {
  }

  /** A scheduler set up for a capitalised weekday name accepts it. */
  lemma CapitalisedDayAccepted(config: WorkflowConfig, state: SchedulerState, n: Option<string>)
    ensures Start(NewScheduler(config, "09:00", "Monday", state), n).Scheduled?
  {
    assert Lower("Monday") == "monday";
  }
}

=== FILE: sendpulse.dfy ===
/**
 * The weekly send script: PII gate, one scrub-and-recheck, block or dry run
 * or a single delivery, and the append-only CSV send ledger. Rendering, the
 * regex substitutions, SMTP and the clock are parameters; the script's
 * effects are returned as a trace of steps.
 */
module SendPulse {
  import opened Wrappers
  import opened Seqs
  import opened Text
  import opened Distribution

  // ---------------------------------------------------------------------
  // Masking
  // ---------------------------------------------------------------------

  datatype MaskPattern = EmailPattern | IndianMobile | PhonePattern | DigitRun | TitledName

  /** `re.sub(pattern, placeholder, text)` for each pattern. */
  type Substitute = (MaskPattern, string, string) -> string

  /** The masking passes, in the order they run, with their placeholders. */
  const MaskSteps: seq<(MaskPattern, string)> := [
    (EmailPattern, "***@***.***"),
    (IndianMobile, "+91-**********"),
    (PhonePattern, "***-***-****"),
    (DigitRun, "**********"),
    (TitledName, "Mr./Ms. ***")
  ]

  function ApplyMasks(steps: seq<(MaskPattern, string)>, text: string, sub: Substitute): string
    decreases |steps|
  {
    if steps == [] then text else ApplyMasks(steps[1..], sub(steps[0].0, steps[0].1, text), sub)
  }

  /** `scrub_and_mask`: each pattern replaced by its placeholder, emails first and titled names last. */
  function ScrubAndMask(text: string, sub: Substitute): (r: string)
    ensures r == sub(TitledName, "Mr./Ms. ***",
                 sub(DigitRun, "**********",
                 sub(PhonePattern, "***-***-****",
                 sub(IndianMobile, "+91-**********",
                 sub(EmailPattern, "***@***.***", text)))))
  {
    assert MaskSteps[1..] == [(IndianMobile, "+91-**********"), (PhonePattern, "***-***-****"),
                              (DigitRun, "**********"), (TitledName, "Mr./Ms. ***")];
    assert MaskSteps[1..][1..] == [(PhonePattern, "***-***-****"), (DigitRun, "**********"), (TitledName, "Mr./Ms. ***")];
    assert MaskSteps[1..][1..][1..] == [(DigitRun, "**********"), (TitledName, "Mr./Ms. ***")];
    assert MaskSteps[1..][1..][1..][1..] == [(TitledName, "Mr./Ms. ***")];
    assert MaskSteps[1..][1..][1..][1..][1..] == [];
    ApplyMasks(MaskSteps, text, sub)
  }

  // ---------------------------------------------------------------------
  // Send ledger
  // ---------------------------------------------------------------------

  const LedgerHeader: seq<string> :=
    ["timestamp", "week_start", "week_end", "subject", "recipient", "status", "attempts", "error_message", "pii_clean"]

  const LedgerColumns: nat := 9

  datatype LedgerRow = LedgerRow(
    timestamp: string,
    weekStart: string,
    weekEnd: string,
    subject: string,
    recipient: string,
    status: string,
    attempts: nat,
    errorMessage: string,
    piiClean: bool)

  /** The CSV file as its lines of cells. */
  datatype LedgerFile = LedgerFile(lines: seq<seq<string>>)

  function BoolText(b: bool): string {
    if b then "True" else "False"
  }

  /** One CSV line, cells in header order. */
  function RowCells(row: LedgerRow): (cells: seq<string>)
    ensures |cells| == LedgerColumns
  {
    [row.timestamp, row.weekStart, row.weekEnd, row.subject, row.recipient, row.status,
     NatToString(row.attempts), row.errorMessage, BoolText(row.piiClean)]
  }

  predicate WellFormedLedger(f: LedgerFile) {
    forall i :: 0 <= i < |f.lines| ==> |f.lines[i]| == LedgerColumns
  }

  /** Opening the logger: a missing file is created with the header; an existing one is left alone. */
  function OpenLedger(file: Option<LedgerFile>): (f: LedgerFile)
    ensures file.None? ==> f.lines == [LedgerHeader]
    ensures file.Some? ==> f == file.value
    ensures (file.None? || WellFormedLedger(file.value)) ==> WellFormedLedger(f)
  {
    match file
    case None => LedgerFile([LedgerHeader])
    case Some(f) => f
  }

  /** `log_send`: one line appended, nothing else touched. */
  function LogSend(f: LedgerFile, row: LedgerRow): (r: LedgerFile)
    ensures |r.lines| == |f.lines| + 1
    ensures r.lines[..|f.lines|] == f.lines
    ensures r.lines[|f.lines|] == RowCells(row)
    ensures WellFormedLedger(f) ==> WellFormedLedger(r)
  {
    LedgerFile(f.lines + [RowCells(row)])
  }

  // ---------------------------------------------------------------------
  // The send flow
  // ---------------------------------------------------------------------

  /** The script's observable effects, in order. */
  datatype Step =
    | VerifyCall(html: string, plain: string)
    | ScrubCall(text: string)
    | PreviewWrite(html: string, plain: string)
    | DeliveryCall(recipient: string, subject: string, html: string, plain: string, maxRetries: nat, retryDelay: nat)
    | LedgerAppend(row: LedgerRow)

  datatype SendReport =
    | Blocked(reason: string, piiReport: PiiReport)
    | DryRun
    | Attempted(status: string, error: string, metadata: Option<SendMeta>, subject: string, recipient: string)

  function ReportStatus(r: SendReport): string {
    match r
    case Blocked(_, _) => "BLOCKED"
    case DryRun => "DRY_RUN"
    case Attempted(status, _, _, _, _) => status
  }

  datatype PulseSend = PulseSend(report: SendReport, steps: seq<Step>, ledger: LedgerFile)

  const SendRetries: nat := 3
  const SendRetryDelay: nat := 5
  const BlockedSubjectDefault := "Weekly Pulse"
  const SubjectDefault := "Weekly Product Pulse"
  const BlockedError := "PII detected and could not be scrubbed"
  const BlockedReason := "PII detected after scrubbing"

  /** The script's fixed mail server with the given credentials. */
  function GmailConfig(sender: string, password: string): SmtpConfig {
    SmtpConfig(Some("smtp.gmail.com"), 587, Some(sender), Some(password))
  }

  /** The inputs of one run besides the bodies. */
  datatype SendInputs = SendInputs(
    title: Option<string>,
    weekStart: string,
    weekEnd: string,
    recipient: string,
    sender: string,
    password: string,
    dryRun: bool)

  /** The attempt count the ledger records: the delivery's, or 1 when it reports none. */
  function LoggedAttempts(d: Delivery): nat {
    if d.metadata.Some? then d.metadata.value.attempts else 1
  }

  function BlockedRow(inp: SendInputs, timestamp: string): LedgerRow {
    LedgerRow(timestamp, inp.weekStart, inp.weekEnd, inp.title.GetOr(BlockedSubjectDefault), inp.recipient,
              "BLOCKED", 1, BlockedError, false)
  }

  function DeliveryRow(inp: SendInputs, d: Delivery, timestamp: string): LedgerRow {
    LedgerRow(timestamp, inp.weekStart, inp.weekEnd, inp.title.GetOr(SubjectDefault), inp.recipient,
              d.status, LoggedAttempts(d), d.error, true)
  }

  /** The part of the flow after the bodies passed the gate. */
  function SendClean(inp: SendInputs, html: string, plain: string, transport: Transport, now: string,
                     timestamp: string, ledger: LedgerFile): (r: PulseSend)
    ensures |r.steps| >= 1
    ensures |r.ledger.lines| >= |ledger.lines| && r.ledger.lines[..|ledger.lines|] == ledger.lines
    ensures WellFormedLedger(ledger) ==> WellFormedLedger(r.ledger)
  {
    if inp.dryRun then PulseSend(DryRun, [PreviewWrite(html, plain)], ledger)
    else
      var subject := inp.title.GetOr(SubjectDefault);
      var d := SendEmail(GmailConfig(inp.sender, inp.password), SendRetries, true, transport, now);
      var row := DeliveryRow(inp, d, timestamp);
      PulseSend(Attempted(d.status, d.error, d.metadata, subject, inp.recipient),
                [DeliveryCall(inp.recipient, subject, html, plain, SendRetries, SendRetryDelay), LedgerAppend(row)],
                LogSend(ledger, row))
  }

  /**
   * `send_pulse_email` on rendered bodies. `find` and `sub` stand for the
   * detectors and masking substitutions, `transport` and `now` for SMTP and
   * its clock, `timestamp` for the ledger's clock reading, and `file` for
   * the ledger file (None when it does not exist yet).
   */
  function SendPulseEmail(inp: SendInputs, html: string, plain: string, find: Finder, sub: Substitute,
                          transport: Transport, now: string, timestamp: string,
                          file: Option<LedgerFile>): (r: PulseSend)
    // the ledger only ever grows, and stays nine columns wide
    ensures |r.ledger.lines| >= |OpenLedger(file).lines|
    ensures r.ledger.lines[..|OpenLedger(file).lines|] == OpenLedger(file).lines
    ensures (file.None? || WellFormedLedger(file.value)) ==> WellFormedLedger(r.ledger)
    // clean at once: no scrubbing, the original bodies go on
    ensures VerifyEmail(html, plain, find).0 ==>
      r == (var s := SendClean(inp, html, plain, transport, now, timestamp, OpenLedger(file));
            s.(steps := [VerifyCall(html, plain)] + s.steps))
    // dirty: each body scrubbed once and checked once more
    ensures !VerifyEmail(html, plain, find).0 ==>
      var h2 := ScrubAndMask(html, sub);
      var p2 := ScrubAndMask(plain, sub);
      var pre := [VerifyCall(html, plain), ScrubCall(html), ScrubCall(plain), VerifyCall(h2, p2)];
      |r.steps| > 4 && r.steps[..4] == pre
      && (VerifyEmail(h2, p2, find).0 ==>
            r == (var s := SendClean(inp, h2, p2, transport, now, timestamp, OpenLedger(file));
                  s.(steps := pre + s.steps)))
      && (!VerifyEmail(h2, p2, find).0 ==>
            r.report == Blocked(BlockedReason, VerifyEmail(h2, p2, find).1)
            && r.steps == pre + [LedgerAppend(BlockedRow(inp, timestamp))]
            && r.ledger == LogSend(OpenLedger(file), BlockedRow(inp, timestamp)))
  {
    var ledger := OpenLedger(file);
    var (clean, _) := VerifyEmail(html, plain, find);
    if clean then
      var s := SendClean(inp, html, plain, transport, now, timestamp, ledger);
      s.(steps := [VerifyCall(html, plain)] + s.steps)
    else
      var h2 := ScrubAndMask(html, sub);
      var p2 := ScrubAndMask(plain, sub);
      var pre := [VerifyCall(html, plain), ScrubCall(html), ScrubCall(plain), VerifyCall(h2, p2)];
      var (cleanAfter, reportAfter) := VerifyEmail(h2, p2, find);
      if !cleanAfter then
        var row := BlockedRow(inp, timestamp);
        PulseSend(Blocked(BlockedReason, reportAfter), pre + [LedgerAppend(row)], LogSend(ledger, row))
      else
        var s := SendClean(inp, h2, p2, transport, now, timestamp, ledger);
        assert (pre + s.steps)[..4] == pre;
        s.(steps := pre + s.steps)
  }

  /**
   * What happens once the gate is passed: a dry run writes the preview and
   * neither delivers nor logs; otherwise exactly one delivery (three
   * attempts, 5 s apart) and exactly one ledger line with its outcome.
   */
  lemma SendCleanEffects(inp: SendInputs, html: string, plain: string, transport: Transport, now: string,
                         timestamp: string, ledger: LedgerFile)
    ensures var s := SendClean(inp, html, plain, transport, now, timestamp, ledger);
      var d := SendEmail(GmailConfig(inp.sender, inp.password), SendRetries, true, transport, now);
      (inp.dryRun ==> s.report == DryRun && s.ledger == ledger
                      && forall i :: 0 <= i < |s.steps| ==> !s.steps[i].DeliveryCall? && !s.steps[i].LedgerAppend?)
      && (!inp.dryRun ==>
            ReportStatus(s.report) == d.status
            && |s.steps| == 2
            && s.steps[0] == DeliveryCall(inp.recipient, inp.title.GetOr(SubjectDefault), html, plain, 3, 5)
            && s.steps[1].LedgerAppend?
            && s.steps[1].row.status == d.status && s.steps[1].row.piiClean
            && s.steps[1].row.errorMessage == d.error
            && s.steps[1].row.attempts == LoggedAttempts(d)
            && s.ledger.lines == ledger.lines + [RowCells(s.steps[1].row)])
  {
  }

  /** A blocked send never reaches the delivery system. */
  lemma BlockedNeverDelivers(inp: SendInputs, html: string, plain: string, find: Finder, sub: Substitute,
                             transport: Transport, now: string, timestamp: string, file: Option<LedgerFile>)
    requires ReportStatus(SendPulseEmail(inp, html, plain, find, sub, transport, now, timestamp, file).report) == "BLOCKED"
    ensures var r := SendPulseEmail(inp, html, plain, find, sub, transport, now, timestamp, file);
      (forall i :: 0 <= i < |r.steps| ==> !r.steps[i].DeliveryCall?)
      && |r.ledger.lines| == |OpenLedger(file).lines| + 1
      && r.ledger.lines[|r.ledger.lines| - 1] == RowCells(BlockedRow(inp, timestamp))
      && r.ledger.lines[|r.ledger.lines| - 1][8] == "False"
  {
  }
}

=== FILE: seqs.dfy ===
/** Generic sequence helpers: sums, filters, subsequences and distinctness. */
module Seqs {

  function Min(a: int, b: int): int {
    if a <= b then a else b
  }

  /** Sum of `f` over the elements of `s`, left to right. */
  function SumBy<T>(s: seq<T>, f: T -> int): int {
    if s == [] then 0 else f(s[0]) + SumBy(s[1..], f)
  }

  lemma {:induction false} SumByConcat<T>(a: seq<T>, b: seq<T>, f: T -> int)
    ensures SumBy(a + b, f) == SumBy(a, f) + SumBy(b, f)
  {
    if a == [] {
      assert a + b == b;
    } else {
      assert (a + b)[1..] == a[1..] + b;
      SumByConcat(a[1..], b, f);
    }
  }

  lemma SumByNonNegative<T>(s: seq<T>, f: T -> int)
    requires forall i :: 0 <= i < |s| ==> f(s[i]) >= 0
    ensures SumBy(s, f) >= 0
  {
    if s != [] {
      SumByNonNegative(s[1..], f);
    }
  }

  lemma ConcatAssoc<T>(a: seq<T>, b: seq<T>, c: seq<T>)
    ensures (a + b) + c == a + (b + c)
  {
  }

  /** The elements of `s` satisfying `p`, in their original order. */
  function Filter<T>(s: seq<T>, p: T -> bool): (r: seq<T>)
    ensures |r| <= |s|
    ensures forall i :: 0 <= i < |r| ==> p(r[i]) && r[i] in s
    ensures forall i :: 0 <= i < |s| && p(s[i]) ==> s[i] in r
  {
    if s == [] then []
    else if p(s[0]) then [s[0]] + Filter(s[1..], p)
    else Filter(s[1..], p)
  }

  lemma {:induction false} FilterConcat<T>(a: seq<T>, b: seq<T>, p: T -> bool)
    ensures Filter(a + b, p) == Filter(a, p) + Filter(b, p)
  {
    if a == [] {
      assert a + b == b;
    } else {
      assert (a + b)[1..] == a[1..] + b;
      FilterConcat(a[1..], b, p);
    }
  }

  /** Number of elements of `s` satisfying `p`. */
  function CountIf<T>(s: seq<T>, p: T -> bool): (n: nat)
    ensures n <= |s|
    ensures n == |Filter(s, p)|
  {
    if s == [] then 0 else (if p(s[0]) then 1 else 0) + CountIf(s[1..], p)
  }

  /** `a` can be obtained from `b` by deleting elements. */
  predicate IsSubsequence<T(==)>(a: seq<T>, b: seq<T>)
    decreases |b|
  {
    if a == [] then true
    else if b == [] then false
    else if a[0] == b[0] then IsSubsequence(a[1..], b[1..])
    else IsSubsequence(a, b[1..])
  }

  lemma {:induction false} SubsequenceMembers<T>(a: seq<T>, b: seq<T>)
    requires IsSubsequence(a, b)
    ensures forall x :: x in a ==> x in b
    decreases |b|
  {
    if a != [] && b != [] {
      if a[0] == b[0] {
        SubsequenceMembers(a[1..], b[1..]);
        assert forall x :: x in a ==> x == a[0] || x in a[1..];
      } else {
        SubsequenceMembers(a, b[1..]);
      }
    }
  }

  lemma {:induction false} SubsequenceOfTail<T>(a: seq<T>, b: seq<T>, x: T)
    requires IsSubsequence(a, b)
    ensures IsSubsequence(a, [x] + b)
    decreases |b|, 1
  {
    if a == [] {
    } else if a[0] == x {
      assert ([x] + b)[1..] == b;
      if b != [] && a[0] == b[0] {
        SubsequenceOfTail(a[1..], b[1..], b[0]);
        assert [b[0]] + b[1..] == b;
      } else if b != [] {
        SubsequenceWeaken(a, b);
      }
    } else {
      assert ([x] + b)[1..] == b;
    }
  }

  lemma {:induction false} SubsequenceWeaken<T>(a: seq<T>, b: seq<T>)
    requires a != [] && IsSubsequence(a, b)
    ensures IsSubsequence(a[1..], b)
    decreases |b|, 0
  {
    if b != [] {
      if a[0] == b[0] {
        SubsequenceOfTail(a[1..], b[1..], b[0]);
        assert [b[0]] + b[1..] == b;
      } else {
        SubsequenceWeaken(a, b[1..]);
        SubsequenceOfTail(a[1..], b[1..], b[0]);
        assert [b[0]] + b[1..] == b;
      }
    }
  }

  /** No element occurs twice. */
  predicate Distinct<T(==)>(s: seq<T>) {
    forall i, j :: 0 <= i < j < |s| ==> s[i] != s[j]
  }

  /**
   * The items of `xs` missing from `seen`, each at its first occurrence and
   * in order: what a loop appending every unseen item to `seen` adds.
   */
  function Fresh<T(==)>(xs: seq<T>, seen: seq<T>): (r: seq<T>)
    ensures Distinct(r)
    ensures forall i :: 0 <= i < |r| ==> r[i] in xs && r[i] !in seen
    ensures forall i :: 0 <= i < |xs| && xs[i] !in seen ==> xs[i] in r
    decreases |xs|
  {
    if xs == [] then []
    else if xs[0] in seen then Fresh(xs[1..], seen)
    else [xs[0]] + Fresh(xs[1..], seen + [xs[0]])
  }

  /** One more item at the end of `xs` is fresh iff it was neither seen nor already in `xs`. */
  lemma {:induction false} FreshSnoc<T>(xs: seq<T>, x: T, seen: seq<T>)
    ensures Fresh(xs + [x], seen) == Fresh(xs, seen) + (if x in seen || x in xs then [] else [x])
    decreases |xs|
  {
    if xs == [] {
      assert xs + [x] == [x];
      assert [x][1..] == [];
    } else {
      assert (xs + [x])[0] == xs[0];
      assert (xs + [x])[1..] == xs[1..] + [x];
      assert forall y :: y in xs <==> y == xs[0] || y in xs[1..];
      if xs[0] in seen {
        FreshSnoc(xs[1..], x, seen);
      } else {
        FreshSnoc(xs[1..], x, seen + [xs[0]]);
        ConcatAssoc([xs[0]], Fresh(xs[1..], seen + [xs[0]]), if x in seen || x in xs then [] else [x]);
      }
    }
  }

  /** The index of the first occurrence of `x` in `s`. */
  function Pos<T(==)>(s: seq<T>, x: T): (k: nat)
    requires x in s
    ensures k < |s| && s[k] == x
    ensures forall j :: 0 <= j < k ==> s[j] != x
  {
    if s[0] == x then 0 else 1 + Pos(s[1..], x)
  }

  /** `Fresh` lists items in the order of their first occurrence in `xs`. */
  lemma {:induction false} FreshOrder<T>(xs: seq<T>, seen: seq<T>)
    ensures forall i, j :: 0 <= i < j < |Fresh(xs, seen)| ==> Pos(xs, Fresh(xs, seen)[i]) < Pos(xs, Fresh(xs, seen)[j])
    decreases |xs|
  {
    if xs != [] {
      var x := xs[0];
      var seen' := if x in seen then seen else seen + [x];
      FreshOrder(xs[1..], seen');
      var g := Fresh(xs[1..], seen');
      assert forall k :: 0 <= k < |g| ==> g[k] != x && Pos(xs, g[k]) == 1 + Pos(xs[1..], g[k]);
      if x !in seen {
        var f := Fresh(xs, seen);
        assert f == [x] + g;
        forall i, j | 0 <= i < j < |f|
          ensures Pos(xs, f[i]) < Pos(xs, f[j])
        {
          assert f[j] == g[j - 1];
          if i > 0 {
            assert f[i] == g[i - 1];
          }
        }
      } else {
        assert Fresh(xs, seen) == g;
        forall i, j | 0 <= i < j < |g|
          ensures Pos(xs, g[i]) < Pos(xs, g[j])
        {
          assert Pos(xs[1..], g[i]) < Pos(xs[1..], g[j]);
        }
      }
    }
  }

  /** Two selected elements keep their relative order in the filtered sequence. */
  lemma {:induction false} FilterOrder<T>(s: seq<T>, p: T -> bool, a: nat, b: nat) returns (i: nat, j: nat)
    requires a < b < |s| && p(s[a]) && p(s[b])
    ensures i < j < |Filter(s, p)|
    ensures Filter(s, p)[i] == s[a] && Filter(s, p)[j] == s[b]
  {
    var f := Filter(s, p);
    var rest := Filter(s[1..], p);
    if a == 0 {
      assert f == [s[0]] + rest;
      assert s[b] == s[1..][b - 1];
      var k :| 0 <= k < |rest| && rest[k] == s[b];
      i, j := 0, k + 1;
    } else {
      assert s[a] == s[1..][a - 1] && s[b] == s[1..][b - 1];
      var i', j' := FilterOrder(s[1..], p, a - 1, b - 1);
      if p(s[0]) {
        assert f == [s[0]] + rest;
        i, j := i' + 1, j' + 1;
      } else {
        i, j := i', j';
      }
    }
  }

  /** Filtering a sequence without repetitions gives one without repetitions. */
  lemma {:induction false} FilterDistinct<T>(s: seq<T>, p: T -> bool)
    requires Distinct(s)
    ensures Distinct(Filter(s, p))
  {
    if s != [] {
      assert Distinct(s[1..]) by {
        assert forall k :: 0 <= k < |s| - 1 ==> s[1..][k] == s[k + 1];
      }
      FilterDistinct(s[1..], p);
      var rest := Filter(s[1..], p);
      if p(s[0]) {
        assert s[0] !in s[1..];
        assert s[0] !in rest;
        assert Filter(s, p) == [s[0]] + rest;
      }
    }
  }

  /** The elements of `s`, as a set. */
  function SetOf<T>(s: seq<T>): set<T> {
    set x | x in s
  }

  /** A sequence without repetitions has as many elements as its set. */
  lemma {:induction false} DistinctCard<T>(s: seq<T>)
    requires Distinct(s)
    ensures |SetOf(s)| == |s|
  {
    if s != [] {
      var init := s[..|s| - 1];
      assert Distinct(init);
      DistinctCard(init);
      assert SetOf(s) == SetOf(init) + {s[|s| - 1]};
      assert s[|s| - 1] !in SetOf(init);
    }
  }

  /** Concatenation of a sequence of sequences. */
  function Flatten<T>(ss: seq<seq<T>>): seq<T> {
    if ss == [] then [] else ss[0] + Flatten(ss[1..])
  }

  lemma {:induction false} FlattenConcat<T>(a: seq<seq<T>>, b: seq<seq<T>>)
    ensures Flatten(a + b) == Flatten(a) + Flatten(b)
  {
    if a == [] {
      assert a + b == b;
    } else {
      assert (a + b)[1..] == a[1..] + b;
      FlattenConcat(a[1..], b);
    }
  }

  /** `[f(x) for x in s]`. */
  function Map<A, B>(s: seq<A>, f: A -> B): (r: seq<B>)
    ensures |r| == |s|
    ensures forall i :: 0 <= i < |s| ==> r[i] == f(s[i])
  {
    if s == [] then [] else [f(s[0])] + Map(s[1..], f)
  }

  lemma MapCons<A, B>(x: A, s: seq<A>, f: A -> B)
    ensures Map([x] + s, f) == [f(x)] + Map(s, f)
  {
    assert ([x] + s)[1..] == s;
  }

  /** A loop that maps the elements satisfying `p`, in order, and stops after `n` of them. */
  function TakeMapped<A, B>(s: seq<A>, n: nat, p: A -> bool, f: A -> B): seq<B> {
    if n == 0 || s == [] then []
    else if !p(s[0]) then TakeMapped(s[1..], n, p, f)
    else [f(s[0])] + TakeMapped(s[1..], n - 1, p, f)
  }

  /** Such a loop yields the first `n` images of the filtered sequence. */
  lemma {:induction false} TakeMappedPrefix<A, B>(s: seq<A>, n: nat, p: A -> bool, f: A -> B)
    ensures var all := Map(Filter(s, p), f);
      TakeMapped(s, n, p, f) == all[..Min(n, |all|)]
  {
    if s == [] {
      assert Filter(s, p) == [];
    } else if n == 0 {
    } else if p(s[0]) {
      TakeMappedPrefix(s[1..], n - 1, p, f);
      var fl := Filter(s[1..], p);
      assert Filter(s, p) == [s[0]] + fl;
      MapCons(s[0], fl, f);
      TakeCons(f(s[0]), Map(fl, f), n);
    } else {
      TakeMappedPrefix(s[1..], n, p, f);
    }
  }

  lemma TakeCons<T>(x: T, s: seq<T>, n: nat)
    requires n > 0
    ensures ([x] + s)[..Min(n, |s| + 1)] == [x] + s[..Min(n - 1, |s|)]
  {
    var m := Min(n - 1, |s|);
    assert Min(n, |s| + 1) == m + 1;
  }

  /** Consecutive slices of `size` items; the last one may be shorter. */
  function Chunks<T>(items: seq<T>, size: nat): (cs: seq<seq<T>>)
    requires size > 0
    ensures Flatten(cs) == items
    ensures forall i :: 0 <= i < |cs| ==> 0 < |cs[i]| <= size
    ensures forall i :: 0 <= i < |cs| - 1 ==> |cs[i]| == size
    ensures items == [] <==> cs == []
    decreases |items|
  {
    if items == [] then []
    else if |items| <= size then [items]
    else
      var rest := Chunks(items[size..], size);
      assert items == items[..size] + items[size..];
      [items[..size]] + rest
  }
}

=== FILE: sorting.dfy ===
/**
 * Python's `sorted(xs, key=k, reverse=True)`: a stable sort by non-increasing
 * key. Stability is stated as "for every key value, the elements carrying that
 * value keep their relative order".
 */
module Sorting {
  import opened Seqs

  predicate SortedDesc<T>(s: seq<T>, key: T -> int) {
    forall i, j :: 0 <= i < j < |s| ==> key(s[i]) >= key(s[j])
  }

  /** The selector "key equals `v`". */
  function KeyIs<T>(key: T -> int, v: int): T -> bool {
    x => key(x) == v
  }

  lemma FilterNone<T>(s: seq<T>, p: T -> bool)
    requires forall i :: 0 <= i < |s| ==> !p(s[i])
    ensures Filter(s, p) == []
  {
  }

  lemma FilterCons<T>(x: T, s: seq<T>, p: T -> bool)
    ensures Filter([x] + s, p) == (if p(x) then [x] else []) + Filter(s, p)
  {
    assert ([x] + s)[0] == x;
    assert ([x] + s)[1..] == s;
  }

  /** Inserts `x` after every element whose key is at least `key(x)`. */
  function Insert<T(==)>(s: seq<T>, x: T, key: T -> int): (r: seq<T>)
    ensures |r| == |s| + 1
    ensures multiset(r) == multiset(s) + multiset{x}
  {
    if s == [] then [x]
    else if key(s[0]) >= key(x) then
      assert s == [s[0]] + s[1..];
      [s[0]] + Insert(s[1..], x, key)
    else [x] + s
  }

  lemma {:induction false} InsertBounded<T>(s: seq<T>, x: T, key: T -> int, b: int)
    requires forall i :: 0 <= i < |s| ==> key(s[i]) <= b
    requires key(x) <= b
    ensures forall i :: 0 <= i < |Insert(s, x, key)| ==> key(Insert(s, x, key)[i]) <= b
  {
    if s != [] && key(s[0]) >= key(x) {
      InsertBounded(s[1..], x, key, b);
    }
  }

  lemma {:induction false} InsertSorted<T>(s: seq<T>, x: T, key: T -> int)
    requires SortedDesc(s, key)
    ensures SortedDesc(Insert(s, x, key), key)
  {
    if s != [] && key(s[0]) >= key(x) {
      var tl := s[1..];
      assert forall i :: 0 <= i < |tl| ==> tl[i] == s[i + 1];
      assert SortedDesc(tl, key);
      assert forall i :: 0 <= i < |tl| ==> key(tl[i]) <= key(s[0]);
      InsertSorted(tl, x, key);
      InsertBounded(tl, x, key, key(s[0]));
      SortedCons(s[0], Insert(tl, x, key), key);
    }
  }

  /** A sorted sequence stays sorted below an element at least as large as all of it. */
  lemma SortedCons<T>(h: T, t: seq<T>, key: T -> int)
    requires SortedDesc(t, key)
    requires forall i :: 0 <= i < |t| ==> key(t[i]) <= key(h)
    ensures SortedDesc([h] + t, key)
  {
    var r := [h] + t;
    forall i, j | 0 <= i < j < |r| ensures key(r[i]) >= key(r[j]) {
      assert r[j] == t[j - 1];
      if i > 0 {
        assert r[i] == t[i - 1];
      }
    }
  }

  /** Among equal keys, the inserted element comes last. */
  lemma {:induction false} InsertStable<T>(s: seq<T>, x: T, key: T -> int, v: int)
    requires SortedDesc(s, key)
    ensures Filter(Insert(s, x, key), KeyIs(key, v)) == Filter(s, KeyIs(key, v)) + (if key(x) == v then [x] else [])
  {
    if s == [] {
    } else if key(s[0]) >= key(x) {
      InsertStable(s[1..], x, key, v);
      FilterCons(s[0], Insert(s[1..], x, key), KeyIs(key, v));
      FilterCons(s[0], s[1..], KeyIs(key, v));
      assert s == [s[0]] + s[1..];
    } else {
      FilterCons(x, s, KeyIs(key, v));
      if key(x) == v {
        FilterNone(s, KeyIs(key, v));
      }
    }
  }

  /**
   * Stability in index form: two elements of equal key that `r` lists in
   * some order come in that order in `s` too.
   */
  lemma StableOrder<T>(s: seq<T>, r: seq<T>, key: T -> int, x: nat, y: nat, a: nat, b: nat)
    requires forall v :: Filter(r, KeyIs(key, v)) == Filter(s, KeyIs(key, v))
    requires Distinct(s)
    requires x < y < |r| && a < |s| && b < |s|
    requires r[x] == s[a] && r[y] == s[b] && key(r[x]) == key(r[y])
    ensures a < b
  {
    var p := KeyIs(key, key(r[x]));
    var f := Filter(s, p);
    FilterDistinct(s, p);
    var i, j := FilterOrder(r, p, x, y);
    if b < a {
      var j', i' := FilterOrder(s, p, b, a);
    }
  }

  /**
   * A prefix of a stable sort is still sorted, and of each key value it
   * holds the first elements of `s` carrying that value.
   */
  lemma SortedPrefix<T>(s: seq<T>, r: seq<T>, key: T -> int, n: nat)
    requires SortedDesc(r, key) && n <= |r|
    requires forall v :: Filter(r, KeyIs(key, v)) == Filter(s, KeyIs(key, v))
    ensures SortedDesc(r[..n], key)
    ensures forall v :: Filter(r[..n], KeyIs(key, v)) <= Filter(s, KeyIs(key, v))
  {
    assert r == r[..n] + r[n..];
    forall v ensures Filter(r[..n], KeyIs(key, v)) <= Filter(s, KeyIs(key, v)) {
      FilterConcat(r[..n], r[n..], KeyIs(key, v));
    }
  }

  /** Stable sort by non-increasing key. */
  function SortDesc<T(==)>(s: seq<T>, key: T -> int): (r: seq<T>)
    ensures |r| == |s|
    ensures multiset(r) == multiset(s)
    ensures SortedDesc(r, key)
    ensures forall v :: Filter(r, KeyIs(key, v)) == Filter(s, KeyIs(key, v))
  {
    if s == [] then []
    else
      var init := s[..|s| - 1];
      var last := s[|s| - 1];
      assert s == init + [last];
      var sorted := SortDesc(init, key);
      InsertSorted(sorted, last, key);
      var r := Insert(sorted, last, key);
      assert forall v :: Filter(r, KeyIs(key, v)) == Filter(s, KeyIs(key, v)) by {
        forall v ensures Filter(r, KeyIs(key, v)) == Filter(s, KeyIs(key, v)) {
          InsertStable(sorted, last, key, v);
          FilterConcat(init, [last], KeyIs(key, v));
        }
      }
      r
  }

  lemma {:induction false} InsertSum<T>(s: seq<T>, x: T, key: T -> int, f: T -> int)
    ensures SumBy(Insert(s, x, key), f) == SumBy(s, f) + f(x)
  {
    if s != [] && key(s[0]) >= key(x) {
      InsertSum(s[1..], x, key, f);
      assert Insert(s, x, key)[1..] == Insert(s[1..], x, key);
    }
  }

  /** Sorting does not change any sum over the elements. */
  lemma {:induction false} SortDescSum<T>(s: seq<T>, key: T -> int, f: T -> int)
    ensures SumBy(SortDesc(s, key), f) == SumBy(s, f)
  {
    if s != [] {
      var init := s[..|s| - 1];
      assert s == init + [s[|s| - 1]];
      SortDescSum(init, key, f);
      InsertSum(SortDesc(init, key), s[|s| - 1], key, f);
      SumByConcat(init, [s[|s| - 1]], f);
    }
  }

  /** An input that is already in non-increasing order is returned unchanged. */
  lemma {:induction false} SortDescOfSorted<T>(s: seq<T>, key: T -> int)
    requires SortedDesc(s, key)
    ensures SortDesc(s, key) == s
  {
    if s != [] {
      var init := s[..|s| - 1];
      SortDescOfSorted(init, key);
      InsertAtEnd(init, s[|s| - 1], key);
      assert init + [s[|s| - 1]] == s;
    }
  }

  lemma {:induction false} InsertAtEnd<T>(s: seq<T>, x: T, key: T -> int)
    requires forall i :: 0 <= i < |s| ==> key(s[i]) >= key(x)
    ensures Insert(s, x, key) == s + [x]
  {
    if s != [] {
      InsertAtEnd(s[1..], x, key);
      assert s == [s[0]] + s[1..];
    }
  }
}

=== FILE: summarizer.dfy ===
/**
 * The map-reduce summariser: reviews of a theme are cut into chunks, each
 * chunk is summarised into key points and quotes (by the language model when
 * it is available, by a fixed template otherwise), and the per-chunk results
 * are merged with de-duplication and caps. The reduce stage builds the weekly
 * note and falls back to a template when the model gives no themes; an
 * over-long note may be handed back to the model for compression.
 *
 * The language model is a parameter: `available` says whether it is
 * configured, and each call's parsed answer is an `Option` (None when the
 * call or the JSON parsing raised).
 */
module Summarizer {
  import opened Wrappers
  import opened Seqs
  import opened Text

  // ---------------------------------------------------------------------
  // Chunking
  // ---------------------------------------------------------------------

  /**
   * The chunking loop stepping through `range(0, len(items), size)`: a zero
   * step raises (None), a negative step yields no chunk at all.
   */
  function ChunkList<T>(items: seq<T>, size: int): (r: Option<seq<seq<T>>>)
    ensures size == 0 <==> r.None?
    ensures size < 0 ==> r == Some([])
    ensures size > 0 ==> r == Some(Chunks(items, size))
  {
    if size == 0 then None
    else if size < 0 then Some([])
    else Some(Chunks(items, size))
  }

  // ---------------------------------------------------------------------
  // Merging with de-duplication
  // ---------------------------------------------------------------------

  /** Appends the items of `xs` not yet present, in order, while fewer than `cap` are held. */
  function AddDistinct<T(==)>(acc: seq<T>, xs: seq<T>, cap: nat): (r: seq<T>)
    ensures acc <= r
    ensures |r| <= if |acc| <= cap then cap else |acc|
    ensures Distinct(acc) ==> Distinct(r)
    ensures forall x :: x in r ==> x in acc || x in xs
    ensures |r| < cap ==> forall x :: x in xs ==> x in r
    decreases |xs|
  {
    if xs == [] then acc
    else
      var next := if xs[0] !in acc && |acc| < cap then acc + [xs[0]] else acc;
      var r := AddDistinct(next, xs[1..], cap);
      assert xs[0] in r || |r| >= cap by {
        if xs[0] in acc {
          var j :| 0 <= j < |acc| && acc[j] == xs[0];
          assert r[j] == next[j] == xs[0];
        } else if |acc| < cap {
          assert r[|acc|] == next[|acc|] == xs[0];
        }
      }
      assert forall x :: x in xs ==> x == xs[0] || x in xs[1..];
      r
  }

  /**
   * What is kept once the cap binds: `acc` followed by the first
   * `cap - |acc|` items of `xs` that are new, in their order in `xs`.
   */
  lemma {:induction false} AddDistinctFresh<T>(acc: seq<T>, xs: seq<T>, cap: nat)
    ensures |acc| >= cap ==> AddDistinct(acc, xs, cap) == acc
    ensures |acc| <= cap ==>
      var unseen := Fresh(xs, acc); AddDistinct(acc, xs, cap) == acc + unseen[..Min(cap - |acc|, |unseen|)]
    decreases |xs|
  {
    if xs != [] {
      var x := xs[0];
      if x in acc {
        AddDistinctFresh(acc, xs[1..], cap);
      } else if |acc| < cap {
        AddDistinctFresh(acc + [x], xs[1..], cap);
        var rest := Fresh(xs[1..], acc + [x]);
        assert Fresh(xs, acc) == [x] + rest;
        TakeCons(x, rest, cap - |acc|);
        ConcatAssoc(acc, [x], rest[..Min(cap - |acc| - 1, |rest|)]);
      } else {
        AddDistinctFresh(acc, xs[1..], cap);
      }
    }
  }

  /** Merging `a` then `b` is merging `a + b`. */
  lemma {:induction false} AddDistinctConcat<T>(acc: seq<T>, a: seq<T>, b: seq<T>, cap: nat)
    ensures AddDistinct(AddDistinct(acc, a, cap), b, cap) == AddDistinct(acc, a + b, cap)
    decreases |a|
  {
    if a == [] {
      assert a + b == b;
    } else {
      var next := if a[0] !in acc && |acc| < cap then acc + [a[0]] else acc;
      assert (a + b)[0] == a[0];
      assert (a + b)[1..] == a[1..] + b;
      AddDistinctConcat(next, a[1..], b, cap);
    }
  }

  /** Items all already present add nothing. */
  lemma {:induction false} AddDistinctPresent<T>(acc: seq<T>, xs: seq<T>, cap: nat)
    requires forall x :: x in xs ==> x in acc
    ensures AddDistinct(acc, xs, cap) == acc
    decreases |xs|
  {
    if xs != [] {
      assert xs[0] in acc;
      AddDistinctPresent(acc, xs[1..], cap);
    }
  }

  /** Distinct items that fit under the cap are all appended. */
  lemma {:induction false} AddDistinctFits<T>(acc: seq<T>, xs: seq<T>, cap: nat)
    requires Distinct(acc + xs) && |acc| + |xs| <= cap
    ensures AddDistinct(acc, xs, cap) == acc + xs
    decreases |xs|
  {
    if xs == [] {
      assert acc + xs == acc;
    } else {
      assert xs[0] == (acc + xs)[|acc|];
      assert xs[0] !in acc by {
        forall i | 0 <= i < |acc|
          ensures acc[i] != xs[0]
        {
          assert acc[i] == (acc + xs)[i];
        }
      }
      assert (acc + [xs[0]]) + xs[1..] == acc + xs;
      AddDistinctFits(acc + [xs[0]], xs[1..], cap);
    }
  }

  // ---------------------------------------------------------------------
  // Map stage
  // ---------------------------------------------------------------------

  /** Key points and quotes drawn from one chunk. */
  datatype Digest = Digest(keyPoints: seq<string>, reviewQuotes: seq<string>)

  /** The aggregated summary of one theme. */
  datatype ThemeDigest = ThemeDigest(theme: string, keyPoints: seq<string>, reviewQuotes: seq<string>)

  /** The model's parsed answer for a chunk; None when the call raised. */
  type ChunkOracle = seq<string> -> Option<Digest>

  const MaxKeyPoints := 5
  const MaxReviewQuotes := 3

  function FallbackPoints(theme: string): seq<string> {
    var base := Lower(theme);
    ["Users discuss " + base + " flow and clarity.",
     "Pain points around " + base + " consistency and reliability.",
     "Suggestions to improve " + base + " guidance and UX."]
  }

  const FallbackQuotes: seq<string> :=
    ["\"It should be simpler to complete this step.\"",
     "\"The process felt confusing at moments.\""]

  /** The template digest has three distinct points and two distinct quotes. */
  lemma FallbackDistinct(theme: string)
    ensures Distinct(FallbackPoints(theme)) && |FallbackPoints(theme)| == 3
    ensures Distinct(FallbackQuotes) && |FallbackQuotes| == 2
  {
    var ps := FallbackPoints(theme);
    assert ps[0][0] == 'U' && ps[1][0] == 'P' && ps[2][0] == 'S';
    assert FallbackQuotes[0][1] == 'I' && FallbackQuotes[1][1] == 'T';
  }

  /** One chunk's digest: the template without a model, an empty one when the call raised. */
  function ChunkDigest(theme: string, chunk: seq<string>, available: bool, llm: ChunkOracle): Digest {
    if !available then Digest(FallbackPoints(theme), FallbackQuotes)
    else llm(chunk).GetOr(Digest([], []))
  }

  function Points(d: Digest): seq<string> {
    d.keyPoints
  }

  function Quotes(d: Digest): seq<string> {
    d.reviewQuotes
  }

  /** The aggregation loop over the chunk digests. */
  function Aggregate(points: seq<string>, quotes: seq<string>, ds: seq<Digest>): Digest
    decreases |ds|
  {
    if ds == [] then Digest(points, quotes)
    else Aggregate(AddDistinct(points, ds[0].keyPoints, MaxKeyPoints),
                   AddDistinct(quotes, ds[0].reviewQuotes, MaxReviewQuotes), ds[1..])
  }

  /** Aggregating chunk by chunk is one merge over all the chunks' items in order. */
  lemma {:induction false} AggregateStream(points: seq<string>, quotes: seq<string>, ds: seq<Digest>)
    ensures Aggregate(points, quotes, ds) ==
      Digest(AddDistinct(points, Flatten(Map(ds, Points)), MaxKeyPoints),
             AddDistinct(quotes, Flatten(Map(ds, Quotes)), MaxReviewQuotes))
    decreases |ds|
  {
    if ds == [] {
    } else {
      var p1 := AddDistinct(points, ds[0].keyPoints, MaxKeyPoints);
      var q1 := AddDistinct(quotes, ds[0].reviewQuotes, MaxReviewQuotes);
      AggregateStream(p1, q1, ds[1..]);
      assert Map(ds, Points) == [ds[0].keyPoints] + Map(ds[1..], Points);
      assert Map(ds, Quotes) == [ds[0].reviewQuotes] + Map(ds[1..], Quotes);
      AddDistinctConcat(points, ds[0].keyPoints, Flatten(Map(ds[1..], Points)), MaxKeyPoints);
      AddDistinctConcat(quotes, ds[0].reviewQuotes, Flatten(Map(ds[1..], Quotes)), MaxReviewQuotes);
    }
  }

  function Digests(theme: string, chunks: seq<seq<string>>, available: bool, llm: ChunkOracle): (ds: seq<Digest>)
    ensures |ds| == |chunks|
    ensures forall i :: 0 <= i < |chunks| ==> ds[i] == ChunkDigest(theme, chunks[i], available, llm)
  {
    Map(chunks, (c: seq<string>) => ChunkDigest(theme, c, available, llm))
  }

  /**
   * Summarises a theme: None when the chunk size is zero (the range raises);
   * otherwise the first five distinct key points and first three distinct
   * quotes over all chunk digests, in order of first appearance.
   */
  function SummarizeTheme(theme: string, texts: seq<string>, chunkSize: int, available: bool, llm: ChunkOracle)
    : (r: Option<ThemeDigest>)
    ensures chunkSize == 0 <==> r.None?
    ensures r.Some? ==> r.value.theme == theme
    ensures r.Some? ==> |r.value.keyPoints| <= MaxKeyPoints && Distinct(r.value.keyPoints)
    ensures r.Some? ==> |r.value.reviewQuotes| <= MaxReviewQuotes && Distinct(r.value.reviewQuotes)
    ensures r.Some? && (chunkSize < 0 || texts == []) ==> r.value.keyPoints == [] && r.value.reviewQuotes == []
    ensures chunkSize > 0 ==>
      var ds := Digests(theme, Chunks(texts, chunkSize), available, llm);
      r == Some(ThemeDigest(theme, AddDistinct([], Flatten(Map(ds, Points)), MaxKeyPoints),
                            AddDistinct([], Flatten(Map(ds, Quotes)), MaxReviewQuotes)))
  {
    match ChunkList(texts, chunkSize)
    case None => None
    case Some(chunks) =>
      var ds := Digests(theme, chunks, available, llm);
      AggregateStream([], [], ds);
      var d := Aggregate([], [], ds);
      Some(ThemeDigest(theme, d.keyPoints, d.reviewQuotes))
  }

  /** Without a model every non-empty theme gets exactly the template points and quotes. */
  lemma {:induction false} FallbackSummary(theme: string, texts: seq<string>, chunkSize: int, llm: ChunkOracle)
    requires chunkSize > 0 && texts != []
    ensures SummarizeTheme(theme, texts, chunkSize, false, llm)
      == Some(ThemeDigest(theme, FallbackPoints(theme), FallbackQuotes))
  {
    var chunks := Chunks(texts, chunkSize);
    var ds := Digests(theme, chunks, false, llm);
    FallbackDistinct(theme);
    var fp := FallbackPoints(theme);
    assert Map(ds, Points) == [fp] + Map(ds[1..], Points);
    assert Map(ds, Quotes) == [FallbackQuotes] + Map(ds[1..], Quotes);
    AllTemplate(ds[1..], fp, FallbackQuotes);
    TemplateMerge(fp, Flatten(Map(ds[1..], Points)), MaxKeyPoints);
    TemplateMerge(FallbackQuotes, Flatten(Map(ds[1..], Quotes)), MaxReviewQuotes);
  }

  /** Merging a fitting distinct template followed only by repeats of its items gives the template. */
  lemma TemplateMerge<T>(ps: seq<T>, rest: seq<T>, cap: nat)
    requires Distinct(ps) && |ps| <= cap
    requires forall x :: x in rest ==> x in ps
    ensures AddDistinct([], ps + rest, cap) == ps
  {
    AddDistinctConcat([], ps, rest, cap);
    assert [] + ps == ps;
    AddDistinctFits([], ps, cap);
    AddDistinctPresent(ps, rest, cap);
  }

  /** Digests all equal to one template contribute only that template's items. */
  lemma {:induction false} AllTemplate(ds: seq<Digest>, ps: seq<string>, qs: seq<string>)
    requires forall i :: 0 <= i < |ds| ==> ds[i] == Digest(ps, qs)
    ensures forall x :: x in Flatten(Map(ds, Points)) ==> x in ps
    ensures forall x :: x in Flatten(Map(ds, Quotes)) ==> x in qs
    decreases |ds|
  {
    if ds != [] {
      AllTemplate(ds[1..], ps, qs);
      assert Map(ds, Points) == [ps] + Map(ds[1..], Points);
      assert Map(ds, Quotes) == [qs] + Map(ds[1..], Quotes);
    }
  }

  // ---------------------------------------------------------------------
  // Reduce stage
  // ---------------------------------------------------------------------

  datatype NoteTheme = NoteTheme(name: string, summary: string)

  /** The weekly note as the model returns it. */
  datatype PulseNote = PulseNote(title: string, overview: string, themes: seq<NoteTheme>,
                                 quotes: seq<string>, actions: seq<string>)

  function ThemeLine(t: NoteTheme): string {
    t.name + ": " + t.summary
  }

  /** The note's text parts in reading order, empty ones included. */
  function NoteParts(n: PulseNote): seq<string> {
    [n.title, n.overview] + Map(n.themes, ThemeLine) + n.quotes + n.actions
  }

  predicate NonEmpty(s: string) {
    s != []
  }

  /** The non-empty parts, one per line. */
  function NoteText(n: PulseNote): string {
    Join(Filter(NoteParts(n), NonEmpty), "\n")
  }

  lemma StripLeftKeepsWords(s: string)
    ensures WordCount(StripLeft(s)) == WordCount(s)
  {
    var l := StripLeft(s);
    var lead := s[..|s| - |l|];
    assert AllSpace(lead);
    assert s == lead + l;
    CountFromConcat(lead, l, true);
    CountFromAllSpace(lead, true);
    assert EndsInSpace(lead, true) by {
      if lead != [] {
        assert IsSpace(lead[|lead| - 1]);
      }
    }
  }

  lemma StripRightKeepsWords(s: string)
    ensures WordCount(StripRight(s)) == WordCount(s)
  {
    var r := StripRight(s);
    var trail := s[|r|..];
    assert s == r + trail;
    CountFromConcat(r, trail, true);
    CountFromAllSpace(trail, EndsInSpace(r, true));
  }

  /** Stripping the ends of a text does not change its tokens. */
  lemma StripKeepsWords(s: string)
    ensures WordCount(Strip(s)) == WordCount(s)
  {
    StripLeftKeepsWords(s);
    StripRightKeepsWords(StripLeft(s));
  }

  /** The number of tokens of a stripped text; zero for the empty text. */
  function WordCountOf(text: string): (n: nat)
    ensures n == WordCount(text)
    ensures n == |Words(text)|
  {
    WordsCount(text);
    if text == [] then 0
    else
      StripKeepsWords(text);
      WordsCount(Strip(text));
      |Words(Strip(text))|
  }

  /** Dropping empty parts changes no word count. */
  lemma {:induction false} TotalWordsNonEmpty(parts: seq<string>)
    ensures TotalWords(Filter(parts, NonEmpty)) == TotalWords(parts)
  {
    if parts != [] {
      TotalWordsNonEmpty(parts[1..]);
      assert Filter(parts, NonEmpty) == (if parts[0] != [] then [parts[0]] else []) + Filter(parts[1..], NonEmpty);
    }
  }

  /** The note's word count is the sum of its parts' word counts. */
  lemma NoteWords(n: PulseNote)
    ensures WordCountOf(NoteText(n)) == TotalWords(NoteParts(n))
  {
    WordCountJoin(Filter(NoteParts(n), NonEmpty), "\n");
    TotalWordsNonEmpty(NoteParts(n));
  }

  const DefaultTitle := "Weekly Product Pulse"
  const FallbackOverview := "Top feedback themes and actions for the week."
  const FallbackQuote := "\"A representative user quote.\" (on Theme)"

  function DefaultPayload(): PulseNote {
    PulseNote(DefaultTitle, "", [], [], [])
  }

  function FallbackTheme(name: string): NoteTheme {
    NoteTheme(name, "Feedback clustered around " + Lower(name) + ".")
  }

  /**
   * The reduce stage. The model's note is kept when it has themes; otherwise
   * the template note is built from the top names, which needs three of them
   * (fewer raise an index error, None).
   */
  function SynthesizeWeeklyPulse(names: seq<string>, available: bool, llm: Option<PulseNote>): (r: Option<PulseNote>)
    ensures available && llm.Some? && llm.value.themes != [] ==> r == llm
    ensures !(available && llm.Some? && llm.value.themes != []) ==>
      (r.None? <==> |names| < 3)
    ensures r.Some? ==> r.value.themes != []
    ensures r.Some? && r != llm ==>
      && r.value.title == DefaultTitle
      && r.value.overview == FallbackOverview
      && |r.value.themes| == |names|
      && (forall i :: 0 <= i < |names| ==>
            r.value.themes[i].name == names[i] && r.value.themes[i].summary == "Feedback clustered around " + Lower(names[i]) + ".")
      && r.value.quotes == [FallbackQuote, FallbackQuote, FallbackQuote]
      && r.value.actions == ["Investigate " + names[0] + " issues", "Improve " + names[1] + " guidance",
                             "Monitor " + names[2] + " performance"]
  {
    var payload := if available && llm.Some? then llm.value else DefaultPayload();
    if payload.themes != [] then Some(payload)
    else if |names| < 3 then None
    else Some(PulseNote(DefaultTitle, FallbackOverview, Map(names, FallbackTheme),
                        [FallbackQuote, FallbackQuote, FallbackQuote],
                        ["Investigate " + names[0] + " issues", "Improve " + names[1] + " guidance",
                         "Monitor " + names[2] + " performance"]))
  }

  /**
   * A note over `maxWords` words is replaced by the model's compressed note;
   * a note that fits, a missing model or a failed call keep the note.
   */
  function CompressNoteIfNeeded(note: PulseNote, maxWords: int, available: bool, llm: Option<PulseNote>): (r: PulseNote)
    ensures TotalWords(NoteParts(note)) <= maxWords ==> r == note
    ensures !available || llm.None? ==> r == note
    ensures r != note ==> available && llm == Some(r) && TotalWords(NoteParts(note)) > maxWords
    ensures available && llm.Some? && TotalWords(NoteParts(note)) > maxWords ==> r == llm.value
  {
    NoteWords(note);
    if WordCountOf(NoteText(note)) <= maxWords || !available then note
    else llm.GetOr(note)
  }
}

=== FILE: text.dfy ===
/**
 * Strings as the pipeline sees them: whitespace tokenisation (Python's
 * `str.split()`), joining, ASCII case mapping, stripping, substring search
 * and decimal rendering of counters.
 */
module Text {
  import opened Wrappers
  import opened Seqs

  /** Whitespace for `str.split()` / `str.strip()`, restricted to ASCII. */
  predicate IsSpace(c: char) {
    c == ' ' || ('\t' <= c <= '\r') || ('\U{1C}' <= c <= '\U{1F}')
  }

  predicate IsDigit(c: char) {
    '0' <= c <= '9'
  }

  /** Regular-expression `\w`, restricted to ASCII: letters, digits and underscore. */
  predicate IsWordChar(c: char) {
    IsDigit(c) || ('a' <= c <= 'z') || ('A' <= c <= 'Z') || c == '_'
  }

  predicate NoSpace(s: string) {
    forall i :: 0 <= i < |s| ==> !IsSpace(s[i])
  }

  predicate AllSpace(s: string) {
    forall i :: 0 <= i < |s| ==> IsSpace(s[i])
  }

  // ---------------------------------------------------------------------
  // Word counting
  // ---------------------------------------------------------------------

  /** Number of word starts in `s`, when the character before `s` was a space iff `prevSpace`. */
  function CountFrom(s: string, prevSpace: bool): nat {
    if s == [] then 0
    else (if prevSpace && !IsSpace(s[0]) then 1 else 0) + CountFrom(s[1..], IsSpace(s[0]))
  }

  /** Number of whitespace-delimited tokens, i.e. `len(s.split())`. */
  function WordCount(s: string): nat {
    CountFrom(s, true)
  }

  /** Whether the position after `s` follows a space (`prev` when `s` is empty). */
  function EndsInSpace(s: string, prev: bool): bool {
    if s == [] then prev else IsSpace(s[|s| - 1])
  }

  lemma {:induction false} CountFromConcat(a: string, b: string, p: bool)
    ensures CountFrom(a + b, p) == CountFrom(a, p) + CountFrom(b, EndsInSpace(a, p))
  {
    if a == [] {
      assert a + b == b;
    } else {
      assert (a + b)[0] == a[0];
      assert (a + b)[1..] == a[1..] + b;
      CountFromConcat(a[1..], b, IsSpace(a[0]));
    }
  }

  lemma {:induction false} CountFromAllSpace(s: string, p: bool)
    requires AllSpace(s)
    ensures CountFrom(s, p) == 0
  {
    if s != [] {
      CountFromAllSpace(s[1..], IsSpace(s[0]));
    }
  }

  lemma {:induction false} CountFromNoSpace(s: string)
    requires NoSpace(s)
    ensures CountFrom(s, false) == 0
  {
    if s != [] {
      CountFromNoSpace(s[1..]);
    }
  }

  /** A non-empty run of non-space characters is exactly one word. */
  lemma WordCountOfWord(w: string)
    requires w != [] && NoSpace(w)
    ensures WordCount(w) == 1
  {
    CountFromNoSpace(w[1..]);
  }

  /** Joining two texts with whitespace adds their word counts. */
  lemma WordCountSeparated(a: string, sep: string, b: string)
    requires sep != [] && AllSpace(sep)
    ensures WordCount(a + sep + b) == WordCount(a) + WordCount(b)
  {
    assert a + sep + b == a + (sep + b);
    CountFromConcat(a, sep + b, true);
    CountFromConcat(sep, b, EndsInSpace(a, true));
    CountFromAllSpace(sep, EndsInSpace(a, true));
  }

  // ---------------------------------------------------------------------
  // Tokens
  // ---------------------------------------------------------------------

  /** Length of the leading run of non-space characters. */
  function WordLen(s: string): (n: nat)
    ensures n <= |s|
    ensures forall i :: 0 <= i < n ==> !IsSpace(s[i])
    ensures n < |s| ==> IsSpace(s[n])
  {
    if s == [] || IsSpace(s[0]) then 0 else 1 + WordLen(s[1..])
  }

  /** `s.split()`: the maximal runs of non-space characters, in order. */
  function Words(s: string): (ws: seq<string>)
    ensures forall i :: 0 <= i < |ws| ==> ws[i] != [] && NoSpace(ws[i])
    decreases |s|
  {
    if s == [] then []
    else if IsSpace(s[0]) then Words(s[1..])
    else
      var n := WordLen(s);
      [s[..n]] + Words(s[n..])
  }

  /** The tokens of `split()` and the word-start automaton agree. */
  lemma {:induction false} WordsCount(s: string)
    ensures |Words(s)| == WordCount(s)
    decreases |s|
  {
    if s == [] {
    } else if IsSpace(s[0]) {
      WordsCount(s[1..]);
    } else {
      var n := WordLen(s);
      assert s == s[..n] + s[n..];
      CountFromConcat(s[..n], s[n..], true);
      WordCountOfWord(s[..n]);
      assert EndsInSpace(s[..n], true) == false;
      WordsCount(s[n..]);
    }
  }


  lemma {:induction false} WordLenOfWord(w: string, rest: string)
    requires NoSpace(w) && (rest == [] || IsSpace(rest[0]))
    ensures WordLen(w + rest) == |w|
  {
    if w == [] {
      assert w + rest == rest;
    } else {
      assert (w + rest)[1..] == w[1..] + rest;
      WordLenOfWord(w[1..], rest);
    }
  }

  lemma {:induction false} WordsSkipSpace(sp: string, rest: string)
    requires AllSpace(sp)
    ensures Words(sp + rest) == Words(rest)
  {
    if sp == [] {
      assert sp + rest == rest;
    } else {
      assert (sp + rest)[1..] == sp[1..] + rest;
      WordsSkipSpace(sp[1..], rest);
    }
  }

  /** Splitting a whitespace-joined list of words gives the words back. */
  lemma {:induction false} WordsJoin(ws: seq<string>, sep: string)
    requires sep != [] && AllSpace(sep)
    requires forall i :: 0 <= i < |ws| ==> ws[i] != [] && NoSpace(ws[i])
    ensures Words(Join(ws, sep)) == ws
  {
    if |ws| == 1 {
      WordLenOfWord(ws[0], []);
      assert ws[0] + [] == ws[0];
      assert ws[0][..|ws[0]|] == ws[0] && ws[0][|ws[0]|..] == [];
    } else if |ws| > 1 {
      var rest := Join(ws[1..], sep);
      var s := ws[0] + sep + rest;
      assert s == ws[0] + (sep + rest);
      WordLenOfWord(ws[0], sep + rest);
      assert s[..|ws[0]|] == ws[0];
      assert s[|ws[0]|..] == sep + rest;
      WordsSkipSpace(sep, rest);
      WordsJoin(ws[1..], sep);
      assert ws == [ws[0]] + ws[1..];
    }
  }

  // ---------------------------------------------------------------------
  // Joining
  // ---------------------------------------------------------------------

  /** `sep.join(parts)`. */
  function Join(parts: seq<string>, sep: string): string {
    if parts == [] then ""
    else if |parts| == 1 then parts[0]
    else parts[0] + sep + Join(parts[1..], sep)
  }

  /** Sum of the word counts of `parts`. */
  function TotalWords(parts: seq<string>): nat {
    if parts == [] then 0 else WordCount(parts[0]) + TotalWords(parts[1..])
  }

  lemma {:induction false} TotalWordsConcat(a: seq<string>, b: seq<string>)
    ensures TotalWords(a + b) == TotalWords(a) + TotalWords(b)
  {
    if a == [] {
      assert a + b == b;
    } else {
      assert (a + b)[1..] == a[1..] + b;
      TotalWordsConcat(a[1..], b);
    }
  }

  /** Word count of a whitespace-joined text is the sum of the parts' word counts. */
  lemma {:induction false} WordCountJoin(parts: seq<string>, sep: string)
    requires sep != [] && AllSpace(sep)
    ensures WordCount(Join(parts, sep)) == TotalWords(parts)
  {
    if parts == [] {
    } else if |parts| == 1 {
    } else {
      WordCountSeparated(parts[0], sep, Join(parts[1..], sep));
      WordCountJoin(parts[1..], sep);
    }
  }

  lemma {:induction false} SumOfWordCounts(ws: seq<string>)
    requires forall i :: 0 <= i < |ws| ==> ws[i] != [] && NoSpace(ws[i])
    ensures TotalWords(ws) == |ws|
  {
    if ws != [] {
      WordCountOfWord(ws[0]);
      SumOfWordCounts(ws[1..]);
    }
  }

  /** Joining a non-empty list of words ends with the last word's last character. */
  lemma {:induction false} JoinLastChar(ws: seq<string>, sep: string)
    requires |ws| > 0 && ws[|ws| - 1] != []
    ensures var j := Join(ws, sep); |j| > 0 && j[|j| - 1] == ws[|ws| - 1][|ws[|ws| - 1]| - 1]
  {
    if |ws| > 1 {
      JoinLastChar(ws[1..], sep);
    }
  }

  /** Appending `x` to a joined text extends its last part. */
  lemma {:induction false} JoinAppendLast(ws: seq<string>, sep: string, x: string)
    requires |ws| > 0
    ensures Join(ws, sep) + x == Join(ws[..|ws| - 1] + [ws[|ws| - 1] + x], sep)
  {
    var ext := ws[..|ws| - 1] + [ws[|ws| - 1] + x];
    if |ws| > 1 {
      JoinAppendLast(ws[1..], sep, x);
      assert ext[0] == ws[0];
      assert ext[1..] == ws[1..][..|ws| - 2] + [ws[1..][|ws| - 2] + x];
    }
  }

  /** A prefix never has more words than the whole text. */
  lemma WordCountPrefix(a: string, b: string)
    requires a <= b
    ensures WordCount(a) <= WordCount(b)
  {
    assert b == a + b[|a|..];
    CountFromConcat(a, b[|a|..], true);
  }

  // ---------------------------------------------------------------------
  // Case mapping (ASCII)
  // ---------------------------------------------------------------------

  function LowerChar(c: char): char {
    if 'A' <= c <= 'Z' then (c as int + 32) as char else c
  }

  function UpperChar(c: char): char {
    if 'a' <= c <= 'z' then (c as int - 32) as char else c
  }

  /** `s.lower()` on ASCII letters. */
  function Lower(s: string): (r: string)
    ensures |r| == |s|
    ensures forall i :: 0 <= i < |s| ==> r[i] == LowerChar(s[i])
  {
    seq(|s|, i requires 0 <= i < |s| => LowerChar(s[i]))
  }

  /** `s.capitalize()`: first character upper-cased, the rest lower-cased. */
  function Capitalize(s: string): (r: string)
    ensures |r| == |s|
  {
    if s == [] then [] else [UpperChar(s[0])] + Lower(s[1..])
  }

  // ---------------------------------------------------------------------
  // Stripping, searching, splitting
  // ---------------------------------------------------------------------

  function StripLeft(s: string): (r: string)
    ensures |r| <= |s| && r == s[|s| - |r|..]
    ensures r == [] || !IsSpace(r[0])
    ensures AllSpace(s[..|s| - |r|])
  {
    if s == [] || !IsSpace(s[0]) then s
    else
      var r := StripLeft(s[1..]);
      var k := |s| - |r|;
      assert s[1..][k - 1..] == s[k..];
      assert forall i :: 1 <= i < k ==> s[..k][i] == s[1..][..k - 1][i - 1];
      r
  }

  function StripRight(s: string): (r: string)
    ensures |r| <= |s| && r == s[..|r|]
    ensures r == [] || !IsSpace(r[|r| - 1])
    ensures AllSpace(s[|r|..])
  {
    if s == [] || !IsSpace(s[|s| - 1]) then s
    else
      var r := StripRight(s[..|s| - 1]);
      assert s[..|s| - 1][..|r|] == s[..|r|];
      assert forall i :: |r| <= i < |s| - 1 ==> s[i] == s[..|s| - 1][i];
      r
  }

  /** `s.strip()`. */
  function Strip(s: string): string {
    StripRight(StripLeft(s))
  }

  /** `needle in hay` for strings. */
  predicate Contains(hay: string, needle: string)
    decreases |hay|
  {
    needle <= hay || (hay != [] && Contains(hay[1..], needle))
  }

  lemma {:induction false} ContainsAt(hay: string, needle: string, i: nat)
    requires i + |needle| <= |hay| && hay[i..i + |needle|] == needle
    ensures Contains(hay, needle)
    decreases i
  {
    if i > 0 {
      assert hay[1..][i - 1..i - 1 + |needle|] == needle;
      ContainsAt(hay[1..], needle, i - 1);
    }
  }

  /** `sep` occurs in `s` starting at position `k`. */
  predicate OccursAt(s: string, sep: string, k: nat) {
    k + |sep| <= |s| && s[k..k + |sep|] == sep
  }

  lemma OccursAtTail(s: string, sep: string, k: nat)
    requires s != []
    ensures OccursAt(s, sep, k + 1) <==> OccursAt(s[1..], sep, k)
  {
    if k + 1 + |sep| <= |s| {
      assert s[k + 1..k + 1 + |sep|] == s[1..][k..k + |sep|];
    }
  }

  /** Position of the first occurrence of `sep` in `s`, if any (`s.find(sep)`). */
  function IndexOf(s: string, sep: string): (r: Option<nat>)
    ensures r.Some? ==> OccursAt(s, sep, r.value)
    ensures r.Some? ==> forall k :: 0 <= k < r.value ==> !OccursAt(s, sep, k)
    ensures r.None? ==> forall k: nat :: !OccursAt(s, sep, k)
    decreases |s|
  {
    if sep <= s then Some(0)
    else if s == [] then None
    else match IndexOf(s[1..], sep)
      case None =>
        assert forall k: nat :: !OccursAt(s, sep, k) by {
          forall k: nat ensures !OccursAt(s, sep, k) {
            if k > 0 {
              OccursAtTail(s, sep, k - 1);
            }
          }
        }
        None
      case Some(k) =>
        OccursAtTail(s, sep, k);
        assert forall j: nat :: j < k + 1 ==> !OccursAt(s, sep, j) by {
          forall j: nat | j < k + 1 ensures !OccursAt(s, sep, j) {
            if j > 0 {
              OccursAtTail(s, sep, j - 1);
            }
          }
        }
        Some(k + 1)
  }

  /** `s.split(sep)[0]`: everything before the first `sep`, or `s` itself. */
  function BeforeFirst(s: string, sep: string): (r: string)
    ensures r <= s
  {
    match IndexOf(s, sep)
    case None => s
    case Some(k) => s[..k]
  }

  /** Last position `k < |s|` with `s[k] == c`, if any (`s.rfind(c)`). */
  function LastIndexOf(s: string, c: char): (r: Option<nat>)
    ensures r.Some? ==> r.value < |s| && s[r.value] == c && forall k :: r.value < k < |s| ==> s[k] != c
    ensures r.None? ==> forall k :: 0 <= k < |s| ==> s[k] != c
  {
    if s == [] then None
    else if s[|s| - 1] == c then Some(|s| - 1)
    else LastIndexOf(s[..|s| - 1], c)
  }

  // ---------------------------------------------------------------------
  // Numbers
  // ---------------------------------------------------------------------

  function DigitChar(d: nat): char
    requires d < 10
  {
    "0123456789"[d]
  }

  /** Decimal rendering of a natural number, as `str(n)`. */
  function NatToString(n: nat): (r: string)
    ensures r != [] && NoSpace(r)
  {
    if n < 10 then [DigitChar(n)] else NatToString(n / 10) + [DigitChar(n % 10)]
  }
}

=== FILE: themes.dfy ===
/**
 * Layer 2 of the pulse: cluster statistics, the five-theme limit, theme
 * enrichment of reviews, and the keyword labelling used when no language
 * model is available.
 */
module Themes {
  import opened Wrappers
  import opened Seqs
  import opened Text
  import opened Sorting

  // ---------------------------------------------------------------------
  // Counting: `collections.Counter`
  // ---------------------------------------------------------------------

  /** Occurrences of `x` in `s`, counted from the back (the way `Tally` grows). */
  function Occ<T(==)>(s: seq<T>, x: T): nat {
    if s == [] then 0 else Occ(s[..|s| - 1], x) + (if s[|s| - 1] == x then 1 else 0)
  }

  lemma {:induction false} OccAbsent<T>(s: seq<T>, x: T)
    requires x !in s
    ensures Occ(s, x) == 0
  {
    if s != [] {
      assert x !in s[..|s| - 1];
      OccAbsent(s[..|s| - 1], x);
    }
  }

  function KeysOf<T>(t: seq<(T, nat)>): (ks: seq<T>)
    ensures |ks| == |t| && forall i :: 0 <= i < |t| ==> ks[i] == t[i].0
  {
    if t == [] then [] else [t[0].0] + KeysOf(t[1..])
  }

  function CountOf<T>(e: (T, nat)): int {
    e.1
  }

  /** Sum of the counts of a tally. */
  function CountSum<T>(t: seq<(T, nat)>): nat {
    if t == [] then 0 else t[0].1 + CountSum(t[1..])
  }

  /** One more occurrence of `x`: the first entry for `x` grows, or a new entry is appended. */
  function Bump<T(==)>(t: seq<(T, nat)>, x: T): (r: seq<(T, nat)>)
    ensures |r| == if x in KeysOf(t) then |t| else |t| + 1
  {
    if t == [] then [(x, 1)]
    else
      assert KeysOf(t) == [t[0].0] + KeysOf(t[1..]);
      if t[0].0 == x then [(x, t[0].1 + 1)] + t[1..]
      else [t[0]] + Bump(t[1..], x)
  }

  lemma KeysOfCons<T>(h: (T, nat), t: seq<(T, nat)>)
    ensures KeysOf([h] + t) == [h.0] + KeysOf(t)
  {
    assert ([h] + t)[1..] == t;
  }

  lemma BumpKeys<T>(t: seq<(T, nat)>, x: T)
    ensures KeysOf(Bump(t, x)) == if x in KeysOf(t) then KeysOf(t) else KeysOf(t) + [x]
  {
    if x in KeysOf(t) {
      BumpSameKeys(t, x);
    } else {
      BumpAppends(t, x);
      assert KeysOf(t + [(x, 1)]) == KeysOf(t) + [x];
    }
  }

  /** Bumping a present item changes no key. */
  lemma {:induction false} BumpSameKeys<T>(t: seq<(T, nat)>, x: T)
    requires x in KeysOf(t)
    ensures |Bump(t, x)| == |t| && forall i :: 0 <= i < |t| ==> Bump(t, x)[i].0 == t[i].0
  {
    assert KeysOf(t) == [t[0].0] + KeysOf(t[1..]);
    if t[0].0 != x {
      BumpSameKeys(t[1..], x);
      assert Bump(t, x) == [t[0]] + Bump(t[1..], x);
    }
  }

  /** An entry after one more occurrence of `x`. */
  function Bumped<T(==)>(e: (T, nat), x: T): (T, nat) {
    (e.0, e.1 + if e.0 == x then 1 else 0)
  }

  /** With distinct keys, exactly the entry for `x` grows by one. */
  lemma {:induction false} BumpCounts<T>(t: seq<(T, nat)>, x: T)
    requires Distinct(KeysOf(t))
    ensures forall i :: 0 <= i < |t| ==> Bump(t, x)[i] == Bumped(t[i], x)
    ensures x !in KeysOf(t) ==> Bump(t, x)[|t|] == (x, 1)
  {
    if x !in KeysOf(t) {
      BumpAppends(t, x);
    } else if t[0].0 == x {
      BumpAtHead(t, x);
    } else {
      TailKeysDistinct(t);
      BumpCounts(t[1..], x);
      BumpPastHead(t, x, t[1..], Bump(t[1..], x));
    }
  }

  lemma TailKeysDistinct<T>(t: seq<(T, nat)>)
    requires t != [] && Distinct(KeysOf(t))
    ensures Distinct(KeysOf(t[1..]))
  {
    var kt := KeysOf(t[1..]);
    assert forall i :: 0 <= i < |kt| ==> kt[i] == KeysOf(t)[i + 1];
  }

  lemma BumpAtHead<T>(t: seq<(T, nat)>, x: T)
    requires t != [] && t[0].0 == x && Distinct(KeysOf(t))
    ensures forall i :: 0 <= i < |t| ==> Bump(t, x)[i] == Bumped(t[i], x)
  {
    var r := Bump(t, x);
    assert r == [(x, t[0].1 + 1)] + t[1..];
    forall i | 0 < i < |t|
      ensures r[i] == t[i] && t[i].0 != x
    {
      assert KeysOf(t)[i] == t[i].0 && KeysOf(t)[0] == x;
    }
  }

  lemma BumpPastHead<T>(t: seq<(T, nat)>, x: T, tail: seq<(T, nat)>, rest: seq<(T, nat)>)
    requires t != [] && t[0].0 != x && tail == t[1..] && rest == Bump(tail, x)
    requires forall j :: 0 <= j < |tail| ==> rest[j] == Bumped(tail[j], x)
    ensures forall i :: 0 <= i < |t| ==> Bump(t, x)[i] == Bumped(t[i], x)
  {
    var r := Bump(t, x);
    assert r == [t[0]] + rest;
    forall i | 0 <= i < |t|
      ensures r[i] == Bumped(t[i], x)
    {
      if i > 0 {
        assert r[i] == rest[i - 1] && t[i] == tail[i - 1];
      }
    }
  }

  /** A new item gets a new entry at the end. */
  lemma {:induction false} BumpAppends<T>(t: seq<(T, nat)>, x: T)
    requires x !in KeysOf(t)
    ensures Bump(t, x) == t + [(x, 1)]
  {
    if t != [] {
      var kt := KeysOf(t[1..]);
      assert KeysOf(t)[0] == t[0].0;
      assert forall i :: 0 <= i < |kt| ==> kt[i] == KeysOf(t)[i + 1];
      BumpAppends(t[1..], x);
      assert t == [t[0]] + t[1..];
    }
  }

  lemma {:induction false} BumpSum<T>(t: seq<(T, nat)>, x: T)
    ensures CountSum(Bump(t, x)) == CountSum(t) + 1
  {
    if t != [] && t[0].0 != x {
      BumpSum(t[1..], x);
      assert Bump(t, x)[1..] == Bump(t[1..], x);
    } else if t != [] {
      assert Bump(t, x)[1..] == t[1..];
    }
  }

  /** `Counter(s)`: each distinct item with its count, in order of first occurrence. */
  function Tally<T(==)>(s: seq<T>): seq<(T, nat)>
    decreases |s|
  {
    if s == [] then [] else Bump(Tally(s[..|s| - 1]), s[|s| - 1])
  }

  /** `t` counts `s`: distinct keys, each an item of `s` with its number of occurrences, and every item present. */
  predicate CountsOf<T(==)>(s: seq<T>, t: seq<(T, nat)>) {
    && Distinct(KeysOf(t))
    && (forall i :: 0 <= i < |t| ==> t[i].0 in s && t[i].1 == Occ(s, t[i].0))
    && (forall i :: 0 <= i < |s| ==> s[i] in KeysOf(t))
  }

  /** The tally is exactly the counter of its input. */
  lemma {:induction false} TallySpec<T>(s: seq<T>)
    ensures CountsOf(s, Tally(s))
    decreases |s|
  {
    if s != [] {
      TallySpec(s[..|s| - 1]);
      TallyStep(s, Tally(s[..|s| - 1]));
    }
  }

  /** The tally lists the distinct items in order of first occurrence, as `Counter` does. */
  lemma {:induction false} TallyKeys<T>(s: seq<T>)
    ensures KeysOf(Tally(s)) == Fresh(s, [])
    decreases |s|
  {
    if s != [] {
      var init := s[..|s| - 1];
      var x := s[|s| - 1];
      assert init + [x] == s;
      TallyKeys(init);
      BumpKeys(Tally(init), x);
      FreshSnoc(init, x, []);
      assert x in init ==> x in Fresh(init, []) by {
        if x in init {
          var k :| 0 <= k < |init| && init[k] == x;
        }
      }
    }
  }

  /** The induction step of `Tally`: bumping the tally of all but the last item. */
  lemma TallyStep<T>(s: seq<T>, t0: seq<(T, nat)>)
    requires s != []
    requires CountsOf(s[..|s| - 1], t0)
    ensures CountsOf(s, Bump(t0, s[|s| - 1]))
  {
    TallyStepKeys(s, t0);
    TallyStepCounts(s, t0);
  }

  lemma TallyStepKeys<T>(s: seq<T>, t0: seq<(T, nat)>)
    requires s != []
    requires Distinct(KeysOf(t0))
    requires forall i :: 0 <= i < |s| - 1 ==> s[i] in KeysOf(t0)
    ensures var t := Bump(t0, s[|s| - 1]);
      && Distinct(KeysOf(t))
      && (forall i :: 0 <= i < |s| ==> s[i] in KeysOf(t))
  {
    var x := s[|s| - 1];
    var k0 := KeysOf(t0);
    BumpKeys(t0, x);
    var k := KeysOf(Bump(t0, x));
    if x !in k0 {
      assert k == k0 + [x];
      forall i, j | 0 <= i < j < |k| ensures k[i] != k[j] {
        if j == |k0| {
          assert k[i] == k0[i];
        }
      }
    }
    forall i | 0 <= i < |s| ensures s[i] in k {
      if i < |s| - 1 {
        assert s[i] in k0;
      }
    }
  }

  lemma TallyStepCounts<T>(s: seq<T>, t0: seq<(T, nat)>)
    requires s != []
    requires Distinct(KeysOf(t0))
    requires forall i :: 0 <= i < |s| - 1 ==> s[i] in KeysOf(t0)
    requires forall i :: 0 <= i < |t0| ==> t0[i].0 in s[..|s| - 1] && t0[i].1 == Occ(s[..|s| - 1], t0[i].0)
    ensures var t := Bump(t0, s[|s| - 1]);
      forall i :: 0 <= i < |t| ==> t[i].0 in s && t[i].1 == Occ(s, t[i].0)
  {
    var x := s[|s| - 1];
    var t := Bump(t0, x);
    BumpCounts(t0, x);
    forall i | 0 <= i < |t| ensures t[i].0 in s && t[i].1 == Occ(s, t[i].0) {
      if i < |t0| {
        TallyOldEntry(s, t0[i], t[i]);
      } else {
        TallyNewEntry(s, t0);
      }
    }
  }

  /** An entry already counted over all but the last item stays right after the bump. */
  lemma TallyOldEntry<T>(s: seq<T>, e: (T, nat), e': (T, nat))
    requires s != []
    requires e.0 in s[..|s| - 1] && e.1 == Occ(s[..|s| - 1], e.0)
    requires e' == Bumped(e, s[|s| - 1])
    ensures e'.0 in s && e'.1 == Occ(s, e'.0)
  {
    InitMember(s, e.0);
  }

  /** A last item not seen before occurs exactly once. */
  lemma TallyNewEntry<T>(s: seq<T>, t0: seq<(T, nat)>)
    requires s != [] && s[|s| - 1] !in KeysOf(t0)
    requires forall i :: 0 <= i < |s| - 1 ==> s[i] in KeysOf(t0)
    ensures Occ(s, s[|s| - 1]) == 1
  {
    var init := s[..|s| - 1];
    var x := s[|s| - 1];
    forall j | 0 <= j < |init| ensures init[j] != x {
      assert init[j] == s[j];
    }
    OccAbsent(init, x);
  }

  lemma InitMember<T>(s: seq<T>, y: T)
    requires s != [] && y in s[..|s| - 1]
    ensures y in s
  {
    var j :| 0 <= j < |s| - 1 && s[..|s| - 1][j] == y;
    assert s[j] == y;
  }

  /** Every item is counted once. */
  lemma {:induction false} TallySum<T>(s: seq<T>)
    ensures CountSum(Tally(s)) == |s|
  {
    if s != [] {
      TallySum(s[..|s| - 1]);
      BumpSum(Tally(s[..|s| - 1]), s[|s| - 1]);
    }
  }

  /** The tally without the entry for `v`. */
  function DropKey<T(==)>(t: seq<(T, nat)>, v: T): (r: seq<(T, nat)>)
    ensures forall i :: 0 <= i < |r| ==> r[i] in t && r[i].0 != v
    ensures forall i :: 0 <= i < |t| && t[i].0 != v ==> t[i] in r
  {
    if t == [] then []
    else if t[0].0 == v then DropKey(t[1..], v)
    else [t[0]] + DropKey(t[1..], v)
  }

  lemma {:induction false} DropKeyDistinct<T>(t: seq<(T, nat)>, v: T)
    requires Distinct(KeysOf(t))
    ensures Distinct(KeysOf(DropKey(t, v)))
    ensures SetOf(KeysOf(DropKey(t, v))) == SetOf(KeysOf(t)) - {v}
  {
    if t != [] {
      KeysOfCons(t[0], t[1..]);
      assert [t[0]] + t[1..] == t;
      var kt := KeysOf(t[1..]);
      assert Distinct(kt) by {
        forall i, j | 0 <= i < j < |kt| ensures kt[i] != kt[j] {
          assert kt[i] == KeysOf(t)[i + 1] && kt[j] == KeysOf(t)[j + 1];
        }
      }
      assert t[0].0 !in kt by {
        forall i | 0 <= i < |kt| ensures kt[i] != t[0].0 {
          assert kt[i] == KeysOf(t)[i + 1];
        }
      }
      assert SetOf(KeysOf(t)) == {t[0].0} + SetOf(kt);
      DropKeyDistinct(t[1..], v);
      var d := DropKey(t[1..], v);
      if t[0].0 != v {
        KeysOfCons(t[0], d);
        var kd := KeysOf(d);
        assert t[0].0 !in SetOf(kd);
        assert SetOf([t[0].0] + kd) == {t[0].0} + SetOf(kd);
        forall i, j | 0 <= i < j < |kd| + 1 ensures ([t[0].0] + kd)[i] != ([t[0].0] + kd)[j] {
          if i == 0 {
            assert kd[j - 1] in SetOf(kd);
          }
        }
      }
    }
  }

  lemma {:induction false} DropKeyBump<T>(t: seq<(T, nat)>, x: T, v: T)
    requires Distinct(KeysOf(t))
    ensures CountSum(DropKey(Bump(t, x), v)) == CountSum(DropKey(t, v)) + (if x != v then 1 else 0)
    decreases |t|
  {
    if t != [] {
      assert KeysOf(t) == [t[0].0] + KeysOf(t[1..]);
      if t[0].0 == x {
        var r := Bump(t, x);
        assert r[1..] == t[1..];
        assert x !in KeysOf(t[1..]);
        DropKeyAbsent(t[1..], x);
      } else {
        DropKeyBump(t[1..], x, v);
        var r := Bump(t, x);
        assert r == [t[0]] + Bump(t[1..], x);
        assert r[1..] == Bump(t[1..], x);
      }
    }
  }

  /** Removing an absent key changes no count sum. */
  lemma {:induction false} DropKeyAbsent<T>(t: seq<(T, nat)>, v: T)
    requires v !in KeysOf(t)
    ensures DropKey(t, v) == t
  {
    if t != [] {
      assert KeysOf(t) == [t[0].0] + KeysOf(t[1..]);
      DropKeyAbsent(t[1..], v);
    }
  }

  /** The counts of all items but `v` add up to the occurrences of everything else. */
  lemma {:induction false} TallyDropSum<T>(s: seq<T>, v: T)
    ensures CountSum(DropKey(Tally(s), v)) + Occ(s, v) == |s|
    decreases |s|
  {
    if s != [] {
      var init := s[..|s| - 1];
      TallyDropSum(init, v);
      TallySpec(init);
      DropKeyBump(Tally(init), s[|s| - 1], v);
    }
  }

  // ---------------------------------------------------------------------
  // Cluster statistics
  // ---------------------------------------------------------------------

  /** HDBSCAN's label for reviews that belong to no cluster. */
  const NoiseLabel: int := -1

  datatype ClusterStats = ClusterStats(nClusters: nat, nNoise: nat, clusterSizes: seq<(int, nat)>, totalPoints: nat)

  /**
   * `ThemeClusterer.get_cluster_stats`: `None` before clustering (the source
   * returns an empty dictionary); otherwise one size per non-noise cluster, in
   * order of first appearance, and the noise count.
   */
  function GetClusterStats(labels: Option<seq<int>>): (r: Option<ClusterStats>)
    ensures labels.None? <==> r.None?
    ensures labels.Some? ==>
      var st := r.value;
      && st.totalPoints == |labels.value|
      && st.nClusters == |st.clusterSizes|
      && CountSum(st.clusterSizes) + st.nNoise == st.totalPoints
      && Distinct(KeysOf(st.clusterSizes))
      && (forall i :: 0 <= i < |st.clusterSizes| ==>
            var (l, c) := st.clusterSizes[i]; l != NoiseLabel && l in labels.value && c == Occ(labels.value, l))
      && (forall i :: 0 <= i < |labels.value| && labels.value[i] != NoiseLabel ==>
            labels.value[i] in KeysOf(st.clusterSizes))
      && st.nNoise == Occ(labels.value, NoiseLabel)
  {
    match labels
    case None => None
    case Some(ls) =>
      var sizes := DropKey(Tally(ls), NoiseLabel);
      SizesDistinct(ls);
      TallyDropSum(ls, NoiseLabel);
      SizesCounts(ls);
      SizesCover(ls);
      Some(ClusterStats(|SetOf(ls) - {NoiseLabel}|, Occ(ls, NoiseLabel), sizes, |ls|))
  }

  lemma SizesDistinct(ls: seq<int>)
    ensures var sizes := DropKey(Tally(ls), NoiseLabel);
      Distinct(KeysOf(sizes)) && |SetOf(ls) - {NoiseLabel}| == |sizes|
  {
    var t := Tally(ls);
    TallySpec(ls);
    var sizes := DropKey(t, NoiseLabel);
    DropKeyDistinct(t, NoiseLabel);
    DistinctCard(KeysOf(sizes));
    forall y | y in SetOf(KeysOf(t)) ensures y in SetOf(ls) {
      var j :| 0 <= j < |t| && KeysOf(t)[j] == y;
    }
    assert SetOf(KeysOf(t)) == SetOf(ls);
  }

  lemma SizesCounts(ls: seq<int>)
    ensures var sizes := DropKey(Tally(ls), NoiseLabel);
      forall i :: 0 <= i < |sizes| ==>
        var (l, c) := sizes[i]; l != NoiseLabel && l in ls && c == Occ(ls, l)
  {
    var t := Tally(ls);
    TallySpec(ls);
    var sizes := DropKey(t, NoiseLabel);
    forall i | 0 <= i < |sizes| ensures sizes[i].0 != NoiseLabel && sizes[i].0 in ls && sizes[i].1 == Occ(ls, sizes[i].0) {
      var j :| 0 <= j < |t| && t[j] == sizes[i];
    }
  }

  lemma SizesCover(ls: seq<int>)
    ensures var sizes := DropKey(Tally(ls), NoiseLabel);
      forall i :: 0 <= i < |ls| && ls[i] != NoiseLabel ==> ls[i] in KeysOf(sizes)
  {
    var t := Tally(ls);
    TallySpec(ls);
    DropKeyDistinct(t, NoiseLabel);
    var ks := KeysOf(DropKey(t, NoiseLabel));
    forall i | 0 <= i < |ls| && ls[i] != NoiseLabel ensures ls[i] in ks {
      assert ls[i] in SetOf(KeysOf(t));
      assert ls[i] in SetOf(ks);
    }
  }

  // ---------------------------------------------------------------------
  // The five-theme limit
  // ---------------------------------------------------------------------

  /** A labelled cluster; `mergedFrom` is present only on the synthetic "Other" theme. */
  datatype Theme = Theme(clusterId: int, name: string, description: string, size: nat, mergedFrom: Option<seq<int>>)

  const MaxThemes: nat := 5
  const OtherClusterId: int := -2
  const OtherName: string := "Other"
  const OtherDescription: string := "Mixed feedback on various topics"

  function Size(t: Theme): int {
    t.size
  }

  function ClusterIds(ts: seq<Theme>): (ids: seq<int>)
    ensures |ids| == |ts| && forall i :: 0 <= i < |ts| ==> ids[i] == ts[i].clusterId
  {
    seq(|ts|, i requires 0 <= i < |ts| => ts[i].clusterId)
  }

  /** The themes by decreasing size, ties in input order (Python's stable `sorted`). */
  function Ranked(themes: seq<Theme>): seq<Theme> {
    SortDesc(themes, Size)
  }

  /** The themes folded into "Other" when there are too many: all but the four largest. */
  function Merged(themes: seq<Theme>): seq<Theme>
    requires |themes| > MaxThemes
  {
    Ranked(themes)[MaxThemes - 1..]
  }

  function OtherTheme(merged: seq<Theme>): Theme {
    SumByNonNegative(merged, Size);
    Theme(OtherClusterId, OtherName, OtherDescription, SumBy(merged, Size), Some(ClusterIds(merged)))
  }

  /**
   * `ThemeLimitEnforcer.enforce_limit`: at most five themes. Up to five are
   * only ranked; beyond that the four largest are kept and the rest become
   * one "Other" theme, placed last whatever its size.
   */
  function EnforceLimit(themes: seq<Theme>): (r: seq<Theme>)
    ensures |r| == Min(|themes|, MaxThemes)
    ensures |themes| <= MaxThemes ==>
      && multiset(r) == multiset(themes)
      && SortedDesc(r, Size)
      && forall v :: Filter(r, KeyIs(Size, v)) == Filter(themes, KeyIs(Size, v))
    ensures |themes| > MaxThemes ==>
      var kept := r[..MaxThemes - 1];
      var merged := Merged(themes);
      && multiset(kept) + multiset(merged) == multiset(themes)
      && SortedDesc(kept + merged, Size)
      && r[MaxThemes - 1].clusterId == OtherClusterId
      && r[MaxThemes - 1].name == OtherName
      && r[MaxThemes - 1].description == OtherDescription
      && r[MaxThemes - 1].size == SumBy(merged, Size)
      && r[MaxThemes - 1].mergedFrom == Some(ClusterIds(merged))
  {
    var sorted := Ranked(themes);
    if |themes| <= MaxThemes then sorted
    else
      assert sorted == sorted[..MaxThemes - 1] + sorted[MaxThemes - 1..];
      sorted[..MaxThemes - 1] + [OtherTheme(sorted[MaxThemes - 1..])]
  }

  /**
   * Beyond five themes, the four kept and the merged ones are the stable
   * ranking: of each size, in input order.
   */
  lemma EnforceLimitStable(themes: seq<Theme>)
    requires |themes| > MaxThemes
    ensures var kept := EnforceLimit(themes)[..MaxThemes - 1];
      forall v :: Filter(kept + Merged(themes), KeyIs(Size, v)) == Filter(themes, KeyIs(Size, v))
  {
    var sorted := Ranked(themes);
    assert EnforceLimit(themes)[..MaxThemes - 1] + Merged(themes) == sorted;
  }

  /** No review is lost or double-counted: the sizes add up to the same total. */
  lemma EnforceLimitConservesSize(themes: seq<Theme>)
    ensures SumBy(EnforceLimit(themes), Size) == SumBy(themes, Size)
  {
    SortDescSum(themes, Size, Size);
    if |themes| > MaxThemes {
      var sorted := Ranked(themes);
      var r := EnforceLimit(themes);
      var kept := sorted[..MaxThemes - 1];
      assert sorted == kept + sorted[MaxThemes - 1..];
      SumByConcat(kept, sorted[MaxThemes - 1..], Size);
      assert r == kept + [r[MaxThemes - 1]];
      SumByConcat(kept, [r[MaxThemes - 1]], Size);
      assert SumBy([r[MaxThemes - 1]], Size) == r[MaxThemes - 1].size + SumBy([], Size);
    }
  }

  function SampleTheme(id: int, size: nat): Theme {
    Theme(id, "Theme", "", size, None)
  }

  /** Eight clusters already ranked by size, as in the layer's design notes. */
  function EightClusters(): seq<Theme> {
    [SampleTheme(0, 45), SampleTheme(1, 38), SampleTheme(2, 32), SampleTheme(3, 28),
     SampleTheme(4, 22), SampleTheme(5, 15), SampleTheme(6, 12), SampleTheme(7, 8)]
  }

  lemma EightClustersRanked()
    ensures Ranked(EightClusters()) == EightClusters()
  {
    var ts := EightClusters();
    assert SortedDesc(ts, Size);
    SortDescOfSorted(ts, Size);
  }

  lemma EightClustersTail()
    ensures SumBy(EightClusters()[4..], Size) == 57
    ensures ClusterIds(EightClusters()[4..]) == [4, 5, 6, 7]
  {
    var m := EightClusters()[4..];
    assert m == [SampleTheme(4, 22), SampleTheme(5, 15), SampleTheme(6, 12), SampleTheme(7, 8)];
    assert m[1..][1..][1..][1..] == [];
  }

  /**
   * Sizes 45, 38, 32, 28, 22, 15, 12 and 8 become the four largest and an
   * "Other" of 57 that outranks all of them yet comes last.
   */
  lemma EightClustersExample()
    ensures var r := EnforceLimit(EightClusters());
      && |r| == 5
      && r[..4] == EightClusters()[..4]
      && r[4].size == 57 && r[4].mergedFrom == Some([4, 5, 6, 7])
      && !SortedDesc(r, Size)
  {
    var ts := EightClusters();
    EightClustersRanked();
    var m := ts[4..];
    assert Merged(ts) == m;
    var r := EnforceLimit(ts);
    assert r[4].size == SumBy(m, Size);
    assert r[4].mergedFrom == Some(ClusterIds(m));
    EightClustersTail();
    assert Size(r[0]) < Size(r[4]);
  }

  // ---------------------------------------------------------------------
  // Enrichment
  // ---------------------------------------------------------------------

  /** Index of the first theme with the given cluster id. */
  function FirstIndex(ts: seq<Theme>, id: int): (r: Option<nat>)
    ensures r.Some? ==> r.value < |ts| && ts[r.value].clusterId == id
    ensures r.Some? ==> forall j :: 0 <= j < r.value ==> ts[j].clusterId != id
    ensures r.None? ==> forall j :: 0 <= j < |ts| ==> ts[j].clusterId != id
  {
    if ts == [] then None
    else if ts[0].clusterId == id then Some(0)
    else match FirstIndex(ts[1..], id)
      case None => None
      case Some(k) => Some(k + 1)
  }

  /**
   * The theme name a review with cluster label `label` receives: "Noise" for
   * noise, the name of its own theme, else that of the merged theme, else "Other".
   */
  function ThemeNameFor(cluster: int, themes: seq<Theme>): string {
    if cluster == NoiseLabel then "Noise"
    else match FirstIndex(themes, cluster)
      case Some(i) => themes[i].name
      case None =>
        match FirstIndex(themes, OtherClusterId)
        case Some(j) => themes[j].name
        case None => OtherName
  }

  /** A review annotated with its theme and cluster. */
  datatype Enriched<R> = Enriched(review: R, theme: string, clusterId: int)

  /**
   * The enrichment loop of `Layer2Pipeline.process`; reviews are paired with
   * labels by position. What the looked-up name is after the theme limit (the
   * kept cluster's own name, or "Other" for a merged one) is `EnrichAfterLimit`.
   */
  function Enrich<R>(reviews: seq<R>, labels: seq<int>, themes: seq<Theme>): (r: seq<Enriched<R>>)
    requires |reviews| <= |labels|
    ensures |r| == |reviews|
    ensures forall i :: 0 <= i < |r| ==> r[i].review == reviews[i] && r[i].clusterId == labels[i]
    ensures forall i :: 0 <= i < |r| ==> (r[i].theme == "Noise" <== labels[i] == NoiseLabel)
    ensures forall i :: 0 <= i < |r| ==> r[i].theme == ThemeNameFor(labels[i], themes)
  {
    seq(|reviews|, i requires 0 <= i < |reviews| => Enriched(reviews[i], ThemeNameFor(labels[i], themes), labels[i]))
  }

  /** With one theme per cluster, a theme drawn from `themes` with `themes[k]`'s id is `themes[k]`. */
  lemma UniqueCluster(themes: seq<Theme>, k: nat, t: Theme)
    requires k < |themes| && Distinct(ClusterIds(themes))
    requires t in multiset(themes) && t.clusterId == themes[k].clusterId
    ensures t == themes[k]
  {
    var m :| 0 <= m < |themes| && themes[m] == t;
    assert ClusterIds(themes)[m] == ClusterIds(themes)[k];
  }

  lemma {:induction false} EnrichWithinLimit(themes: seq<Theme>, k: nat)
    requires k < |themes| <= MaxThemes
    requires Distinct(ClusterIds(themes))
    requires forall i :: 0 <= i < |themes| ==> themes[i].clusterId >= 0
    ensures ThemeNameFor(themes[k].clusterId, EnforceLimit(themes)) == themes[k].name
  {
    var final := EnforceLimit(themes);
    var cid := themes[k].clusterId;
    assert themes[k] in multiset(final);
    match FirstIndex(final, cid)
    case Some(i) =>
      assert final[i] in multiset(final);
      UniqueCluster(themes, k, final[i]);
    case None =>
      assert false;
  }

  lemma {:induction false} EnrichOverLimit(themes: seq<Theme>, k: nat)
    requires k < |themes| && |themes| > MaxThemes
    requires Distinct(ClusterIds(themes))
    requires forall i :: 0 <= i < |themes| ==> themes[i].clusterId >= 0
    ensures var final := EnforceLimit(themes);
      ThemeNameFor(themes[k].clusterId, final) == if themes[k] in final then themes[k].name else OtherName
  {
    var final := EnforceLimit(themes);
    var cid := themes[k].clusterId;
    var kept := final[..MaxThemes - 1];
    assert final == kept + [final[MaxThemes - 1]];
    KeptUnique(themes, k, kept);
    if themes[k] in final {
      var j :| 0 <= j < |final| && final[j] == themes[k];
      assert j < MaxThemes - 1;
      var i := FirstIndex(final, cid).value;
      assert final[i] == themes[k];
    } else {
      assert FirstIndex(final, cid).None?;
      assert FirstIndex(final, OtherClusterId) == Some(MaxThemes - 1);
    }
  }

  /** The kept themes have non-negative ids, and only `themes[k]` has its id. */
  lemma KeptUnique(themes: seq<Theme>, k: nat, kept: seq<Theme>)
    requires k < |themes| && |themes| > MaxThemes
    requires Distinct(ClusterIds(themes))
    requires forall i :: 0 <= i < |themes| ==> themes[i].clusterId >= 0
    requires kept == EnforceLimit(themes)[..MaxThemes - 1]
    ensures forall j :: 0 <= j < |kept| ==> kept[j].clusterId >= 0 && (kept[j].clusterId == themes[k].clusterId ==> kept[j] == themes[k])
  {
    forall j | 0 <= j < |kept| ensures kept[j].clusterId >= 0 && (kept[j].clusterId == themes[k].clusterId ==> kept[j] == themes[k]) {
      assert kept[j] in multiset(kept);
      assert kept[j] in multiset(themes);
      if kept[j].clusterId == themes[k].clusterId {
        UniqueCluster(themes, k, kept[j]);
      }
    }
  }

  /**
   * After the limit, a review of a kept cluster gets its cluster's theme name
   * and a review of a merged cluster gets "Other" (for one theme per cluster,
   * with the clusterer's non-negative ids).
   */
  lemma EnrichAfterLimit(themes: seq<Theme>, k: nat)
    requires k < |themes|
    requires Distinct(ClusterIds(themes))
    requires forall i :: 0 <= i < |themes| ==> themes[i].clusterId >= 0
    ensures var final := EnforceLimit(themes);
      ThemeNameFor(themes[k].clusterId, final) == if themes[k] in final then themes[k].name else OtherName
  {
    if |themes| <= MaxThemes {
      EnrichWithinLimit(themes, k);
      assert themes[k] in multiset(EnforceLimit(themes));
    } else {
      EnrichOverLimit(themes, k);
    }
  }

  // ---------------------------------------------------------------------
  // Keyword labelling (no language model)
  // ---------------------------------------------------------------------

  predicate AllWordChars(w: string) {
    forall i :: 0 <= i < |w| ==> IsWordChar(w[i])
  }

  /** Length of the run of word characters at the front of `s`. */
  function RunLen(s: string): (n: nat)
    ensures n <= |s|
    ensures forall i :: 0 <= i < n ==> IsWordChar(s[i])
    ensures n < |s| ==> !IsWordChar(s[n])
  {
    if s == [] || !IsWordChar(s[0]) then 0 else 1 + RunLen(s[1..])
  }

  /** `re.findall(r'\b\w+\b', s)`: the maximal runs of word characters, in order. */
  function WordRuns(s: string): (ws: seq<string>)
    ensures forall i :: 0 <= i < |ws| ==> ws[i] != [] && AllWordChars(ws[i])
    decreases |s|
  {
    if s == [] then []
    else if !IsWordChar(s[0]) then WordRuns(s[1..])
    else
      var n := RunLen(s);
      [s[..n]] + WordRuns(s[n..])
  }

  lemma {:induction false} FilterAll<T>(s: seq<T>, p: T -> bool)
    requires forall i :: 0 <= i < |s| ==> p(s[i])
    ensures Filter(s, p) == s
  {
    if s != [] {
      FilterAll(s[1..], p);
    }
  }

  /** The runs, put back together, are exactly the word characters of `s`. */
  lemma {:induction false} WordRunsCover(s: string)
    ensures Flatten(WordRuns(s)) == Filter(s, IsWordChar)
    decreases |s|
  {
    if s != [] {
      if !IsWordChar(s[0]) {
        WordRunsCover(s[1..]);
      } else {
        var n := RunLen(s);
        var rest := WordRuns(s[n..]);
        assert s == s[..n] + s[n..];
        FilterConcat(s[..n], s[n..], IsWordChar);
        FilterAll(s[..n], IsWordChar);
        WordRunsCover(s[n..]);
        assert ([s[..n]] + rest)[1..] == rest;
      }
    }
  }

  const StopWords: set<string> := {
    "the", "a", "an", "and", "or", "but", "in", "on", "at", "to", "for", "of", "is", "are", "was",
    "were", "be", "been", "being", "have", "has", "had", "do", "does", "did", "will", "would",
    "should", "could", "may", "might", "must", "can", "this", "that", "these", "those", "i", "you",
    "he", "she", "it", "we", "they", "what", "which", "who", "when", "where", "why", "how", "not",
    "very", "just", "even", "about", "into", "through", "during", "before", "after", "above",
    "below", "from", "up", "down", "out", "off", "over", "under", "again", "further", "then", "once"
  }

  /** Only this many reviews of a cluster are sampled for keywords. */
  const LabelSample: nat := 5

  predicate IsKeyword(w: string) {
    w !in StopWords && |w| > 3
  }

  /** The word runs of the lower-cased reviews, one review after another. */
  function ReviewWords(reviews: seq<string>): (ws: seq<string>)
    ensures forall i :: 0 <= i < |ws| ==> ws[i] != [] && AllWordChars(ws[i])
  {
    if reviews == [] then [] else WordRuns(Lower(reviews[0])) + ReviewWords(reviews[1..])
  }

  /** The non-stopword words longer than three characters of the first five reviews. */
  function Keywords(reviews: seq<string>): (ws: seq<string>)
    ensures forall i :: 0 <= i < |ws| ==> IsKeyword(ws[i]) && AllWordChars(ws[i])
  {
    var sample := reviews[..Min(LabelSample, |reviews|)];
    var all := ReviewWords(sample);
    var ks := Filter(all, IsKeyword);
    assert forall i :: 0 <= i < |ks| ==> ks[i] in all;
    ks
  }

  /**
   * `Counter(ws).most_common(3)[:2]`: the (at most two) most frequent words,
   * ties going to the word seen first.
   */
  function TopWords(ws: seq<string>): (top: seq<string>)
    ensures |top| <= 2
    ensures ws == [] <==> top == []
    ensures |ws| > 0 && |top| < 2 ==> forall i :: 0 <= i < |ws| ==> ws[i] == top[0]
    ensures forall i :: 0 <= i < |top| ==> top[i] in ws
    ensures |top| > 0 ==> forall i :: 0 <= i < |ws| ==> Occ(ws, ws[i]) <= Occ(ws, top[0])
    ensures |top| > 1 ==> forall i :: 0 <= i < |ws| && ws[i] != top[0] ==> Occ(ws, ws[i]) <= Occ(ws, top[1])
    ensures |top| == 2 ==> top[0] != top[1]
    ensures |top| > 0 ==> forall i :: 0 <= i < Pos(ws, top[0]) ==> Occ(ws, ws[i]) < Occ(ws, top[0])
    ensures |top| > 1 ==> forall i :: 0 <= i < Pos(ws, top[1]) && ws[i] != top[0] ==> Occ(ws, ws[i]) < Occ(ws, top[1])
  {
    var ranked := SortDesc(Tally(ws), CountOf);
    RankedEntries(ws, ranked);
    RankedEmpty(ws, ranked);
    RankedFirst(ws, ranked);
    RankedSecond(ws, ranked);
    RankedTieOrdered(ws, ranked);
    RankedTies(ws, ranked);
    KeysOf(ranked)[..Min(2, |ranked|)]
  }

  /** Of two ranked words with equal counts, the one ranked first occurs first in `ws`. */
  lemma RankedTieOrder(ws: seq<string>, ranked: seq<(string, nat)>, x: nat, m: nat)
    requires ranked == SortDesc(Tally(ws), CountOf)
    requires forall k :: 0 <= k < |ranked| ==> ranked[k].0 in ws
    requires x < m < |ranked| && ranked[x].1 == ranked[m].1
    ensures Pos(ws, ranked[x].0) < Pos(ws, ranked[m].0)
  {
    var t := Tally(ws);
    TallySpec(ws);
    TallyKeys(ws);
    FreshOrder(ws, []);
    assert Distinct(t) by {
      forall i, j | 0 <= i < j < |t| ensures t[i] != t[j] {
        assert KeysOf(t)[i] != KeysOf(t)[j];
      }
    }
    assert ranked[x] in multiset(t) && ranked[m] in multiset(t);
    var a :| 0 <= a < |t| && t[a] == ranked[x];
    var b :| 0 <= b < |t| && t[b] == ranked[m];
    StableOrder(t, ranked, CountOf, x, m, a, b);
    assert KeysOf(t)[a] == ranked[x].0 && KeysOf(t)[b] == ranked[m].0;
  }

  /** Among equal counts, the ranking follows first occurrence in `ws`. */
  predicate TieOrdered(ws: seq<string>, ranked: seq<(string, nat)>) {
    forall a, b :: 0 <= a < b < |ranked| && ranked[a].0 in ws && ranked[b].0 in ws && ranked[a].1 == ranked[b].1 ==>
      Pos(ws, ranked[a].0) < Pos(ws, ranked[b].0)
  }

  lemma RankedTieOrdered(ws: seq<string>, ranked: seq<(string, nat)>)
    requires ranked == SortDesc(Tally(ws), CountOf)
    requires forall k :: 0 <= k < |ranked| ==> ranked[k].0 in ws
    ensures TieOrdered(ws, ranked)
  {
    forall a, b | 0 <= a < b < |ranked| && ranked[a].1 == ranked[b].1
      ensures Pos(ws, ranked[a].0) < Pos(ws, ranked[b].0)
    {
      RankedTieOrder(ws, ranked, a, b);
    }
  }

  /** The first-seen tie-break of `most_common`, and the distinctness of the two top words. */
  lemma RankedTies(ws: seq<string>, ranked: seq<(string, nat)>)
    requires multiset(ranked) == multiset(Tally(ws)) && TieOrdered(ws, ranked)
    requires forall m :: 0 <= m < |ranked| ==> ranked[m].0 in ws && ranked[m].1 == Occ(ws, ranked[m].0)
    requires |ranked| > 0 ==> forall i :: 0 <= i < |ws| ==> Occ(ws, ws[i]) <= ranked[0].1
    requires |ranked| > 1 ==> forall i :: 0 <= i < |ws| && ws[i] != ranked[0].0 ==> Occ(ws, ws[i]) <= ranked[1].1
    ensures |ranked| > 1 ==> ranked[0].0 != ranked[1].0
    ensures |ranked| > 0 ==> forall i :: 0 <= i < Pos(ws, ranked[0].0) ==> Occ(ws, ws[i]) < ranked[0].1
    ensures |ranked| > 1 ==> forall i :: 0 <= i < Pos(ws, ranked[1].0) && ws[i] != ranked[0].0 ==> Occ(ws, ws[i]) < ranked[1].1
  {
    if |ranked| > 0 {
      RankedTieFirst(ws, ranked);
    }
    if |ranked| > 1 {
      RankedTopDistinct(ws, ranked);
      RankedTieSecond(ws, ranked);
    }
  }

  lemma RankedTopDistinct(ws: seq<string>, ranked: seq<(string, nat)>)
    requires TieOrdered(ws, ranked) && |ranked| > 1
    requires forall m :: 0 <= m < |ranked| ==> ranked[m].0 in ws && ranked[m].1 == Occ(ws, ranked[m].0)
    ensures ranked[0].0 != ranked[1].0
  {
    assert ranked[0].0 in ws && ranked[1].0 in ws;
  }

  lemma RankedTieFirst(ws: seq<string>, ranked: seq<(string, nat)>)
    requires multiset(ranked) == multiset(Tally(ws)) && TieOrdered(ws, ranked)
    requires forall m :: 0 <= m < |ranked| ==> ranked[m].0 in ws && ranked[m].1 == Occ(ws, ranked[m].0)
    requires |ranked| > 0 && forall i :: 0 <= i < |ws| ==> Occ(ws, ws[i]) <= ranked[0].1
    ensures forall i :: 0 <= i < Pos(ws, ranked[0].0) ==> Occ(ws, ws[i]) < ranked[0].1
  {
    forall i | 0 <= i < Pos(ws, ranked[0].0)
      ensures Occ(ws, ws[i]) < ranked[0].1
    {
      var m := RankedCovers(ws, ranked, i);
      RankedTieAt(ws, ranked, 0, i, m);
    }
  }

  lemma RankedTieSecond(ws: seq<string>, ranked: seq<(string, nat)>)
    requires multiset(ranked) == multiset(Tally(ws)) && TieOrdered(ws, ranked)
    requires forall m :: 0 <= m < |ranked| ==> ranked[m].0 in ws && ranked[m].1 == Occ(ws, ranked[m].0)
    requires |ranked| > 1 && forall i :: 0 <= i < |ws| && ws[i] != ranked[0].0 ==> Occ(ws, ws[i]) <= ranked[1].1
    ensures forall i :: 0 <= i < Pos(ws, ranked[1].0) && ws[i] != ranked[0].0 ==> Occ(ws, ws[i]) < ranked[1].1
  {
    forall i | 0 <= i < Pos(ws, ranked[1].0) && ws[i] != ranked[0].0
      ensures Occ(ws, ws[i]) < ranked[1].1
    {
      var m := RankedCovers(ws, ranked, i);
      RankedTieAt(ws, ranked, 1, i, m);
    }
  }

  /**
   * A word occurring before the first occurrence of the word ranked `x`, and
   * not ranked before it, is strictly less frequent.
   */
  lemma RankedTieAt(ws: seq<string>, ranked: seq<(string, nat)>, x: nat, i: nat, m: nat)
    requires TieOrdered(ws, ranked)
    requires x < |ranked| && ranked[x].0 in ws && i < Pos(ws, ranked[x].0)
    requires m < |ranked| && ranked[m].0 == ws[i] && ranked[m].1 == Occ(ws, ws[i])
    requires forall k :: 0 <= k < x ==> ranked[k].0 != ws[i]
    requires Occ(ws, ws[i]) <= ranked[x].1
    ensures Occ(ws, ws[i]) < ranked[x].1
  {
    assert m != x;
    assert x < m;
  }

  /** Every entry of the ranked tally is a word with its count. */
  lemma RankedEntries(ws: seq<string>, ranked: seq<(string, nat)>)
    requires multiset(ranked) == multiset(Tally(ws))
    ensures forall m :: 0 <= m < |ranked| ==> ranked[m].0 in ws && ranked[m].1 == Occ(ws, ranked[m].0)
  {
    TallySpec(ws);
    forall m | 0 <= m < |ranked| ensures ranked[m].0 in ws && ranked[m].1 == Occ(ws, ranked[m].0) {
      assert ranked[m] in multiset(Tally(ws));
    }
  }

  /** Every word has its entry in the ranked tally. */
  lemma RankedCovers(ws: seq<string>, ranked: seq<(string, nat)>, i: nat) returns (m: nat)
    requires multiset(ranked) == multiset(Tally(ws))
    requires i < |ws|
    ensures m < |ranked| && ranked[m].0 == ws[i] && ranked[m].1 == Occ(ws, ws[i])
  {
    var t := Tally(ws);
    TallySpec(ws);
    var j :| 0 <= j < |t| && KeysOf(t)[j] == ws[i];
    assert t[j] in multiset(ranked);
    m :| 0 <= m < |ranked| && ranked[m] == t[j];
  }

  lemma RankedEmpty(ws: seq<string>, ranked: seq<(string, nat)>)
    requires multiset(ranked) == multiset(Tally(ws))
    ensures ws == [] <==> ranked == []
  {
    if ws != [] {
      var m := RankedCovers(ws, ranked, 0);
    } else {
      assert Tally(ws) == [];
      assert |multiset(ranked)| == 0;
    }
  }

  /** The first ranked word is at least as frequent as any word. */
  lemma RankedFirst(ws: seq<string>, ranked: seq<(string, nat)>)
    requires multiset(ranked) == multiset(Tally(ws)) && SortedDesc(ranked, CountOf)
    ensures |ranked| > 0 ==> forall i :: 0 <= i < |ws| ==> Occ(ws, ws[i]) <= ranked[0].1
    ensures |ranked| == 1 ==> forall i :: 0 <= i < |ws| ==> ws[i] == ranked[0].0
  {
    forall i | 0 <= i < |ws|
      ensures Occ(ws, ws[i]) <= ranked[0].1
      ensures |ranked| == 1 ==> ws[i] == ranked[0].0
    {
      var m := RankedCovers(ws, ranked, i);
      assert CountOf(ranked[0]) >= CountOf(ranked[m]);
    }
  }

  /** The second ranked word is at least as frequent as any word but the first. */
  lemma RankedSecond(ws: seq<string>, ranked: seq<(string, nat)>)
    requires multiset(ranked) == multiset(Tally(ws)) && SortedDesc(ranked, CountOf)
    ensures |ranked| > 1 ==> forall i :: 0 <= i < |ws| && ws[i] != ranked[0].0 ==> Occ(ws, ws[i]) <= ranked[1].1
  {
    if |ranked| > 1 {
      forall i | 0 <= i < |ws| && ws[i] != ranked[0].0 ensures Occ(ws, ws[i]) <= ranked[1].1 {
        var m := RankedCovers(ws, ranked, i);
        assert CountOf(ranked[1]) >= CountOf(ranked[m]);
      }
    }
  }

  const DefaultLabel: string := "General Feedback"

  datatype Label = Label(name: string, description: string)

  function CapitalizeAll(ws: seq<string>): (r: seq<string>)
    ensures |r| == |ws| && forall i :: 0 <= i < |ws| ==> r[i] == Capitalize(ws[i])
  {
    seq(|ws|, i requires 0 <= i < |ws| => Capitalize(ws[i]))
  }

  /**
   * `ThemeLabeler._fallback_labeling`: the two most frequent keywords,
   * capitalised and joined by a space, or "General Feedback" when the sampled
   * reviews have no keyword.
   */
  function FallbackLabel(reviews: seq<string>): (r: Label)
    ensures Keywords(reviews) == [] ==> r.name == DefaultLabel
    ensures Keywords(reviews) != [] ==> Words(r.name) == CapitalizeAll(TopWords(Keywords(reviews)))
    ensures 1 <= WordCount(r.name) <= 2
    ensures r.description == "Reviews discussing " + Lower(r.name)
  {
    var top := TopWords(Keywords(reviews));
    var name := if top == [] then DefaultLabel else Join(CapitalizeAll(top), " ");
    LabelWords(Keywords(reviews), top, name);
    Label(name, "Reviews discussing " + Lower(name))
  }

  lemma CapitalizeWord(w: string)
    requires w != [] && AllWordChars(w)
    ensures Capitalize(w) != [] && NoSpace(Capitalize(w))
  {
    var c := Capitalize(w);
    forall i | 0 <= i < |c| ensures !IsSpace(c[i]) {
      if i > 0 {
        assert c[i] == LowerChar(w[i]);
      }
    }
  }

  lemma LabelWords(ks: seq<string>, top: seq<string>, name: string)
    requires forall i :: 0 <= i < |ks| ==> IsKeyword(ks[i]) && AllWordChars(ks[i])
    requires top == TopWords(ks)
    requires name == if top == [] then DefaultLabel else Join(CapitalizeAll(top), " ")
    ensures ks != [] ==> Words(name) == CapitalizeAll(top)
    ensures 1 <= WordCount(name) <= 2
  {
    if top == [] {
      assert DefaultLabel == "General" + " " + "Feedback";
      WordCountSeparated("General", " ", "Feedback");
      WordCountOfWord("General");
      WordCountOfWord("Feedback");
    } else {
      var caps := CapitalizeAll(top);
      forall i | 0 <= i < |caps| ensures caps[i] != [] && NoSpace(caps[i]) {
        assert top[i] in ks;
        var j :| 0 <= j < |ks| && ks[j] == top[i];
        CapitalizeWord(top[i]);
      }
      WordsJoin(caps, " ");
      WordsCount(name);
    }
  }
}

=== FILE: wrappers.dfy ===
/** The optional value shared by every module of the model. */
module Wrappers {

  /** A value that may be missing: a failed call, an absent field. */
  datatype Option<+T> = None | Some(value: T) {

    /** `x if x is not None else fallback`. */
    function GetOr(fallback: T): T {
      if Some? then value else fallback
    }
  }
}
